=== FILE: README.md ===
# Monk Mode core, modelled in Dafny

Monk Mode is a productivity application built around "monk mode" periods:
a goal with objectives, a daily schedule of activities, energy logging,
a support network that is notified when the user struggles, motivation
content (media and letters to one's future self) and an AI coach that
writes plans. This project models the decision logic at its core as pure
Dafny functions over immutable records, and proves what that logic
promises.

One module per source file:

- `Basics` (`basics.dfy`): generic sequence, arithmetic and text helpers
  (filters, a stable descending sort, top-n selection, means, decimal
  rendering) with their own lemmas.
- `Models` (`models.dfy`): the records of `models.py`, their validator
  ranges and uniqueness keys, goal completion, marking an objective
  completed, saving a period (one active period per goal) and an
  activity's actual duration. Instants are whole seconds counted from a
  Monday midnight; dates are day numbers; times of day are minutes.
- `PriorityEngine` (`priority_engine.dfy`): the six priority factors, the
  weighted blend, the score table upsert, the ranked day, focus advice,
  the performance score and the productivity-pattern running mean.
- `EnergyService` (`energy_service.dfy`): logging a level (clamp, day
  slot, context cleaning, alerts), predicting hourly energy (circadian
  defaults, recency weights, confidence, contextual adjustment), booster
  and drain tallies, trends, recovery advice and recommendations.
- `SupportService` (`support_service.dfy`): the mood and adherence
  checks, notifying the support network with its 24-hour guard,
  preferences and record retention, message templates and emergency
  requests.
- `Schedule` (`schedule.dfy`): the basic schedule generator of
  `utils.py`: the twelve-slot daily template, durations wrapping past
  midnight, expansion over the goal's days and period activation.
- `AiService` (`ai_service.dfy`): recognising and cutting a plan out of a
  model reply, the required-field check, plan activity durations, the
  conversation and system prompt sent to the model, and the guarded
  averages of the user context and goal adjustment figures.
- `MotivationService` (`motivation_service.dfy`): daily motivation
  selection, mood motivation, scheduled letter delivery and milestone
  releases.

Whatever happens outside the program's own logic is an input: whether an
email goes out (`delivered`, `sent`), the JSON parser (`parse`), how a
stored JSON value prints (`render`), whether the database sorts missing
values first (`nullsFirst`), and the current time (`now`, `today`).

## Model

| member | source | states |
|---|---|---|
| Models.HourOf | monkmode_productivity/apps/core/services/priority_engine.py:213 | the hour of a moment is always a valid hour, 0 to 23 |
| Models.Weekday | monkmode_productivity/apps/core/services/energy_service.py:352 | the weekday of a moment is in 0..6, Monday being 0 |
| Models.TimeOfDay | monkmode_productivity/apps/core/services/energy_service.py:332-333 | the time of day of a moment is a valid minute of the day |
| Models.Lookup | monkmode_productivity/apps/core/services/support_service.py:111-112 | `get` with a default: the default exactly when the key is absent, otherwise a value the mapping holds under that key |
| Basics.Count | monkmode_productivity/apps/core/models.py:38-43 | the number of completed objectives (and, in the preference factor, completed activities) is at most the number of rows, equals it exactly when all are completed and is 0 exactly when none is |
| Models.CompletionPercentage | monkmode_productivity/apps/core/models.py:37-43 | the percentage lies in [0, 100]; it is 0 exactly when no objective is completed (including when there are none) and 100 exactly when there are objectives and all are completed |
| Models.RatioPercent | monkmode_productivity/apps/core/models.py:43 | completed/total·100 lies in [0, 100], reaching 100 exactly when all are completed and 0 exactly when none are |
| Models.MarkCompleted | monkmode_productivity/apps/core/models.py:63-66 | the objective ends completed, stamped with the current time, and no other field changes |
| Models.Deactivate | monkmode_productivity/apps/core/models.py:86-87 | every period of the goal is inactive afterwards; periods of other goals and the table's length are unchanged |
| Models.WriteRow | monkmode_productivity/apps/core/models.py:88 | saving replaces the row with the same primary key when there is one and appends the row otherwise |
| Models.SavePeriod | monkmode_productivity/apps/core/models.py:84-88 | after saving, the period is stored under its id; when it is active it is the only active period of its goal; rows of other goals are untouched |
| Models.DeactivateKeepsInvariants | monkmode_productivity/apps/core/models.py:86-87 | deactivating a goal's periods keeps primary keys unique and at most one active period per goal |
| Models.WriteRowKeepsInvariants | monkmode_productivity/apps/core/models.py:88 | writing a period whose goal has no other active period keeps both invariants |
| Models.SavePeriodKeepsOneActive | monkmode_productivity/apps/core/models.py:84-88 | every save preserves "at most one active period per goal" and primary-key uniqueness |
| Models.ActualDurationMinutes | monkmode_productivity/apps/core/models.py:128-132 | defined exactly when both actual times are recorded; the value is the elapsed seconds divided by 60 and truncated toward zero |
| PriorityEngine.Blend | monkmode_productivity/apps/core/services/priority_engine.py:20-27 | with every factor in [0, 1] the final score is in [0, 1]; when all six factors are equal the score is that value, because the weights sum to 1 |
| PriorityEngine.NeutralFactorsScoreHalf | monkmode_productivity/apps/core/services/priority_engine.py:67-74 | an activity whose six factors are all 0.5 gets final score 0.5 |
| PriorityEngine.BlendMonotone | monkmode_productivity/apps/core/services/priority_engine.py:67-74 | raising any factor never lowers the final score |
| PriorityEngine.UrgencyTier | monkmode_productivity/apps/core/services/priority_engine.py:137-148 | the urgency lies in [0.2, 1.0]; it is 1.0 exactly for overdue or due-today deadlines and 0.2 exactly beyond 14 days |
| PriorityEngine.UrgencyTierMonotone | monkmode_productivity/apps/core/services/priority_engine.py:137-148 | urgency is non-increasing in the days until the deadline |
| PriorityEngine.EarliestOpenDue | monkmode_productivity/apps/core/services/priority_engine.py:125-134 | none exactly when no objective is open and dated; otherwise the due date of one such objective that no other open dated objective precedes |
| PriorityEngine.DeadlineUrgency | monkmode_productivity/apps/core/services/priority_engine.py:120-148 | 0.5 without open dated objectives; otherwise the urgency of one of them, and at least the urgency of every one, i.e. the urgency of the nearest deadline |
| PriorityEngine.GoalImpact | monkmode_productivity/apps/core/services/priority_engine.py:155-176 | the impact is one of 1.0, 0.8, 0.6, 0.4, 0.5; it is 1.0 exactly for the core names and 0.5 exactly for names in none of the four lists, compared after lower-casing |
| PriorityEngine.KelvinDeepWork | monkmode_productivity/apps/core/services/priority_engine.py:159-160 | a type named "DEEP WOR" followed by the Kelvin sign, which lower-cases to "k", has the full impact of Deep Work |
| PriorityEngine.GoalImpactIgnoresCase | monkmode_productivity/apps/core/services/priority_engine.py:159-171 | names that differ only in letter case get the same impact |
| PriorityEngine.DeepWorkHasFullImpact | monkmode_productivity/apps/core/services/priority_engine.py:159-160 | "Deep Work", in any letter case, gets impact 1.0 |
| PriorityEngine.EnergyAlignment | monkmode_productivity/apps/core/services/priority_engine.py:194-203 | in [0.6, 1.0] when the predicted energy covers the requirement and 1.0 when it matches exactly; in [0.1, 0.5) when it falls short |
| PriorityEngine.EnergyAlignmentMonotoneInDeficit | monkmode_productivity/apps/core/services/priority_engine.py:199-203 | under a deficit, more predicted energy never lowers the alignment |
| PriorityEngine.DefaultEnergyPattern | monkmode_productivity/apps/core/services/priority_engine.py:243-256 | the engine's default lies in [4.0, 8.5]; it is 4.0 exactly at night (before 6 or after 21) and 8.5 exactly from 10 to 12 |
| PriorityEngine.LogLevels | monkmode_productivity/apps/core/services/priority_engine.py:223 | the energy levels of the logs, one per log, in order |
| PriorityEngine.PatternEnergies | monkmode_productivity/apps/core/services/priority_engine.py:227-230 | the energy levels of the patterns, one per pattern, in order |
| PriorityEngine.PredictUserEnergy | monkmode_productivity/apps/core/services/priority_engine.py:210-236 | with logs at this hour in the last 30 days the prediction lies between their least and greatest level (their plain mean); with no such logs but this hour's patterns averaging a non-zero energy it lies between the least and greatest pattern energy; otherwise it is the default pattern for the hour |
| PriorityEngine.PredictUserEnergyInRange | monkmode_productivity/apps/core/services/priority_engine.py:210-236 | with valid logged levels and pattern energies the prediction stays within 1 to 10 |
| PriorityEngine.ContainsAny | monkmode_productivity/apps/core/services/priority_engine.py:277-288 | true exactly when some keyword occurs as a substring |
| PriorityEngine.DependencyWeight | monkmode_productivity/apps/core/services/priority_engine.py:259-290 | the weight is 0.8, 0.3 or 0.5; 0.8 exactly when a blocking keyword occurs in the lower-cased description; 0.3 exactly when none does and a dependent one does |
| Basics.LowerCharToAscii | monkmode_productivity/apps/core/services/priority_engine.py:269 | lower-casing yields an ASCII letter exactly from an ASCII letter or the Kelvin sign, as Python's `str.lower` does |
| Basics.ParseInt | monkmode_productivity/apps/core/services/energy_service.py:46 | `int` reads a string exactly when it is a non-empty run of decimal digits of any script no longer than 4300 digits, and reads ASCII digits as their decimal value |
| Basics.ParseIntRoundTrip | monkmode_productivity/apps/core/services/energy_service.py:46 | reading the decimal text of a number within the limit gives the number back |
| Basics.DigitOnlyNotDecimal | monkmode_productivity/apps/core/services/energy_service.py:45-46 | a character that `str.isdigit` accepts only as a digit, not as a decimal digit, cannot be read by `int` |
| Basics.UnicodeDigitWitnesses | monkmode_productivity/apps/core/services/energy_service.py:45-46 | "٣" is read as 3; "²" passes `str.isdigit` but `int` cannot read it |
| PriorityEngine.KelvinFramework | monkmode_productivity/apps/core/services/priority_engine.py:269-275 | "FRAMEWOR" followed by the Kelvin sign is blocking, like "framework" |
| PriorityEngine.FrameworkIsBlocking | monkmode_productivity/apps/core/services/priority_engine.py:269-275 | a description that lower-cases to "framework" is blocking and weighs 0.8 |
| PriorityEngine.PlanningOutranksTest | monkmode_productivity/apps/core/services/priority_engine.py:272-288 | a description containing both "planning" and "test" gets 0.8: blocking keywords are checked first |
| PriorityEngine.PatternPerformances | monkmode_productivity/apps/core/services/priority_engine.py:307-309 | the average performances of the patterns, one per pattern, in order |
| PriorityEngine.UserPreference | monkmode_productivity/apps/core/services/priority_engine.py:297-328 | the preference lies in [0, 1]; with the type's patterns it is their mean performance unless clamped, clamped to 0 only when some performance is at most 0 and to 1 only when some is at least 1; without patterns it is the completed share of the type's activities, 1 exactly when all are completed and 0 exactly when none is; 0.5 with no history |
| PriorityEngine.PerformanceShare | monkmode_productivity/apps/core/services/priority_engine.py:306-310 | the clamped mean performance lies in [0, 1] and between the least and greatest performance unless cut at 0 or 1, which only happens when a performance reaches past that end |
| PriorityEngine.CompletionShare | monkmode_productivity/apps/core/services/priority_engine.py:313-326 | the completed share lies in [0, 1], is 1 exactly when every activity is completed and 0 exactly when none is |
| PriorityEngine.ComplementaryActivities | monkmode_productivity/apps/core/services/priority_engine.py:377-389 | at most three complements; a name outside the seven keys gets none |
| PriorityEngine.ComplementIsOneWay | monkmode_productivity/apps/core/services/priority_engine.py:379-387 | the map is asymmetric: Sleep complements Exercise, but Exercise does not complement Sleep |
| PriorityEngine.Momentum | monkmode_productivity/apps/core/services/priority_engine.py:335-370 | 0.5 with no completion in the last two days; in (0.5, 0.8] with same-type completions: 0.6 for one, 0.7 for two, 0.8 from three on; 0.6 exactly for one same-type completion or, failing any, a complementary one; 0.4 exactly when recent completions are neither |
| PriorityEngine.ScoreActivity | monkmode_productivity/apps/core/services/priority_engine.py:53-74 | every factor lies between the least and the greatest value its scorer can return, and the final score, their blend, lies in [0.235, 0.96] |
| PriorityEngine.ScoreAll | monkmode_productivity/apps/core/services/priority_engine.py:51-105 | one scored entry per activity, in order, each score the blend of in-range factors |
| PriorityEngine.RowFor | monkmode_productivity/apps/core/models.py:299 | finds the score row linked to an activity; none exactly when no row is linked to it |
| PriorityEngine.UpsertScore | monkmode_productivity/apps/core/services/priority_engine.py:77-98 | after get-or-create and overwrite, the activity's row holds the new values, every other activity's row is unchanged, and the one-row-per-activity link is kept |
| PriorityEngine.UpsertConsUnique | monkmode_productivity/apps/core/models.py:299 | a row whose activity differs from the head's keeps the one-row-per-activity link when put back behind the head |
| PriorityEngine.UpsertAll | monkmode_productivity/apps/core/services/priority_engine.py:51-98 | writing a list of scores with distinct activities leaves each activity's row holding its own score, leaves every other row alone, and keeps one row per activity |
| PriorityEngine.DayPlan | monkmode_productivity/apps/core/services/priority_engine.py:36-43 | the plan is the first active goal with the first active period of that goal; there is none when no goal is active or when the first active goal has no active period, whatever later goals have |
| PriorityEngine.Scored | monkmode_productivity/apps/core/services/priority_engine.py:36-105 | no entries without an active goal and period; otherwise exactly one scored entry per activity of the period day, in store order |
| PriorityEngine.ScoredIdsDistinct | monkmode_productivity/apps/core/services/priority_engine.py:49-52 | with unique activity ids the scored activities are distinct, so each gets exactly one score row |
| PriorityEngine.RankedDay | monkmode_productivity/apps/core/services/priority_engine.py:107-111 | the returned list is a permutation of the scored activities, sorted by descending final score, with activities of equal score kept in store order; empty without an active goal or period |
| PriorityEngine.ScoreTable | monkmode_productivity/apps/core/services/priority_engine.py:77-98 | each scored activity's row holds exactly its computed factors and score; rows of other activities are untouched; rows stay one per activity |
| PriorityEngine.DailyPrioritiesIdempotent | monkmode_productivity/apps/core/services/priority_engine.py:77-98 | recomputing on the same store leaves every score row as it was |
| PriorityEngine.FocusAdvice | monkmode_productivity/apps/core/services/priority_engine.py:431-495 | the advice starts by naming the top activity and never contains the "no active period" line |
| PriorityEngine.FocusAdviceEnergy | monkmode_productivity/apps/core/services/priority_engine.py:453-460 | the high-energy line appears exactly when the prediction is at least 7, the low-energy line exactly when it is at most 4 |
| PriorityEngine.FocusAdviceTime | monkmode_productivity/apps/core/services/priority_engine.py:463-471 | the morning deep-work line appears exactly from 6 to 10 o'clock, the post-lunch line exactly from 14 to 16 |
| PriorityEngine.FocusAdviceMomentum | monkmode_productivity/apps/core/services/priority_engine.py:485-493 | the momentum line appears exactly when some activity has momentum above 0.6 |
| PriorityEngine.FocusAdviceUrgent | monkmode_productivity/apps/core/services/priority_engine.py:474-482 | the urgency line appears exactly when some activity's deadline urgency exceeds 0.7, and it carries the number of such activities |
| PriorityEngine.FocusRecommendations | monkmode_productivity/apps/core/services/priority_engine.py:392-420 | an empty ranking gives only the "no active period" line; otherwise the primary focus is the first ranked activity, the secondary the next one or two, and on a descending ranking the primary has the highest score |
| PriorityEngine.FocusLines | monkmode_productivity/apps/core/services/priority_engine.py:449-471 | for a non-empty ranking the energy lines follow the given prediction and the time lines the given hour, each as an iff |
| PriorityEngine.CurrentFocus | monkmode_productivity/apps/core/services/priority_engine.py:449-464 | the recommendations as the service computes them: the day's ranking with its first entry as primary focus, or only the "no active period" line; the high- and low-energy lines exactly when the energy predicted for the current hour is at least 7 or at most 4; the morning and post-lunch lines exactly when the current hour is 6-10 or 14-16 |
| PriorityEngine.HighEnergyHourAdvised | monkmode_productivity/apps/core/services/priority_engine.py:210-224 | when every reading logged at the current hour of the day in the last 30 days is 7 or more, the current advice says energy is high |
| PriorityEngine.LowEnergyHourAdvised | monkmode_productivity/apps/core/services/priority_engine.py:210-224 | when every such reading is 4 or less, the current advice says energy is low |
| PriorityEngine.QualityShift | monkmode_productivity/apps/core/services/priority_engine.py:558-559 | no shift without a (non-zero) rating; a valid 1-5 rating shifts the score by at most 0.2 either way |
| PriorityEngine.TimingShift | monkmode_productivity/apps/core/services/priority_engine.py:561-571 | the timing shift is +0.2, 0 or -0.2, and 0 when either duration is missing or zero |
| PriorityEngine.OnScheduleEarnsBonus | monkmode_productivity/apps/core/services/priority_engine.py:566-569 | an activity that took exactly its scheduled time gets the +0.2 bonus |
| PriorityEngine.PerformanceScore | monkmode_productivity/apps/core/services/priority_engine.py:552-573 | the score lies in [0, 1]; without rating or timing shift it is 0.5; for a valid activity the clamp never binds |
| PriorityEngine.PerformanceMonotoneInQuality | monkmode_productivity/apps/core/services/priority_engine.py:558-559 | a better completion rating never lowers the performance score |
| PriorityEngine.RunningMean | monkmode_productivity/apps/core/services/priority_engine.py:535-538 | the updated average lies between the old average and the new sample |
| PriorityEngine.IncrementalMeanIsMean | monkmode_productivity/apps/core/services/priority_engine.py:521-539 | creating a pattern from the first sample and updating it with each further one yields the plain mean of all the samples |
| PriorityEngine.MeanStep | monkmode_productivity/apps/core/services/priority_engine.py:535-538 | folding one more sample into the mean of n samples gives the mean of the n+1 samples |
| PriorityEngine.PatternIndex | monkmode_productivity/apps/core/services/priority_engine.py:521-524 | finds the pattern stored for an hour and activity type; none exactly when there is none |
| PriorityEngine.TotalSamplesAppend | monkmode_productivity/apps/core/services/priority_engine.py:525-531 | a created pattern adds its sample size to the table's total |
| PriorityEngine.TotalSamplesUpdate | monkmode_productivity/apps/core/services/priority_engine.py:533-540 | replacing a pattern changes the total by the difference of the sample sizes |
| PriorityEngine.UpsertPattern | monkmode_productivity/apps/core/services/priority_engine.py:520-540 | a missing pattern is appended with sample size 1; an existing one folds the sample into its average with n+1 samples and no other pattern changes; either way the table gains exactly one sample |
| PriorityEngine.UpsertPatternKeepsKeysUnique | monkmode_productivity/apps/core/models.py:322-323 | the upsert keeps (hour, activity type) unique and leaves a pattern for the pair |
| PriorityEngine.UpsertPatternKeepsRanges | monkmode_productivity/apps/core/services/priority_engine.py:535-538 | with samples in [0, 1] every stored average stays in [0, 1], and hours stay in 0..23 |
| PriorityEngine.UpdateProductivityPatterns | monkmode_productivity/apps/core/services/priority_engine.py:498-545 | returns the number of activities completed in the last 30 days and the table after upserting each of them in order (`FoldActivities`); each added one sample, pattern keys stay unique and averages stay in [0, 1] |
| PriorityEngine.FoldActivities | monkmode_productivity/apps/core/services/priority_engine.py:510-542 | folding completed activities into the table adds one sample per activity and keeps (hour, activity type) unique |
| PriorityEngine.FoldActivitiesSnoc | monkmode_productivity/apps/core/services/priority_engine.py:510-542 | folding one activity more is one more upsert, into the pattern of that activity's completion hour and type |
| PriorityEngine.CompletedRecentlyStamped | monkmode_productivity/apps/core/services/priority_engine.py:502-512 | every activity completed in the last 30 days has a completion time, so its hour is defined |
| EnergyService.NormalizeLevel | monkmode_productivity/apps/core/services/energy_service.py:23-24 | the stored level is always in 1..10; a missing or zero reading becomes 5; an in-range reading is kept; lower readings become 1 and higher ones 10 |
| EnergyService.NormalizeLevelStable | monkmode_productivity/apps/core/services/energy_service.py:23-24 | normalizing twice changes nothing, and normalization keeps non-zero readings in order |
| EnergyService.SlotOf | monkmode_productivity/apps/core/services/energy_service.py:69-75 | the morning slot exactly for hours 5-11, the afternoon exactly for 12-17, the evening exactly for 18-23, and no slot otherwise |
| EnergyService.RecordSlot | monkmode_productivity/apps/core/services/energy_service.py:68-77 | only the slot of the hour receives the level; every other field of the day's log is unchanged |
| EnergyService.RecordSlotOverwrites | monkmode_productivity/apps/core/services/energy_service.py:68-75 | a later reading in the same hour overwrites the earlier one, and a reading at 0-4 o'clock leaves the day's log unchanged |
| EnergyService.StripLeft | monkmode_productivity/apps/core/services/energy_service.py:48 | the result is a suffix starting with a non-space character, and everything removed is white space |
| EnergyService.StripRight | monkmode_productivity/apps/core/services/energy_service.py:48 | the result is a prefix ending with a non-space character, and everything removed is white space |
| EnergyService.Strip | monkmode_productivity/apps/core/services/energy_service.py:48 | the result is a slice of the input with only white space around it, and it neither starts nor ends with white space |
| EnergyService.StripShape | monkmode_productivity/apps/core/services/energy_service.py:48 | stripping both ends leaves a slice with only white space on either side |
| EnergyService.StripIdempotent | monkmode_productivity/apps/core/services/energy_service.py:48 | stripping twice is stripping once, and a string without edge white space is left alone |
| EnergyService.CleanValue | monkmode_productivity/apps/core/services/energy_service.py:42-50 | a None value is dropped; text for which `str.isdigit` holds is stored as the integer `int` reads from it, and makes the call raise exactly when `int` cannot read it (a superscript or circled digit, or more than 4300 digits); other text is stored stripped; numbers and flags pass unchanged |
| EnergyService.DigitTextStoredAsNumber | monkmode_productivity/apps/core/services/energy_service.py:45-46 | the decimal text of any number within the conversion limit is stored as that number |
| EnergyService.DigitOnlyTextRaises | monkmode_productivity/apps/core/services/energy_service.py:45-46 | a digit string holding a character that is a digit but not a decimal digit, such as "²", makes the conversion raise |
| EnergyService.UnicodeDigitValues | monkmode_productivity/apps/core/services/energy_service.py:45-46 | the Arabic-Indic "٣" is stored as 3 and the superscript "²" raises |
| EnergyService.CleanContext | monkmode_productivity/apps/core/services/energy_service.py:40-50 | validation fails exactly when some value raises; otherwise the validated context has exactly the keys whose value was not None, in order, each holding the cleaned form of its original value, and no None value |
| EnergyService.CleanLive | monkmode_productivity/apps/core/services/energy_service.py:41-50 | the loop over the context fails exactly when some value raises; otherwise it yields one entry per live entry, in order, with the same key and the value `CleanValue` stores |
| EnergyService.LiveKeysKept | monkmode_productivity/apps/core/services/energy_service.py:41-43 | a mapping whose keys follow the live entries in order has exactly the keys that hold a value other than None |
| EnergyService.LatestEnded | monkmode_productivity/apps/core/services/energy_service.py:29-33 | none exactly when no activity ended in the two hours up to now; otherwise one that did, and it ended no earlier than any other that did |
| EnergyService.WithActivityBefore | monkmode_productivity/apps/core/services/energy_service.py:26-36 | a caller-given activity_before is kept; otherwise the type of the latest recently ended activity is added under that key, when there is one |
| EnergyService.Levels | monkmode_productivity/apps/core/services/energy_service.py:106 | the levels of the readings, one per reading, in order |
| EnergyService.RecentReadings | monkmode_productivity/apps/core/services/energy_service.py:99-103 | min(3, readings of the last six hours) readings, all of the last six hours, latest first, and no reading of the window left out is later than one kept |
| EnergyService.TwoWindowReadingsSuffice | monkmode_productivity/apps/core/services/energy_service.py:99-105 | two readings of the last six hours are enough for the alert check to look at the trend |
| EnergyService.AlertFor | monkmode_productivity/apps/core/services/energy_service.py:89-113 | no alert with fewer than two recent readings or for a level of 4-7; low exactly when there are at least two recent readings, the level is at most 3 and their average at most 4; high exactly when there are at least two, the low case does not apply, the level is at least 8 and the average at least 7 |
| EnergyService.LowHistoryRaisesLowAlert | monkmode_productivity/apps/core/services/energy_service.py:99-110 | when every reading of the last six hours was at most 4 and there are at least two, a level of at most 3 raises the low alert |
| EnergyService.HighHistoryRaisesHighAlert | monkmode_productivity/apps/core/services/energy_service.py:99-113 | when every reading of the last six hours was at least 7 and there are at least two, a level of at least 8 raises the high alert |
| EnergyService.AlertWitnessedByReading | monkmode_productivity/apps/core/services/energy_service.py:105-113 | a low alert means some reading of the last six hours was at most 4, a high alert that one was at least 7 |
| EnergyService.LoneReadingNeverAlerts | monkmode_productivity/apps/core/services/energy_service.py:99-105 | a reading with no other reading in the six hours before it never raises an alert |
| EnergyService.TwoDigits | monkmode_productivity/apps/core/services/energy_service.py:154 | an hour or minute is written with exactly two digits |
| EnergyService.LowEnergyNote | monkmode_productivity/apps/core/services/energy_service.py:154 | the note appended to the day's challenges starts on a new line |
| EnergyService.LogEnergy | monkmode_productivity/apps/core/services/energy_service.py:16-86 | nothing is written and None is returned exactly when validating the context raises; otherwise the new log holds the current time, the normalized level and the validated context; the alert is decided with the new log among the recent ones; the day's log gets the level in the slot of the hour, and the low-energy note is appended to its challenges exactly when a low alert is raised |
| EnergyService.DigitOnlyContextFails | monkmode_productivity/apps/core/services/energy_service.py:45-86 | a context value such as "²" makes the whole call return None |
| EnergyService.CircadianEnergy | monkmode_productivity/apps/core/services/energy_service.py:310-320 | every hour 0-23 has a default between 2 and 8; any other hour gets 5 |
| EnergyService.CircadianPeakAndTrough | monkmode_productivity/apps/core/services/energy_service.py:313-320 | the default is 8 exactly from 9 to 11 o'clock and 2 exactly from 1 to 4 o'clock |
| EnergyService.RecencyWeight | monkmode_productivity/apps/core/services/energy_service.py:238-239 | the weight is positive for any reading less than ten days ahead, and 1 for a reading of today |
| EnergyService.RecencyWeightDecreasing | monkmode_productivity/apps/core/services/energy_service.py:238-239 | an older reading weighs strictly less |
| EnergyService.HourEstimate | monkmode_productivity/apps/core/services/energy_service.py:237-248 | there is no estimate exactly when a reading lies ten days ahead, where the weight divides by zero |
| EnergyService.TotalWeightPositive | monkmode_productivity/apps/core/services/energy_service.py:244-246 | when no reading lies ten or more days ahead, the weights of at least one reading sum to a positive number, so the plain-mean branch is unreachable for such readings |
| EnergyService.WeightedBounds | monkmode_productivity/apps/core/services/energy_service.py:243-246 | the weighted sum lies between the lower and the upper bound times the total weight |
| EnergyService.HourEstimateWithin | monkmode_productivity/apps/core/services/energy_service.py:233-248 | the weighted estimate lies within any bounds that all the hour's readings lie in |
| EnergyService.HourEstimateWithinSamples | monkmode_productivity/apps/core/services/energy_service.py:233-248 | the weighted estimate lies between the least and the greatest reading of the hour |
| EnergyService.SampleConfidence | monkmode_productivity/apps/core/services/energy_service.py:250 | confidence from n readings lies in [0.1, 0.95] and reaches 0.95 exactly from ten readings on |
| EnergyService.SampleConfidenceMonotone | monkmode_productivity/apps/core/services/energy_service.py:250 | more readings never lower the confidence |
| EnergyService.ActivityShift | monkmode_productivity/apps/core/services/energy_service.py:336-347 | +1.0 exactly for names containing "exercise"; -0.5 exactly for names containing "deep work" but not "exercise"; +0.5 exactly for the exact rest names; 0 otherwise |
| EnergyService.KelvinBreak | monkmode_productivity/apps/core/services/energy_service.py:346-347 | "BREA" followed by the Kelvin sign earns the rest shift of "break" |
| EnergyService.ActivitiesShift | monkmode_productivity/apps/core/services/energy_service.py:329-347 | each overlapping activity moves the estimate by at most +1 and at least -0.5 |
| EnergyService.CalendarShift | monkmode_productivity/apps/core/services/energy_service.py:351-359 | the calendar moves the estimate by +1 on weekend mornings at 10-11, by 0.5 on other weekend hours outside 14-15 and on weekday mornings at 10-11, by 0 on weekend hours 14-15 and ordinary weekday hours, and by -0.5 on weekday hours 14-15 |
| EnergyService.AdjustForContext | monkmode_productivity/apps/core/services/energy_service.py:323-361 | the adjusted estimate always lies in [1, 10], and equals the shifted estimate whenever that is already in range |
| EnergyService.AdjustMonotone | monkmode_productivity/apps/core/services/energy_service.py:323-361 | a higher estimate is never adjusted below a lower one |
| EnergyService.QuietHourUnchanged | monkmode_productivity/apps/core/services/energy_service.py:323-361 | on a weekday outside 10-11 and 14-15, with no overlapping activity, an in-range estimate passes unchanged |
| EnergyService.NoOverlapNoShift | monkmode_productivity/apps/core/services/energy_service.py:329-347 | with no overlapping activity the activities do not move the estimate |
| EnergyService.DefaultPredictions | monkmode_productivity/apps/core/services/energy_service.py:280-307 | exactly hours_ahead predictions (none for a non-positive count), one per consecutive hour from the start, each the circadian default at confidence 0.4 |
| EnergyService.DefaultPredictionsDaily | monkmode_productivity/apps/core/services/energy_service.py:292-302 | default predictions stay within [2, 8] and repeat every 24 hours |
| EnergyService.PredictAt | monkmode_productivity/apps/core/services/energy_service.py:224-261 | the prediction is for the requested hour, on the 1-10 scale; without readings for that hour it is the contextual adjustment of the circadian default at confidence 0.3, with n of them the adjustment of their weighted estimate at min(0.95, 0.1·n); none exactly when a weight divides by zero |
| EnergyService.PredictAtWithinReadings | monkmode_productivity/apps/core/services/energy_service.py:224-261 | with no reading ten days ahead, an hour with readings is predicted between the adjusted least and the adjusted greatest of them |
| EnergyService.PredictHours | monkmode_productivity/apps/core/services/energy_service.py:224-273 | all or nothing: hours_ahead plausible predictions, one per consecutive hour and each the hour's own prediction, or none exactly when some hour fails |
| EnergyService.PredictAtSucceeds | monkmode_productivity/apps/core/services/energy_service.py:237-246 | with no reading ten days ahead every hour is predicted |
| EnergyService.PredictHoursSucceed | monkmode_productivity/apps/core/services/energy_service.py:224-273 | with no reading ten days ahead the whole run succeeds |
| EnergyService.PredictEnergyLevels | monkmode_productivity/apps/core/services/energy_service.py:197-277 | either exactly hours_ahead predictions or the empty list; with readings in the last 30 days and a positive horizon the list is empty exactly when some hour's prediction divides by zero; always exactly hours_ahead when no reading lies ten days ahead; the i-th prediction is for i hours after the current hour of the chosen date; without readings in the last 30 days the run is exactly the default predictions; otherwise each prediction is that hour's prediction from the last 30 days; every prediction is on the 1-10 scale with confidence in [0.1, 0.95] |
| EnergyService.Bump | monkmode_productivity/apps/core/services/energy_service.py:494 | incrementing a label raises its count by one and no other count, adds the label if it was new, and keeps labels distinct |
| EnergyService.TallyOf | monkmode_productivity/apps/core/services/energy_service.py:484-505 | the tally holds each contributed label exactly once, and no other label |
| EnergyService.TallyCounts | monkmode_productivity/apps/core/services/energy_service.py:484-505 | each label is counted exactly as often as it was contributed |
| EnergyService.Top5 | monkmode_productivity/apps/core/services/energy_service.py:511-512 | five entries, or all of them when the tally has fewer, taken from the tally, most frequent first |
| EnergyService.Top5Dominates | monkmode_productivity/apps/core/services/energy_service.py:511-512 | an entry left out of the top five is counted no more often than any entry kept |
| EnergyService.DistinctLabelCount | monkmode_productivity/apps/core/services/energy_service.py:484-505 | a tally with distinct labels has exactly one entry per label |
| EnergyService.TopOfTally | monkmode_productivity/apps/core/services/energy_service.py:511-512 | the top five of the tally of some labels are that label list's most frequent labels, with their exact counts |
| EnergyService.AnalyzeContext | monkmode_productivity/apps/core/services/energy_service.py:478-517 | at most five boosters and five drains, each sorted by descending count; for each, one entry per most frequent distinct label (five, or all when fewer), each with the exact number of contributing readings, and no label left out counted more often than one kept |
| EnergyService.NeutralReadingIgnored | monkmode_productivity/apps/core/services/energy_service.py:493-505 | a reading of 5 or 6 counts neither as booster nor as drain: the analysis is the same without it |
| EnergyService.BoosterCountsExact | monkmode_productivity/apps/core/services/energy_service.py:490-503 | a reported booster carries the exact number of times high readings contributed its label |
| EnergyService.DrainCountsExact | monkmode_productivity/apps/core/services/energy_service.py:490-503 | a reported drain carries the exact number of times low readings contributed its label |
| EnergyService.CountOfDistinct | monkmode_productivity/apps/core/services/energy_service.py:494 | in a tally with distinct labels, looking up an entry's label gives that entry's count |
| EnergyService.FormatTally | monkmode_productivity/apps/core/services/energy_service.py:515-516 | one formatted line per entry, in order |
| EnergyService.TrendOf | monkmode_productivity/apps/core/services/energy_service.py:590-627 | "not enough data" exactly for fewer than 7 readings; otherwise, with d the later half's average minus the earlier half's, up by d exactly when d > 0.5, down by -d exactly when d < -0.5, stable exactly when d lies in [-0.5, 0.5] |
| EnergyService.LaterHigherTrendsUp | monkmode_productivity/apps/core/services/energy_service.py:594-621 | when every later-half reading tops every earlier-half reading by more than half a point, the trend is up |
| EnergyService.LaterLowerTrendsDown | monkmode_productivity/apps/core/services/energy_service.py:594-623 | when every later-half reading lies more than half a point below every earlier-half reading, the trend is down |
| EnergyService.EnergyTrend | monkmode_productivity/apps/core/services/energy_service.py:587-627 | fewer than 7 logs give "not enough data"; otherwise, with d the later half of the logs' average level minus the earlier half's, up by d exactly when d > 0.5, down by -d exactly when d < -0.5, stable otherwise |
| EnergyService.RisingLogsTrendUp | monkmode_productivity/apps/core/services/energy_service.py:594-621 | with at least 7 logs, when every later-half level is above every earlier-half level, the trend is up |
| EnergyService.FallingLogsTrendDown | monkmode_productivity/apps/core/services/energy_service.py:594-623 | with at least 7 logs, when every later-half level is below every earlier-half level, the trend is down |
| EnergyService.ConstantReadingsStable | monkmode_productivity/apps/core/services/energy_service.py:620-627 | readings that never move are stable |
| EnergyService.ReversedTrendFlips | monkmode_productivity/apps/core/services/energy_service.py:594-625 | read backwards, an even-length history trends the opposite way by the same amount |
| EnergyService.TierFor | monkmode_productivity/apps/core/services/energy_service.py:663-683 | restore exactly for an average of at most 4, pace exactly for above 4 up to 6, maintain exactly above 6 |
| EnergyService.TierMonotone | monkmode_productivity/apps/core/services/energy_service.py:663-683 | a higher average never calls for more recovery |
| EnergyService.ValidLevels | monkmode_productivity/apps/core/services/energy_service.py:647-654 | only in-range levels are kept, and none are kept exactly when no level is in range |
| EnergyService.RecoveryAdvice | monkmode_productivity/apps/core/services/energy_service.py:634-709 | "start tracking" exactly when there is no reading in the last three days; otherwise the tier of the average of the valid levels among the five latest readings, with the stress and sleep notes read from the latest reading of the window |
| EnergyService.RecoveryUsesLatestFive | monkmode_productivity/apps/core/services/energy_service.py:647-663 | when every level is valid and a recent reading exists, the tier follows the plain average of the five latest readings |
| EnergyService.AllValidLevels | monkmode_productivity/apps/core/services/energy_service.py:651 | when every level is in range, none is dropped |
| EnergyService.SplitHead | monkmode_productivity/apps/core/services/energy_service.py:561 | the first piece of split(' (') is a prefix of the input containing no " (", the whole input exactly when the input contains none, and otherwise followed by " (" in the input |
| EnergyService.StripCount | monkmode_productivity/apps/core/services/energy_service.py:515 | the part before the last " (" is a prefix, the whole input when there is none, and otherwise followed by a " (" with no later one |
| EnergyService.TopNameAsWritten | monkmode_productivity/apps/core/services/energy_service.py:561-565 | the name the service quotes is the prefix of the formatted entry before its first " (": it holds no " (" and is the whole entry only when the entry has none |
| EnergyService.TopName | monkmode_productivity/apps/core/services/energy_service.py:561-565 | the name as intended is the prefix of the formatted entry before its last " (" |
| EnergyService.TopNameRoundTrip | monkmode_productivity/apps/core/services/energy_service.py:561-565 | reading a formatted entry back gives exactly the label it was formatted from, whatever the label contains |
| EnergyService.TopNameAsWrittenTruncates | monkmode_productivity/apps/core/services/energy_service.py:561-565 | the service quotes the booster "Walk (outdoor)" as "Walk", while the label read back is "Walk (outdoor)" |
| EnergyService.TopNamesAgree | monkmode_productivity/apps/core/services/energy_service.py:561-565 | for a label without " (" the name the service quotes and the name read back are both the label |
| EnergyService.HourTips | monkmode_productivity/apps/core/services/energy_service.py:530-541 | with hourly averages there are exactly two lines: the peak hour, whose average no hour exceeds, and the low hour, which no hour undercuts |
| EnergyService.DayTips | monkmode_productivity/apps/core/services/energy_service.py:544-557 | with daily averages, the best day, which no day exceeds, and the worst day exactly when some day is more than a point below the overall average |
| EnergyService.ContextTips | monkmode_productivity/apps/core/services/energy_service.py:560-566 | a booster line exactly when there is a booster and a drain line exactly when there is a drain, each quoting the label of the first entry as read back by `TopName` |
| EnergyService.ContextTipsAsWritten | monkmode_productivity/apps/core/services/energy_service.py:560-566 | the same lines quoting the first entry's text before its first " (", as the service does |
| EnergyService.ContextTipsAgree | monkmode_productivity/apps/core/services/energy_service.py:560-566 | while the top booster and drain labels hold no " (", the lines as the service words them are the lines of the model |
| EnergyService.LevelTips | monkmode_productivity/apps/core/services/energy_service.py:569-579 | three rest lines below an average of 5, two ambition lines above 7, none in between |
| EnergyService.EnergyRecommendations | monkmode_productivity/apps/core/services/energy_service.py:524-584 | at most nine lines; with hourly averages it starts with the peak hour and then the low hour |
| EnergyService.RecommendsChallengingDay | monkmode_productivity/apps/core/services/energy_service.py:553-557 | a challenging day is named exactly when some day falls more than a point below the overall average |
| EnergyService.RecommendsBoosterAndDrain | monkmode_productivity/apps/core/services/energy_service.py:560-566 | the booster and the drain are quoted exactly when found, under the label read back from the first entry |
| EnergyService.OnlyContextQuotes | monkmode_productivity/apps/core/services/energy_service.py:560-566 | no recommendation line other than the context lines quotes a booster or a drain |
| EnergyService.RecommendsByAverage | monkmode_productivity/apps/core/services/energy_service.py:569-579 | the rest advice appears exactly below an average of 5, the ambition advice exactly above 7 |
| EnergyService.BoosterTipNamesTopBooster | monkmode_productivity/apps/core/services/energy_service.py:511-562 | the booster quoted is exactly the label of the most frequent booster |
| SupportService.Latest | monkmode_productivity/apps/core/services/support_service.py:22-28 | the first log of the newest-first ordering is one of the logs and no log is dated later |
| SupportService.AllLowMoodsDetected | monkmode_productivity/apps/core/services/support_service.py:24-32 | when some mood of the last three days is rated and every such rating is 2 or below, the mood check fires |
| SupportService.GoodMoodsQuiet | monkmode_productivity/apps/core/services/support_service.py:24-32 | when every mood of the last three days is 3 or above, neither the latest-mood nor the 2.5-average condition holds and the mood check stays quiet |
| SupportService.LowAverageAloneDetected | monkmode_productivity/apps/core/services/support_service.py:28-32 | the average condition fires on its own: latest mood 3 with two earlier ratings of 1 averages 5/3 and raises the check |
| SupportService.LowAdherenceDetected | monkmode_productivity/apps/core/services/support_service.py:59-65 | adherence scores of the last three days that are all 6 or below (and at least one) raise the adherence check |
| SupportService.HighAdherenceQuiet | monkmode_productivity/apps/core/services/support_service.py:59-65 | adherence scores of the last three days that are all 7 or above, or none at all, never raise the adherence check |
| SupportService.OldLogIgnored | monkmode_productivity/apps/core/services/support_service.py:18-22 | a log dated more than three days before today changes neither the mood verdict nor the adherence verdict |
| SupportService.TemplateFor | monkmode_productivity/apps/core/services/support_service.py:142-201 | each of the four named triggers has its own template; every other trigger gets the generic one-line message |
| SupportService.TriggerOf | monkmode_productivity/apps/core/services/support_service.py:147-199 | only the four written templates name a trigger; the generic message and an emergency request name none |
| SupportService.TemplateRoundTrip | monkmode_productivity/apps/core/services/support_service.py:147-201 | template and trigger determine each other in both directions |
| SupportService.Wants | monkmode_productivity/apps/core/services/support_service.py:111-112 | a contact with no preference for the trigger is notified |
| SupportService.Deliver | monkmode_productivity/apps/core/services/support_service.py:109-132 | one record per recipient whose email went out, each carrying the trigger, message and time; no record without such a recipient |
| SupportService.DeliveredSomeone | monkmode_productivity/apps/core/services/support_service.py:128-135 | some record is kept exactly when some recipient's email went out |
| SupportService.TriggerNotification | monkmode_productivity/apps/core/services/support_service.py:81-135 | no active contact or a same-trigger notification in the last 24 hours leaves the table unchanged and answers false; otherwise old rows are kept, every active contact wanting the trigger whose email went out gets a record, nothing else is added, and the answer is true exactly when a record was added |
| SupportService.RepeatSuppressed | monkmode_productivity/apps/core/services/support_service.py:94-103 | a notification that reached someone blocks the same trigger for the following 24 hours, whatever the contacts and email outcomes then |
| SupportService.OtherTriggerDoesNotBlock | monkmode_productivity/apps/core/services/support_service.py:95-99 | notifications of a different trigger never suppress this one: it succeeds exactly when some wanting active contact's email goes out |
| SupportService.CheckMoodTriggers | monkmode_productivity/apps/core/services/support_service.py:14-42 | the answer is true exactly when a recent rated mood exists and the latest is at most 2 or the average at most 2.5, independently of email outcomes; a positive answer has sent the mood_low notification, a negative one changes nothing |
| SupportService.CheckAdherenceTriggers | monkmode_productivity/apps/core/services/support_service.py:49-74 | the answer is true exactly when a recent adherence score exists and the average is at most 6; a positive answer has sent the adherence_drop notification, a negative one changes nothing |
| SupportService.EmergencyRecipients | monkmode_productivity/apps/core/services/support_service.py:304-318 | the active emergency contacts when there is one, otherwise all active contacts; empty exactly when no contact is active |
| SupportService.RequestEmergencySupport | monkmode_productivity/apps/core/services/support_service.py:301-346 | old rows are kept; one emergency record with the user's words per recipient whose email went out, without the 24-hour guard or preferences; true exactly when some recipient's email went out |
| SupportService.EmergencyBlocksEmergencyTrigger | monkmode_productivity/apps/core/services/support_service.py:94-103 | an emergency request that reached someone blocks a regular emergency notification for the next 24 hours |
| Schedule.TemplateSlot | monkmode_productivity/apps/core/utils.py:52-65 | every template line names one of the seven activity types created at the top and starts before it ends within one day |
| Schedule.TemplateSlotsOrdered | monkmode_productivity/apps/core/utils.py:52-65 | each template line ends no later than the next begins |
| Schedule.DailyTemplate | monkmode_productivity/apps/core/utils.py:52-65 | twelve lines in time order, none overlapping the next, each a valid time span naming a known activity type |
| Schedule.TemplateDisjoint | monkmode_productivity/apps/core/utils.py:52-65 | any two template lines, not only neighbours, are disjoint in time |
| Schedule.SlotDuration | monkmode_productivity/apps/core/utils.py:72-80 | the duration lies in 0..1439 and, added to the start, reaches the end modulo one day (overnight spans wrap) |
| Schedule.SlotDurationUnique | monkmode_productivity/apps/core/utils.py:72-80 | no other duration within one day reaches the end from the start |
| Schedule.DescriptionReadsBack | monkmode_productivity/apps/core/utils.py:89 | the description is "Day ", the day number in decimal, " - " and the activity name, and both the day and the name read back out of it |
| Schedule.DayCount | monkmode_productivity/apps/core/utils.py:68-70 | the loop covers end minus start plus one days, and none when the end date comes first |
| Schedule.EntryAtDay | monkmode_productivity/apps/core/utils.py:70-71 | slot k of day d is the activity at position 12 times (d - 1) plus k |
| Schedule.ExpandTemplate | monkmode_productivity/apps/core/utils.py:67-90 | twelve activities per day in day and template order: position i holds slot i mod 12 of day i div 12 plus 1 |
| Schedule.AppendDay | monkmode_productivity/apps/core/utils.py:71-90 | appending one day's twelve slots keeps every earlier position in place and puts the new day right after it |
| Schedule.GenerateBasicSchedule | monkmode_productivity/apps/core/utils.py:39-92 | the new period spans the goal's dates and is active; afterwards it is the goal's only active period, periods of other goals are untouched, every other period of the goal is only switched off, and the activities are the template expanded over the goal's days |
| Schedule.ScheduleDaysDisjoint | monkmode_productivity/apps/core/utils.py:52-90 | two activities of the same day never overlap, each duration is its end minus its start, and each description names its own day and activity |
| Schedule.ScheduleEntriesDistinct | monkmode_productivity/apps/core/utils.py:67-90 | no two created activities share an id or a day and start time, and days never decrease along the creation order |
| AiService.ContainsStructuredPlan | monkmode_productivity/apps/core/services/ai_service.py:290-296 | a reply is recognised as a plan exactly when it holds an opening brace and the quoted plan-name key occurs in it |
| AiService.ExtractJson | monkmode_productivity/apps/core/services/ai_service.py:305-312 | nothing is extracted exactly when either brace is missing; a non-empty extract starts with '{', ends with '}', and sits in the reply with no '{' before it and no '}' after it |
| AiService.ExtractWrapped | monkmode_productivity/apps/core/services/ai_service.py:305-312 | an object text between a brace-free prefix and a suffix without closing braces is extracted exactly |
| AiService.ParsePlan | monkmode_productivity/apps/core/services/ai_service.py:301-320 | a plan is produced only from an extract that parses to an object holding all four required keys, and any such object is produced |
| AiService.ReadPlan | monkmode_productivity/apps/core/services/ai_service.py:290-320 | a plan is read only from a reply recognised as one and always carries the required keys; a reply without the quoted key yields none |
| AiService.ReadPlanRoundTrip | monkmode_productivity/apps/core/services/ai_service.py:290-320 | a complete plan object written in a reply, surrounded by brace-free prose, is read back as that same object |
| AiService.MissingFieldRejected | monkmode_productivity/apps/core/services/ai_service.py:315-320 | an object lacking any one required key is rejected whatever the reply |
| AiService.PlanActivityMinutes | monkmode_productivity/apps/core/services/ai_service.py:347-357 | a plan activity lasts 0 to 1439 minutes |
| AiService.PlanDurationAgrees | monkmode_productivity/apps/core/services/ai_service.py:347-357 | the plan's seconds-based duration equals the basic schedule's minute-based one and reaches the end time from the start modulo one day |
| AiService.RoleOf | monkmode_productivity/apps/core/services/ai_service.py:243 | a stored message stays the user's exactly when its role is "user" |
| AiService.BuildConversation | monkmode_productivity/apps/core/services/ai_service.py:230-255 | the system prompt as the first user turn, then every history message in order with its mapped role, then the current message as the last user turn |
| AiService.ModelTurnsMatchHistory | monkmode_productivity/apps/core/services/ai_service.py:241-247 | the model speaks exactly as many times as the history holds messages not written by the user |
| AiService.BuildSystemPrompt | monkmode_productivity/apps/core/services/ai_service.py:157-227 | every prompt keeps the common opening; "chat", "plan_generation" and "priority_request" each get a section, any other type none |
| AiService.SectionRoundTrip | monkmode_productivity/apps/core/services/ai_service.py:166-227 | each section is reached from its own message type and from no other |
| AiService.Rated | monkmode_productivity/apps/core/services/ai_service.py:144-145 | the ratings kept are present and non-zero ones of the column, and none are kept exactly when every rating is missing or zero |
| AiService.GuardedAverage | monkmode_productivity/apps/core/services/ai_service.py:144-145 | 0 when nothing is rated, otherwise the kept ratings' sum divided by their count |
| AiService.GuardedAverageBounds | monkmode_productivity/apps/core/services/ai_service.py:144-145 | with ratings in a positive range the average stays in that range, and is 0 exactly when nothing was rated |
| AiService.AggregateAverage | monkmode_productivity/apps/core/services/ai_service.py:637-641 | the intended database average: the mean of the present scores, 0 when there are none (the source's line 641 raises before computing it; see Findings) |
| AiService.AveragesAgree | monkmode_productivity/apps/core/services/ai_service.py:144-145 | the in-memory guarded average and the database average agree whenever no score is zero |
| AiService.LatestCovers | monkmode_productivity/apps/core/services/ai_service.py:146 | any log of the window dated later than one of the three latest logs is itself among the three |
| AiService.NonEmptyChallenges | monkmode_productivity/apps/core/services/ai_service.py:146 | only non-empty challenge texts, each taken from some log, and every non-empty challenge of the logs is among them |
| AiService.NonEmptyChallengesIsFilter | monkmode_productivity/apps/core/services/ai_service.py:146 | the challenges listed are exactly the logs' challenge texts with the empty ones dropped, in the order of the logs |
| AiService.RecentPerformance | monkmode_productivity/apps/core/services/ai_service.py:137-147 | present exactly when the last seven days hold a log; the challenges are exactly the non-empty ones of the three latest window logs, newest first (at most three, none lost, each from a log with no later window log outside the latest three); averages over the window's ratings |
| AiService.ExpectedCompletion | monkmode_productivity/apps/core/services/ai_service.py:634 | 0 for a goal without positive span; otherwise the share of elapsed days times 100 |
| AiService.ExpectedCompletionBounds | monkmode_productivity/apps/core/services/ai_service.py:634 | within the goal's span the expected completion lies between 0 and 100, grows with elapsed days and reaches 100 on the last day |
| AiService.GoalAdjustmentFigures | monkmode_productivity/apps/core/services/ai_service.py:624-653 | the figures the prompt is meant to report: elapsed plus remaining days make the total span; the gap is actual minus expected completion; expected is 100 when no days remain; the adherence figure is 0 without recent scores and otherwise lies between the least and greatest recent score (the source never reaches the prompt; see Findings) |
| AiService.SuggestGoalAdjustments | monkmode_productivity/apps/core/services/ai_service.py:624-674 | as intended: the model's answer to the prompt built from the goal and its figures, or the fixed advice when the model does not answer; it reports the failure text only if the model itself answers with it |
| AiService.SuggestGoalAdjustmentsAsWritten | monkmode_productivity/apps/core/services/ai_service.py:624-678 | as written: always "Unable to generate goal adjustment suggestions.", since `models.Avg` names a module `ai_service.py` never imports and the handler catches the error |
| AiService.GoalAdviceLost | monkmode_productivity/apps/core/services/ai_service.py:637-678 | unless the model itself answers with the failure text, the program as written and the intended one reply differently |
| MotivationService.Cap | monkmode_productivity/apps/core/services/motivation_service.py:29 | slicing keeps a prefix of the order, of length the smaller of the cap and the list's length |
| MotivationService.ShownByAge | monkmode_productivity/apps/core/services/motivation_service.py:24 | the previously shown media, exactly, with the longest-ago showing first |
| MotivationService.LeastRecentlyShown | monkmode_productivity/apps/core/services/motivation_service.py:21-24 | a reordering of the media with the same members in which earlier showings come first and never-shown media all come first or all come last, as the database sorts missing values |
| MotivationService.CapKeepsOrder | monkmode_productivity/apps/core/services/motivation_service.py:24-29 | cutting the ordered list short leaves out nothing that should have come before a kept item |
| MotivationService.DailySelection | monkmode_productivity/apps/core/services/motivation_service.py:20-29 | at most three media, as many as the trigger has up to three, each one of the user's media shown on the trigger |
| MotivationService.DailySelectionLeastRecent | monkmode_productivity/apps/core/services/motivation_service.py:20-29 | a medium for the trigger left out was shown no earlier than any picked one, and never-shown media are picked before shown ones exactly when the database sorts missing values first |
| MotivationService.DailyLetters | monkmode_productivity/apps/core/services/motivation_service.py:35-50 | the letters returned are exactly the undelivered ones for the trigger and the undelivered scheduled ones already due, those for the trigger listed first |
| MotivationService.ReadyBeforeDue | monkmode_productivity/apps/core/services/motivation_service.py:50 | in the concatenated list every letter after one not for the trigger is a scheduled one |
| MotivationService.DailyLettersDistinct | monkmode_productivity/apps/core/services/motivation_service.py:35-50 | for any trigger other than "scheduled" no letter is listed twice |
| MotivationService.GetDailyMotivation | monkmode_productivity/apps/core/services/motivation_service.py:17-56 | as many media as the daily selection picks (at most three), each the picked medium in selection order stamped as shown now and for the trigger; the letters above; with unique ids a media row is stamped exactly when its medium was picked and otherwise unchanged |
| MotivationService.StampedRowsArePicked | monkmode_productivity/apps/core/services/motivation_service.py:29-33 | with unique ids a media row is stamped now exactly when its medium was chosen and otherwise unchanged |
| MotivationService.MarkedRowsShown | monkmode_productivity/apps/core/services/motivation_service.py:29-33 | with unique ids every changed media row is one of the picked media, stamped |
| MotivationService.TakeMoodLetter | monkmode_productivity/apps/core/services/motivation_service.py:72-97 | at most one letter: none exactly when no undelivered low-mood letter exists; otherwise the first such, saved delivered now, and only its row changes |
| MotivationService.MoodMedia | monkmode_productivity/apps/core/services/motivation_service.py:66-70 | at most two of the user's low-mood media, and all of them when there are fewer than two |
| MotivationService.TriggerMoodMotivation | monkmode_productivity/apps/core/services/motivation_service.py:63-104 | the low-mood media in order stamped shown now, two of them or every low-mood medium; at most one low-mood letter marked delivered now, present exactly when one was waiting; with unique ids a media row is stamped exactly when its medium was handed out |
| MotivationService.MoodLetterConsumed | monkmode_productivity/apps/core/services/motivation_service.py:72-97 | with unique letter ids the waiting low-mood letters drop by exactly the number handed out |
| MotivationService.DeliverLetter | monkmode_productivity/apps/core/services/motivation_service.py:137-168 | the result is whether the email went out; only then is the letter stamped delivered now, otherwise it is left unchanged |
| MotivationService.DeliverScheduledLetters | monkmode_productivity/apps/core/services/motivation_service.py:111-130 | the count is the number of due undelivered scheduled letters (of the given user, when one is given) whose email went out; exactly those become delivered and every other row is unchanged |
| MotivationService.SecondRunRetriesFailures | monkmode_productivity/apps/core/services/motivation_service.py:114-128 | a later run delivers only letters that the earlier run left undelivered: no letter is delivered twice |
| MotivationService.MilestoneTriggers | monkmode_productivity/apps/core/services/motivation_service.py:177-183 | "halfway" exactly from 50 up to but excluding 60, "completion" exactly from 100, never both |
| MotivationService.MilestoneBandsExclusive | monkmode_productivity/apps/core/services/motivation_service.py:177-183 | only the two milestone names occur, and none occurs exactly below 50 or from 60 up to but excluding 100 |
| MotivationService.MilestoneMediaTable | monkmode_productivity/apps/core/services/motivation_service.py:205-209 | with unique media ids a row is stamped shown now exactly when it is a milestone medium, and every other row is unchanged |
| MotivationService.CheckMilestoneTriggers | monkmode_productivity/apps/core/services/motivation_service.py:171-212 | away from the bands nothing changes; at a milestone a letter row becomes delivered exactly when it is the user's undelivered letter for the goal and milestone and its email went out, other rows stay as they were; with unique media ids a media row is stamped shown now exactly when it is a milestone medium; the content holds one item per such letter plus one per milestone medium |
| MotivationService.MilestoneContent | monkmode_productivity/apps/core/services/motivation_service.py:187-210 | each released letter is an undelivered letter of the goal whose email went out, saved delivered now; every milestone medium is released stamped as shown now |

## Left out

- The Gemini HTTP call, `send_message_to_gemini` and the weekly review and other prompt-building messages: network access and orchestration around the pure helpers modelled here.
- `json.loads`: the parser is the input `parse`; only what the code does with its result is modelled. The period and activities `_parse_and_create_plan` goes on to create from the plan are not modelled beyond the duration rule.
- Sending email and rendering templates (`send_mail`, `render_to_string`): an email's success is an input; subjects, bodies with their emoji and context placeholders are not modelled, only which template is chosen.
- The Django ORM: tables are sequences of records and queries are filters over them, in the order the store returns rows; ids of new rows are inputs.
- Random orderings (`order_by('?')`, `random.choice`): the store's order is taken as the random order, so a random pick is the first rows up to the cap.
- Floating point: scores, averages and weights are exact reals; `round(..., 1)` and float formatting are not modelled.
- Time zones and `datetime` arithmetic: instants are integer seconds from a Monday midnight, so the weekday, hour and date are exact divisions.
- How a database orders missing `last_shown` values is an input (`nullsFirst`) because it differs between databases.
- `get_energy_insights`, `get_support_dashboard_data`, `create_commitment_contract`, the quote lists, `schedule_letter_delivery`, `upload_motivation_media`, the Celery tasks, views, forms and admin: reporting and plumbing outside the decision logic.
- The hourly and daily averages that energy recommendations read are inputs; the statistics query producing them is not modelled.
- The high-energy task suggestions of `log_energy_level` are computed and discarded by the source; only the low-energy protocol's note on the day's log is modelled.
- The `except Exception` fallbacks: a failing query or email is not modelled apart from the email outcome input, and `int`/`float` conversion failures which are modelled as None.
- EnergyService.IntOf: text converts only when, after stripping, it is a run of decimal digits (of any script, within the 4300-digit limit); signs, underscores and decimal points that Python's `int` and `float` accept are not modelled.
- Basics.IsDigitString: `str.isdigit` and `int` follow the Unicode 15.0 tables of Python 3.12, including its 4300-digit conversion limit; other Python versions ship other tables and no limit before 3.11.
- EnergyService.RealOf: the same restriction on text as `IntOf`.
- Basics.Lower: lower-cases only the ASCII and Latin-1 capitals and the Kelvin and Angstrom signs; other capitals (Greek, Cyrillic and so on) are kept, and U+0130, which Python lowers to "i" plus a combining dot, is kept as one character. Every keyword that `PriorityEngine.GoalImpact`, `PriorityEngine.DependencyWeight` and `EnergyService.ActivityShift` compare against is lower-case ASCII and none ends in "i", so these three decide as the source does.
- EnergyService.Strip: strips ASCII white space only, not the other Unicode white space Python strips.
- EnergyService.LowEnergyNote: states only that the note starts on a new line, not its exact text.
- EnergyService.HourEstimateWithin: assumes no reading lies ten or more days in the future; such a reading makes the source divide by zero, which `HourEstimate` models separately as no estimate.
- MotivationService.TriggerMoodMotivation: states which media rows change only when media ids are unique; which letter row changes is stated by `TakeMoodLetter`.
- EnergyService.ContextTips: quotes the label read back by `TopName`, the corrected reading (see Findings); the service cuts the entry at its first " (", modelled by `ContextTipsAsWritten`, and the two agree whenever the label holds no " (" (`ContextTipsAgree`).
- EnergyService.EnergyRecommendations: its booster and drain lines come from `ContextTips`, so they quote the corrected name.
- EnergyService.RecommendsBoosterAndDrain: states the corrected name, as `ContextTips` does, not the first piece of split(' (').
- EnergyService.BoosterTipNamesTopBooster: states the corrected name of the top booster; as written the service quotes only the part of the label before its first " (".
- Writing the final score onto the activity row (`activity.priority_score = final_score; activity.save()`, priority_engine.py lines 101-102): the model returns the score rows and ranked list and keeps no copy of the score on the activity record.
- The `EnergyPrediction` rows `predict_energy_levels` and `_generate_default_predictions` create (energy_service.py lines 264 and 298), including the rows already written when a later hour divides by zero: the model returns the predictions and keeps no prediction table.
- The active commitments listed in the mood package (motivation_service.py lines 80-88): a plain query of the user's active commitments, passed through unchanged.
- `suggest_goal_adjustments` builds its prompt from the figures and the goal's title, description and target outcome; the prompt text is not modelled, the model's answer is the input `ask`.
- The milestone media are stamped and released once per milestone trigger inside the source's loop; as at most one trigger fires, the model releases them once.

## Findings

| source | as written | input that shows it | evidently intended | confidence | as-written member | corrected member |
|---|---|---|---|---|---|---|
| monkmode_productivity/apps/core/services/energy_service.py:561-565 | the top booster and drain are quoted as the part of the formatted entry "label (Nx)" before the first " (" | a booster labelled "Walk (outdoor)" seen 3 times is formatted "Walk (outdoor) (3x)" and quoted as "Walk" | quote the whole label, cutting only the count suffix | not executed | EnergyService.TopNameAsWrittenTruncates | EnergyService.TopNameRoundTrip |
| monkmode_productivity/apps/core/services/ai_service.py:641 | the week's adherence average is requested as `models.Avg(...)`, but the module imports no `models`, so the name lookup raises and the handler at lines 676-678 answers "Unable to generate goal adjustment suggestions." | any goal on any day: even with the model answering, the reply is the failure text | import Django's `models` (or `Avg`) so the figures reach the prompt and the model's advice or the fixed fallback is returned | not executed | AiService.SuggestGoalAdjustmentsAsWritten | AiService.SuggestGoalAdjustments |

=== FILE: ai_service.dfy ===
/** The deterministic parts of the coaching assistant: recognising a
    generated plan in a reply and cutting its JSON out, checking the plan's
    required fields, timing its activities, assembling the conversation
    and the system prompt sent to the language model, and the averages
    that go into the model's context. The model call itself and the JSON
    parser are outside the model; the parser is an input (`parse`). */
module AiService {
  import opened Basics
  import opened Models
  import Schedule

  // ---------------------------------------------------------------------
  // Recognising and extracting a plan
  // ---------------------------------------------------------------------

  /** A parsed JSON document. */
  datatype Json =
    | JNull
    | JBool(b: bool)
    | JNum(n: real)
    | JStr(s: string)
    | JArr(items: seq<Json>)
    | JObj(fields: seq<(string, Json)>)

  /** The key whose quoted name marks a reply as carrying a plan. */
  const PlanMarker: string := "\"monk_mode_plan_name\""

  /** The keys a plan object must carry. */
  const RequiredFields: seq<string> := ["monk_mode_plan_name", "period_start_date", "period_end_date", "daily_schedules"]

  /** `_contains_structured_plan`: the reply has an opening brace and the
      quoted plan-name key somewhere. */
  function ContainsStructuredPlan(text: string): (b: bool)
    ensures b <==> '{' in text && Occurs(PlanMarker, text)
  {
    '{' in text && Contains(text, PlanMarker)
  }

  /** The slice `text[find('{') : rfind('}') + 1]`, None when either brace
      is missing. When the last '}' comes before the first '{' the slice
      is empty. */
  function ExtractJson(text: string): (r: Option<string>)
    ensures r.None? <==> '{' !in text || '}' !in text
    ensures r.Some? && r.value != [] ==>
      |r.value| >= 2 && r.value[0] == '{' && r.value[|r.value| - 1] == '}'
    ensures r.Some? && r.value != [] ==>
      exists i :: (0 <= i && i + |r.value| <= |text| &&
                   text[i..i + |r.value|] == r.value && '{' !in text[..i] && '}' !in text[i + |r.value|..])
  {
    match (FindChar(text, '{'), RFindChar(text, '}'))
    case (Some(a), Some(b)) =>
      if a <= b then
        var s := text[a..b + 1];
        assert text[a..a + |s|] == s;
        assert '{' !in text[..a];
        assert '}' !in text[a + |s|..];
        Some(s)
      else Some([])
    case _ => None
  }

  /** A JSON object text placed between a prefix without braces and a
      suffix without closing braces is extracted exactly. */
  lemma {:induction false} ExtractWrapped(pre: string, body: string, post: string)
    requires '{' !in pre && '}' !in pre && '}' !in post
    requires |body| >= 2 && body[0] == '{' && body[|body| - 1] == '}'
    ensures ExtractJson(pre + body + post) == Some(body)
  {
    var text := pre + body + post;
    assert text[|pre|] == '{' && text[|pre| + |body| - 1] == '}';
    forall i | 0 <= i < |pre| ensures text[i] != '{' && text[i] != '}' {
      assert text[i] == pre[i];
    }
    forall i | |pre| + |body| <= i < |text| ensures text[i] != '}' {
      assert text[i] == post[i - |pre| - |body|];
    }
    assert text[|pre|..|pre| + |body|] == body;
  }

  predicate HasField(fields: seq<(string, Json)>, k: string) {
    exists i :: 0 <= i < |fields| && fields[i].0 == k
  }

  /** The required-field loop: every required key is present. */
  predicate HasRequiredFields(fields: seq<(string, Json)>) {
    forall k :: k in RequiredFields ==> HasField(fields, k)
  }

  /** The plan object `_parse_and_create_plan` goes on to store: the
      extracted slice parses to an object carrying every required key.
      Anything else (no braces, a parse failure, a non-object, a missing
      key) gives None. */
  function ParsePlan(text: string, parse: string -> Option<Json>): (r: Option<seq<(string, Json)>>)
    ensures r.Some? ==> HasRequiredFields(r.value)
    ensures r.Some? ==> ExtractJson(text).Some? && parse(ExtractJson(text).value) == Some(JObj(r.value))
    ensures (ExtractJson(text).Some? && parse(ExtractJson(text).value).Some? &&
             parse(ExtractJson(text).value).value.JObj?) ==>
      (r.Some? <==> HasRequiredFields(parse(ExtractJson(text).value).value.fields))
  {
    match ExtractJson(text)
    case None => None
    case Some(s) =>
      match parse(s)
      case Some(JObj(f)) => if HasRequiredFields(f) then Some(f) else None
      case _ => None
  }

  /** A reply is turned into a plan only when it is recognised as one. */
  function ReadPlan(text: string, parse: string -> Option<Json>): (r: Option<seq<(string, Json)>>)
    ensures r.Some? ==> ContainsStructuredPlan(text) && HasRequiredFields(r.value)
    ensures !Occurs(PlanMarker, text) ==> r.None?
  {
    if ContainsStructuredPlan(text) then ParsePlan(text, parse) else None
  }

  /** A complete plan object written out in a reply, with prose around it
      that holds no braces, is read back as that object. */
  lemma {:induction false} ReadPlanRoundTrip(pre: string, body: string, post: string,
                                             fields: seq<(string, Json)>, parse: string -> Option<Json>)
    requires '{' !in pre && '}' !in pre && '}' !in post
    requires |body| >= 2 && body[0] == '{' && body[|body| - 1] == '}'
    requires Occurs(PlanMarker, body)
    requires parse(body) == Some(JObj(fields)) && HasRequiredFields(fields)
    ensures ReadPlan(pre + body + post, parse) == Some(fields)
  {
    var text := pre + body + post;
    ExtractWrapped(pre, body, post);
    OccursInMiddle(PlanMarker, pre, body, post);
    assert '{' in text by { assert text[|pre|] == '{'; }
    assert ContainsStructuredPlan(text);
    assert ParsePlan(text, parse) == Some(fields);
  }

  lemma OccursInMiddle(pat: string, pre: string, body: string, post: string)
    requires Occurs(pat, body)
    ensures Occurs(pat, pre + body + post)
  {
    var text := pre + body + post;
    var j :| OccursAt(pat, body, j);
    assert text[|pre| + j..|pre| + j + |pat|] == body[j..j + |pat|];
    assert OccursAt(pat, text, |pre| + j);
  }

  /** A plan object missing any required key is rejected, whatever else it
      carries. */
  lemma MissingFieldRejected(text: string, parse: string -> Option<Json>, k: string)
    requires k in RequiredFields
    requires forall s, f :: parse(s) == Some(JObj(f)) ==> !HasField(f, k)
    ensures ReadPlan(text, parse).None?
  {
  }

  /** Minutes from a plan activity's start to its end: the end moves to
      the next day when it comes first, and whole seconds are divided by
      60 and truncated. */
  function PlanActivityMinutes(start: Minute, end: Minute): (d: int)
    requires ValidTime(start) && ValidTime(end)
    ensures 0 <= d < MinutesPerDay
  {
    var startSeconds := start * 60;
    var endSeconds := end * 60 + (if end < start then SecondsPerDay else 0);
    TruncDiv(endSeconds - startSeconds, 60)
  }

  /** Plan activities and basic-schedule activities are timed alike. */
  lemma PlanDurationAgrees(start: Minute, end: Minute)
    requires ValidTime(start) && ValidTime(end)
    ensures PlanActivityMinutes(start, end) == Schedule.SlotDuration(start, end)
    ensures (start + PlanActivityMinutes(start, end)) % MinutesPerDay == end
  {
    var e := end * 60 + (if end < start then SecondsPerDay else 0);
    assert e - start * 60 == ((if end < start then end + MinutesPerDay else end) - start) * 60;
  }

  // ---------------------------------------------------------------------
  // The conversation sent to the model
  // ---------------------------------------------------------------------

  datatype Role = UserRole | ModelRole

  /** One entry of the request's `contents`. */
  datatype Turn = Turn(role: Role, text: string)

  /** A stored AIPromptHistory message. */
  datatype HistoryEntry = HistoryEntry(role: string, text: string)

  /** Only a stored "user" role stays the user's; every other role is
      sent as the model's. */
  function RoleOf(role: string): (r: Role)
    ensures r == UserRole <==> role == "user"
  {
    if role == "user" then UserRole else ModelRole
  }

  /** `_build_gemini_conversation`: the system prompt as a user turn, the
      history in order, then the current message as a user turn. */
  method BuildConversation(systemPrompt: string, history: seq<HistoryEntry>, current: string)
    returns (c: seq<Turn>)
    ensures |c| == |history| + 2
    ensures c[0] == Turn(UserRole, systemPrompt)
    ensures c[|c| - 1] == Turn(UserRole, current)
    ensures forall i :: 0 <= i < |history| ==> c[i + 1] == Turn(RoleOf(history[i].role), history[i].text)
  {
    c := [Turn(UserRole, systemPrompt)];
    for i := 0 to |history|
      invariant |c| == i + 1
      invariant c[0] == Turn(UserRole, systemPrompt)
      invariant forall j :: 0 <= j < i ==> c[j + 1] == Turn(RoleOf(history[j].role), history[j].text)
    {
      c := c + [Turn(RoleOf(history[i].role), history[i].text)];
    }
    c := c + [Turn(UserRole, current)];
  }

  function CountModelTurns(c: seq<Turn>): nat {
    if |c| == 0 then 0 else (if c[0].role == ModelRole then 1 else 0) + CountModelTurns(c[1..])
  }

  function CountNonUser(h: seq<HistoryEntry>): nat {
    if |h| == 0 then 0 else (if h[0].role != "user" then 1 else 0) + CountNonUser(h[1..])
  }

  /** The model speaks in the conversation exactly as often as the
      history holds messages not written by the user. */
  lemma {:induction false} ModelTurnsMatchHistory(systemPrompt: string, history: seq<HistoryEntry>,
                                                  current: string, c: seq<Turn>)
    requires |c| == |history| + 2
    requires c[0] == Turn(UserRole, systemPrompt) && c[|c| - 1] == Turn(UserRole, current)
    requires forall i :: 0 <= i < |history| ==> c[i + 1] == Turn(RoleOf(history[i].role), history[i].text)
    ensures CountModelTurns(c) == CountNonUser(history)
  {
    MiddleTurns(history, c[1..|c| - 1]);
    assert c == [c[0]] + c[1..|c| - 1] + [c[|c| - 1]];
    CountModelAppend([c[0]] + c[1..|c| - 1], c[|c| - 1]);
    assert ([c[0]] + c[1..|c| - 1])[1..] == c[1..|c| - 1];
  }

  lemma {:induction false} MiddleTurns(history: seq<HistoryEntry>, m: seq<Turn>)
    requires |m| == |history|
    requires forall i :: 0 <= i < |history| ==> m[i] == Turn(RoleOf(history[i].role), history[i].text)
    ensures CountModelTurns(m) == CountNonUser(history)
  {
    if |history| > 0 {
      MiddleTurns(history[1..], m[1..]);
    }
  }

  lemma {:induction false} CountModelAppend(c: seq<Turn>, t: Turn)
    ensures CountModelTurns(c + [t]) == CountModelTurns(c) + (if t.role == ModelRole then 1 else 0)
  {
    if |c| > 0 {
      assert (c + [t])[1..] == c[1..] + [t];
      CountModelAppend(c[1..], t);
    }
  }

  // ---------------------------------------------------------------------
  // The system prompt
  // ---------------------------------------------------------------------

  /** What the opening of every system prompt is filled with. */
  datatype PromptContext = PromptContext(userName: string, currentDate: string, currentTime: string)

  /** The role instructions appended for a known message type. */
  datatype RoleSection = CoachingSection | PlanFormatSection | PrioritySection

  /** A system prompt: the common opening, then at most one section. */
  datatype SystemPrompt = SystemPrompt(opening: PromptContext, section: Option<RoleSection>)

  /** The message type a section is written for. */
  function MessageTypeOf(s: RoleSection): string {
    match s
    case CoachingSection => "chat"
    case PlanFormatSection => "plan_generation"
    case PrioritySection => "priority_request"
  }

  /** `_build_system_prompt`: a known message type gets its own section
      after the opening, any other type the opening alone. */
  function BuildSystemPrompt(ctx: PromptContext, messageType: string): (p: SystemPrompt)
    ensures p.opening == ctx
    ensures p.section.None? <==>
      messageType != "chat" && messageType != "plan_generation" && messageType != "priority_request"
    ensures p.section.Some? ==> MessageTypeOf(p.section.value) == messageType
  {
    if messageType == "chat" then SystemPrompt(ctx, Some(CoachingSection))
    else if messageType == "plan_generation" then SystemPrompt(ctx, Some(PlanFormatSection))
    else if messageType == "priority_request" then SystemPrompt(ctx, Some(PrioritySection))
    else SystemPrompt(ctx, None)
  }

  /** Every section is reached from its own message type and no other. */
  lemma SectionRoundTrip(ctx: PromptContext, s: RoleSection, messageType: string)
    ensures BuildSystemPrompt(ctx, MessageTypeOf(s)).section == Some(s)
    ensures BuildSystemPrompt(ctx, messageType).section == Some(s) ==> messageType == MessageTypeOf(s)
  {
  }

  // ---------------------------------------------------------------------
  // Averages in the model's context
  // ---------------------------------------------------------------------

  /** The ratings a `if log.rating` comprehension keeps: present and
      non-zero. */
  function Rated(xs: seq<Option<int>>): (r: seq<real>)
    ensures |r| <= |xs|
    ensures forall v :: v in r ==> exists i :: 0 <= i < |xs| && xs[i].Some? && xs[i].value != 0 && xs[i].value as real == v
    ensures r == [] <==> forall i :: 0 <= i < |xs| ==> xs[i].None? || xs[i].value == 0
  {
    if |xs| == 0 then []
    else
      var rest := Rated(xs[1..]);
      assert forall i :: 1 <= i < |xs| ==> xs[i] == xs[1..][i - 1];
      assert forall v :: v in rest ==> exists i :: 0 <= i < |xs| && xs[i].Some? && xs[i].value != 0 && xs[i].value as real == v by {
        forall v | v in rest ensures exists i :: 0 <= i < |xs| && xs[i].Some? && xs[i].value != 0 && xs[i].value as real == v {
          var i :| 0 <= i < |xs[1..]| && xs[1..][i].Some? && xs[1..][i].value != 0 && xs[1..][i].value as real == v;
          assert xs[i + 1] == xs[1..][i];
        }
      }
      match xs[0]
      case Some(v) => if v != 0 then [v as real] + rest else rest
      case None => rest
  }

  /** `sum(ratings) / max(1, len(ratings))` over the kept ratings. */
  function GuardedAverage(xs: seq<Option<int>>): (r: real)
    ensures Rated(xs) == [] ==> r == 0.0
    ensures Rated(xs) != [] ==> r * |Rated(xs)| as real == Sum(Rated(xs))
  {
    var kept := Rated(xs);
    Sum(kept) / (if |kept| < 1 then 1 else |kept|) as real
  }

  /** With ratings validated into `[lo, hi]`, the guarded average stays in
      that range, or is 0 when nothing was rated. */
  lemma {:induction false} GuardedAverageBounds(xs: seq<Option<int>>, lo: int, hi: int)
    requires 0 < lo <= hi
    requires forall i :: 0 <= i < |xs| && xs[i].Some? ==> lo <= xs[i].value <= hi
    ensures Rated(xs) == [] <==> GuardedAverage(xs) == 0.0
    ensures Rated(xs) != [] ==> lo as real <= GuardedAverage(xs) <= hi as real
  {
    var kept := Rated(xs);
    if kept != [] {
      forall k | 0 <= k < |kept| ensures lo as real <= kept[k] <= hi as real {
        assert kept[k] in kept;
      }
      MeanBounds(kept, lo as real, hi as real);
      assert GuardedAverage(xs) == Mean(kept);
    }
  }

  /** The ratings a database average keeps: every present one, zeros
      included. */
  function Present(xs: seq<Option<int>>): (r: seq<real>)
    ensures |r| <= |xs|
  {
    if |xs| == 0 then []
    else
      match xs[0]
      case Some(v) => [v as real] + Present(xs[1..])
      case None => Present(xs[1..])
  }

  /** `aggregate(Avg(...))['avg'] or 0`: the mean of the present ratings,
      0 when there are none. */
  function AggregateAverage(xs: seq<Option<int>>): (r: real)
    ensures Present(xs) == [] ==> r == 0.0
    ensures Present(xs) != [] ==> r == Mean(Present(xs))
  {
    var present := Present(xs);
    if |present| == 0 then 0.0 else Mean(present)
  }

  /** The two ways of averaging agree whenever no rating is zero, which
      the rating validators guarantee. */
  lemma {:induction false} AveragesAgree(xs: seq<Option<int>>)
    requires forall i :: 0 <= i < |xs| && xs[i].Some? ==> xs[i].value != 0
    ensures AggregateAverage(xs) == GuardedAverage(xs)
  {
    RatedIsPresent(xs);
  }

  lemma {:induction false} RatedIsPresent(xs: seq<Option<int>>)
    requires forall i :: 0 <= i < |xs| && xs[i].Some? ==> xs[i].value != 0
    ensures Rated(xs) == Present(xs)
  {
    if |xs| > 0 {
      assert forall i :: 0 <= i < |xs[1..]| ==> xs[1..][i] == xs[i + 1];
      RatedIsPresent(xs[1..]);
    }
  }

  /** The part of the model's context built from the last week's logs. */
  datatype Performance = Performance(avgMood: real, avgAdherence: real, recentChallenges: seq<string>)

  const ContextWindowDays: int := 7

  function InContextWindow(today: Date): DailyLog -> bool {
    (l: DailyLog) => l.date >= today - ContextWindowDays
  }

  function DateKey(l: DailyLog): real { l.date as real }

  function MoodColumn(logs: seq<DailyLog>): (r: seq<Option<int>>)
    ensures |r| == |logs| && forall i :: 0 <= i < |logs| ==> r[i] == logs[i].mood
  {
    seq(|logs|, i requires 0 <= i < |logs| => logs[i].mood)
  }

  function AdherenceColumn(logs: seq<DailyLog>): (r: seq<Option<int>>)
    ensures |r| == |logs| && forall i :: 0 <= i < |logs| ==> r[i] == logs[i].adherence
  {
    seq(|logs|, i requires 0 <= i < |logs| => logs[i].adherence)
  }

  function ChallengeColumn(logs: seq<DailyLog>): (r: seq<string>)
    ensures |r| == |logs| && forall i :: 0 <= i < |logs| ==> r[i] == logs[i].challenges
  {
    seq(|logs|, i requires 0 <= i < |logs| => logs[i].challenges)
  }

  predicate NonEmptyText(c: string) { c != "" }

  /** The non-empty challenge notes of `logs`, in the order of the logs. */
  function NonEmptyChallenges(logs: seq<DailyLog>): (r: seq<string>)
    ensures |r| <= |logs|
    ensures forall c :: c in r ==> c != "" && exists l :: l in logs && l.challenges == c
    ensures forall l :: l in logs && l.challenges != "" ==> l.challenges in r
  {
    if |logs| == 0 then []
    else
      var rest := NonEmptyChallenges(logs[1..]);
      assert forall l :: l in logs[1..] ==> l in logs;
      assert forall l :: l in logs ==> l == logs[0] || l in logs[1..];
      if logs[0].challenges != "" then [logs[0].challenges] + rest else rest
  }

  /** The non-empty challenges are the challenge column filtered for
      non-empty text, order included. */
  lemma {:induction false} NonEmptyChallengesIsFilter(logs: seq<DailyLog>)
    ensures NonEmptyChallenges(logs) == Filter(ChallengeColumn(logs), NonEmptyText)
  {
    if |logs| > 0 {
      NonEmptyChallengesIsFilter(logs[1..]);
      assert ChallengeColumn(logs)[1..] == ChallengeColumn(logs[1..]);
    }
  }

  /** A log among the three latest has every later log of the window
      among them too. */
  lemma LatestCovers(logs: seq<DailyLog>, today: Date, recent: seq<DailyLog>, latest: seq<DailyLog>)
    requires forall l :: l in recent <==> l in logs && l.date >= today - ContextWindowDays
    requires latest == TopN(recent, DateKey, 3)
    ensures forall l, m :: l in latest && m in logs && m.date >= today - ContextWindowDays && m.date > l.date ==> m in latest
  {
    forall l, m | l in latest && m in logs && m.date >= today - ContextWindowDays && m.date > l.date
      ensures m in latest
    {
      if m !in latest {
        TopNDominates(recent, DateKey, 3, m);
      }
    }
  }

  /** `recent_performance` of `_build_user_context`: present only when the
      last seven days hold a log; the averages skip unrated days and are 0
      when none is rated; the challenges are the non-empty ones among the
      three latest logs. */
  function RecentPerformance(logs: seq<DailyLog>, today: Date): (r: Option<Performance>)
    ensures r.None? <==> forall l :: l in logs ==> l.date < today - ContextWindowDays
    ensures r.Some? ==> |r.value.recentChallenges| <= 3
    ensures r.Some? ==> forall c :: c in r.value.recentChallenges ==>
      c != "" &&
      exists l :: (l in logs && l.date >= today - ContextWindowDays && l.challenges == c &&
                   forall m :: m in logs && m.date >= today - ContextWindowDays && m.date > l.date ==>
                     m in TopN(Filter(logs, InContextWindow(today)), DateKey, 3))
    ensures r.Some? ==> forall l :: l in TopN(Filter(logs, InContextWindow(today)), DateKey, 3) && l.challenges != "" ==>
      l.challenges in r.value.recentChallenges
    ensures r.Some? ==>
      r.value.recentChallenges == Filter(ChallengeColumn(TopN(Filter(logs, InContextWindow(today)), DateKey, 3)), NonEmptyText)
    ensures r.Some? ==> r.value.avgMood == GuardedAverage(MoodColumn(Filter(logs, InContextWindow(today))))
    ensures r.Some? ==> r.value.avgAdherence == GuardedAverage(AdherenceColumn(Filter(logs, InContextWindow(today))))
  {
    var recent := Filter(logs, InContextWindow(today));
    if recent == [] then
      None
    else
      var latest := TopN(recent, DateKey, 3);
      var challenges := NonEmptyChallenges(latest);
      NonEmptyChallengesIsFilter(latest);
      forall l ensures l in recent <==> l in logs && l.date >= today - ContextWindowDays {
        assert InContextWindow(today)(l) <==> l.date >= today - ContextWindowDays;
      }
      LatestCovers(logs, today, recent, latest);
      forall c | c in challenges
        ensures exists l :: (l in logs && l.date >= today - ContextWindowDays && l.challenges == c &&
                             forall m :: m in logs && m.date >= today - ContextWindowDays && m.date > l.date ==> m in latest)
      {
        var l :| l in latest && l.challenges == c;
        assert l in recent;
      }
      Some(Performance(GuardedAverage(MoodColumn(recent)), GuardedAverage(AdherenceColumn(recent)), challenges))
  }

  // ---------------------------------------------------------------------
  // Goal adjustment figures
  // ---------------------------------------------------------------------

  /** `(days_elapsed / days_total) * 100 if days_total > 0 else 0`. */
  function ExpectedCompletion(daysElapsed: int, daysTotal: int): (r: real)
    ensures daysTotal <= 0 ==> r == 0.0
    ensures daysTotal > 0 ==> r * daysTotal as real == daysElapsed as real * 100.0
  {
    if daysTotal > 0 then (daysElapsed as real / daysTotal as real) * 100.0 else 0.0
  }

  /** Within the goal's span, the expected completion runs from 0 to 100
      and grows with the days elapsed. */
  lemma {:induction false} ExpectedCompletionBounds(e1: int, e2: int, total: int)
    requires total > 0 && 0 <= e1 <= e2 <= total
    ensures 0.0 <= ExpectedCompletion(e1, total) <= ExpectedCompletion(e2, total) <= 100.0
    ensures ExpectedCompletion(total, total) == 100.0
  {
    var t := total as real;
    DivBetween(0.0, 1.0, e1 as real, t);
    DivBetween(0.0, 1.0, e2 as real, t);
    DivMonotone(e1 as real, e2 as real, t);
    DivBetween(1.0, 1.0, t, t);
  }

  /** The figures `suggest_goal_adjustments` reports. */
  datatype GoalFigures = GoalFigures(
    daysTotal: int,
    daysElapsed: int,
    daysRemaining: int,
    expected: real,
    gap: real,
    recentAdherence: real)

  function AdherenceRated(today: Date): DailyLog -> bool {
    (l: DailyLog) => l.date >= today - ContextWindowDays && l.adherence.Some?
  }

  /** `suggest_goal_adjustments`: the goal's span, elapsed and remaining
      days, the completion expected by now, the gap to the actual
      completion, and the week's adherence average (0 without scores). */
  function GoalAdjustmentFigures(goal: Goal, today: Date, completion: real, logs: seq<DailyLog>): (f: GoalFigures)
    ensures f.daysElapsed + f.daysRemaining == f.daysTotal
    ensures f.gap == completion - f.expected
    ensures f.daysTotal <= 0 ==> f.expected == 0.0
    ensures f.daysTotal > 0 && f.daysRemaining == 0 ==> f.expected == 100.0
    ensures (forall l :: l in logs ==> !AdherenceRated(today)(l)) ==> f.recentAdherence == 0.0
    ensures var xs := Present(AdherenceColumn(Filter(logs, AdherenceRated(today))));
      |xs| > 0 ==> xs[ArgMin(xs)] <= f.recentAdherence <= xs[ArgMax(xs)]
  {
    var total := goal.endDate - goal.startDate;
    var elapsed := today - goal.startDate;
    var expected := ExpectedCompletion(elapsed, total);
    var rated := Filter(logs, AdherenceRated(today));
    assert (forall l :: l in logs ==> !AdherenceRated(today)(l)) ==> Present(AdherenceColumn(rated)) == [] by {
      if forall l :: l in logs ==> !AdherenceRated(today)(l) {
        forall i | 0 <= i < |logs| ensures !AdherenceRated(today)(logs[i]) {
          assert logs[i] in logs;
        }
        assert rated == [];
      }
    }
    assert total > 0 && elapsed == total ==> expected == 100.0 by {
      if total > 0 && elapsed == total {
        DivBetween(1.0, 1.0, total as real, total as real);
      }
    }
    assert |Present(AdherenceColumn(rated))| > 0 ==>
      var xs := Present(AdherenceColumn(rated));
      xs[ArgMin(xs)] <= AggregateAverage(AdherenceColumn(rated)) <= xs[ArgMax(xs)] by {
      if |Present(AdherenceColumn(rated))| > 0 { MeanWithinSamples(Present(AdherenceColumn(rated))); }
    }
    GoalFigures(total, elapsed, goal.endDate - today, expected, completion - expected,
                AggregateAverage(AdherenceColumn(rated)))
  }

  /** The names `ai_service.py` binds at module level: its imports, the
      logger and the service class. `models` is not among them. */
  const ServiceModuleNames: set<string> := {
    "json", "requests", "settings", "timezone", "AIPromptHistory", "MonkModeGoal",
    "MonkModePeriod", "ScheduledActivity", "ActivityType", "UserDailyLog",
    "SupportContact", "datetime", "timedelta", "logging", "logger", "AIService"}

  /** The reply when anything in `suggest_goal_adjustments` raises. */
  const GoalAdviceFailed: string := "Unable to generate goal adjustment suggestions."

  /** The reply when the model does not answer. */
  const GoalAdviceFallback: string :=
    "Consider reviewing your goal timeline and breaking down remaining tasks into smaller, manageable steps."

  /** `suggest_goal_adjustments` as intended: the model's answer to the
      prompt built from the goal and its figures, or the fixed advice when
      the model does not answer. `ask` stands for the model call, None for
      a reply whose status is not success. */
  function SuggestGoalAdjustments(goal: Goal, today: Date, completion: real, logs: seq<DailyLog>,
                                  ask: (Goal, GoalFigures) -> Option<string>): (r: string)
    ensures ask(goal, GoalAdjustmentFigures(goal, today, completion, logs)).Some? ==>
      r == ask(goal, GoalAdjustmentFigures(goal, today, completion, logs)).value
    ensures ask(goal, GoalAdjustmentFigures(goal, today, completion, logs)).None? ==> r == GoalAdviceFallback
    ensures r == GoalAdviceFailed ==> ask(goal, GoalAdjustmentFigures(goal, today, completion, logs)) == Some(GoalAdviceFailed)
  {
    match ask(goal, GoalAdjustmentFigures(goal, today, completion, logs))
    case Some(answer) => answer
    case None => GoalAdviceFallback
  }

  /** `suggest_goal_adjustments` as written: the adherence average is
      requested through `models.Avg`, a name the module never binds, so
      the lookup raises before the prompt is built and the handler
      answers with the failure text, whatever the goal, the logs or the
      model. */
  function SuggestGoalAdjustmentsAsWritten(goal: Goal, today: Date, completion: real, logs: seq<DailyLog>,
                                           ask: (Goal, GoalFigures) -> Option<string>): (r: string)
    ensures r == GoalAdviceFailed
  {
    if "models" !in ServiceModuleNames then GoalAdviceFailed
    else SuggestGoalAdjustments(goal, today, completion, logs, ask)
  }

  /** Whenever the model answers with advice, or does not answer at all,
      the program as written reports the failure text where the intended
      one reports that advice or the fallback. */
  lemma GoalAdviceLost(goal: Goal, today: Date, completion: real, logs: seq<DailyLog>,
                       ask: (Goal, GoalFigures) -> Option<string>)
    ensures ask(goal, GoalAdjustmentFigures(goal, today, completion, logs)) != Some(GoalAdviceFailed) ==>
      SuggestGoalAdjustmentsAsWritten(goal, today, completion, logs, ask) !=
      SuggestGoalAdjustments(goal, today, completion, logs, ask)
  {
  }
}

=== FILE: basics.dfy ===
/** Shared vocabulary for the Monk Mode model: optional values, ASCII
    lower-casing, substring search, sums and means of reals, decimal
    rendering, clamping, Python's truncating division, a filter over
    sequences, and a stable descending sort by a real-valued key. */
module Basics {

  datatype Option<+T> = None | Some(value: T)

  // ---------------------------------------------------------------------
  // Strings
  // ---------------------------------------------------------------------

  /** Python's str.lower() on the ASCII and Latin-1 capitals and on the
      two letter-like symbols KELVIN SIGN (to 'k') and ANGSTROM SIGN (to
      'å'); every other character is kept. */
  function LowerChar(c: char): char {
    if 'A' <= c <= 'Z' then (c as int + 32) as char
    else if '\U{C0}' <= c <= '\U{DE}' && c != '\U{D7}' then (c as int + 32) as char
    else if c == '\U{212A}' then 'k'
    else if c == '\U{212B}' then '\U{E5}'
    else c
  }

  /** The only characters lower-cased to an ASCII letter are the ASCII
      letters themselves and the Kelvin sign, as in Python. */
  lemma LowerCharToAscii(c: char)
    ensures 'a' <= LowerChar(c) <= 'z' <==> 'A' <= c <= 'Z' || 'a' <= c <= 'z' || c == '\U{212A}'
  {
  }

  function Lower(s: string): (r: string)
    ensures |r| == |s|
    ensures forall i :: 0 <= i < |s| ==> r[i] == LowerChar(s[i])
  {
    if |s| == 0 then [] else [LowerChar(s[0])] + Lower(s[1..])
  }

  /** With the Kelvin sign for its last letter, "FRAMEWOR\U{212A}"
      lower-cases to "framework". */
  lemma LowerKelvinFramework()
    ensures Lower("FRAMEWOR\U{212A}") == "framework"
  {
  }

  /** With the Kelvin sign for its last letter, "DEEP WOR\U{212A}"
      lower-cases to "deep work". */
  lemma LowerKelvinDeepWork()
    ensures Lower("DEEP WOR\U{212A}") == "deep work"
  {
  }

  /** Lower-casing twice is lower-casing once. */
  lemma LowerIdempotent(s: string)
    ensures Lower(Lower(s)) == Lower(s)
  {
    assert forall i :: 0 <= i < |s| ==> LowerChar(LowerChar(s[i])) == LowerChar(s[i]);
  }

  function StartsWith(s: string, prefix: string): bool {
    |prefix| <= |s| && s[..|prefix|] == prefix
  }

  /** `pat` occurs in `s` starting at index `i`. */
  ghost predicate OccursAt(pat: string, s: string, i: int) {
    0 <= i && i + |pat| <= |s| && s[i..i + |pat|] == pat
  }

  /** The specification of Python's `pat in s` for strings. */
  ghost predicate Occurs(pat: string, s: string) {
    exists i :: OccursAt(pat, s, i)
  }

  lemma OccursShift(pat: string, s: string)
    requires |s| > 0
    ensures Occurs(pat, s) <==> OccursAt(pat, s, 0) || Occurs(pat, s[1..])
  {
    if Occurs(pat, s) && !OccursAt(pat, s, 0) {
      var i :| OccursAt(pat, s, i);
      assert s[1..][i - 1..i - 1 + |pat|] == s[i..i + |pat|];
      assert OccursAt(pat, s[1..], i - 1);
    }
    if Occurs(pat, s[1..]) {
      var j :| OccursAt(pat, s[1..], j);
      assert s[1..][j..j + |pat|] == s[j + 1..j + 1 + |pat|];
      assert OccursAt(pat, s, j + 1);
    }
  }

  /** Substring test by scanning every start position, as `pat in s` does. */
  function Contains(s: string, pat: string): (b: bool)
    ensures b <==> Occurs(pat, s)
    decreases |s|
  {
    if StartsWith(s, pat) then
      assert OccursAt(pat, s, 0);
      true
    else if |s| == 0 then
      assert |pat| > 0;
      false
    else
      OccursShift(pat, s);
      assert !OccursAt(pat, s, 0) by {
        if |pat| <= |s| { assert s[0..|pat|] == s[..|pat|]; }
      }
      Contains(s[1..], pat)
  }

  /** Index of the first occurrence of `c` (Python's str.find for one
      character), None when absent. */
  function FindChar(s: string, c: char): (r: Option<nat>)
    ensures r.None? <==> c !in s
    ensures r.Some? ==> r.value < |s| && s[r.value] == c
    ensures r.Some? ==> forall i :: 0 <= i < r.value ==> s[i] != c
  {
    if |s| == 0 then None
    else if s[0] == c then Some(0)
    else match FindChar(s[1..], c)
      case None => None
      case Some(k) => Some(k + 1)
  }

  /** Index of the last occurrence of `c` (Python's str.rfind for one
      character), None when absent. */
  function RFindChar(s: string, c: char): (r: Option<nat>)
    ensures r.None? <==> c !in s
    ensures r.Some? ==> r.value < |s| && s[r.value] == c
    ensures r.Some? ==> forall i :: r.value < i < |s| ==> s[i] != c
  {
    if |s| == 0 then None
    else if s[|s| - 1] == c then Some(|s| - 1)
    else
      assert s == s[..|s| - 1] + [s[|s| - 1]];
      RFindChar(s[..|s| - 1], c)
  }

  // ---------------------------------------------------------------------
  // Decimal rendering (Python's str(n) for a non-negative int)
  // ---------------------------------------------------------------------

  function DigitChar(d: nat): char
    requires d < 10
  {
    ('0' as int + d) as char
  }

  function NatToDecimal(n: nat): (s: string)
    ensures |s| >= 1
    ensures forall i :: 0 <= i < |s| ==> '0' <= s[i] <= '9'
  {
    if n < 10 then [DigitChar(n)] else NatToDecimal(n / 10) + [DigitChar(n % 10)]
  }

  /** Reads a string of decimal digits back as a number. */
  function DecimalValue(s: string): nat
    requires forall i :: 0 <= i < |s| ==> '0' <= s[i] <= '9'
  {
    if |s| == 0 then 0
    else DecimalValue(s[..|s| - 1]) * 10 + (s[|s| - 1] as int - '0' as int)
  }

  /** Rendering then reading a number gives the number back, so distinct
      numbers render as distinct strings. */
  lemma {:induction false} DecimalRoundTrip(n: nat)
    ensures DecimalValue(NatToDecimal(n)) == n
  {
    if n >= 10 {
      var s := NatToDecimal(n);
      assert s[..|s| - 1] == NatToDecimal(n / 10);
      DecimalRoundTrip(n / 10);
    }
  }

  // ---------------------------------------------------------------------
  // Python's digit tests on Unicode text (the Unicode 15.0 tables)
  // ---------------------------------------------------------------------

  /** The first code point of the run of decimal digits (category Nd)
      holding `x`, or -1 when `x` is no decimal digit. Every decimal digit
      lies in a run of ten holding the digits 0 to 9 in code-point order. */
  function DecimalRunStart(x: int): (r: int)
    ensures r == -1 || r <= x < r + 10
  {
      if x < 0 then -1
      else if x < 0x3A then (if x < 0x30 then -1 else 0x30)
      else if x < 0x66A then (if x < 0x660 then -1 else 0x660)
      else if x < 0x6FA then (if x < 0x6F0 then -1 else 0x6F0)
      else if x < 0x7CA then (if x < 0x7C0 then -1 else 0x7C0)
      else if x < 0x970 then (if x < 0x966 then -1 else 0x966)
      else if x < 0x9F0 then (if x < 0x9E6 then -1 else 0x9E6)
      else if x < 0xA70 then (if x < 0xA66 then -1 else 0xA66)
      else if x < 0xAF0 then (if x < 0xAE6 then -1 else 0xAE6)
      else if x < 0xB70 then (if x < 0xB66 then -1 else 0xB66)
      else if x < 0xBF0 then (if x < 0xBE6 then -1 else 0xBE6)
      else if x < 0xC70 then (if x < 0xC66 then -1 else 0xC66)
      else if x < 0xCF0 then (if x < 0xCE6 then -1 else 0xCE6)
      else if x < 0xD70 then (if x < 0xD66 then -1 else 0xD66)
      else if x < 0xDF0 then (if x < 0xDE6 then -1 else 0xDE6)
      else if x < 0xE5A then (if x < 0xE50 then -1 else 0xE50)
      else if x < 0xEDA then (if x < 0xED0 then -1 else 0xED0)
      else if x < 0xF2A then (if x < 0xF20 then -1 else 0xF20)
      else if x < 0x104A then (if x < 0x1040 then -1 else 0x1040)
      else if x < 0x109A then (if x < 0x1090 then -1 else 0x1090)
      else if x < 0x17EA then (if x < 0x17E0 then -1 else 0x17E0)
      else if x < 0x181A then (if x < 0x1810 then -1 else 0x1810)
      else if x < 0x1950 then (if x < 0x1946 then -1 else 0x1946)
      else if x < 0x19DA then (if x < 0x19D0 then -1 else 0x19D0)
      else if x < 0x1A8A then (if x < 0x1A80 then -1 else 0x1A80)
      else if x < 0x1A9A then (if x < 0x1A90 then -1 else 0x1A90)
      else if x < 0x1B5A then (if x < 0x1B50 then -1 else 0x1B50)
      else if x < 0x1BBA then (if x < 0x1BB0 then -1 else 0x1BB0)
      else if x < 0x1C4A then (if x < 0x1C40 then -1 else 0x1C40)
      else if x < 0x1C5A then (if x < 0x1C50 then -1 else 0x1C50)
      else if x < 0xA62A then (if x < 0xA620 then -1 else 0xA620)
      else if x < 0xA8DA then (if x < 0xA8D0 then -1 else 0xA8D0)
      else if x < 0xA90A then (if x < 0xA900 then -1 else 0xA900)
      else if x < 0xA9DA then (if x < 0xA9D0 then -1 else 0xA9D0)
      else if x < 0xA9FA then (if x < 0xA9F0 then -1 else 0xA9F0)
      else if x < 0xAA5A then (if x < 0xAA50 then -1 else 0xAA50)
      else if x < 0xABFA then (if x < 0xABF0 then -1 else 0xABF0)
      else if x < 0xFF1A then (if x < 0xFF10 then -1 else 0xFF10)
      else if x < 0x104AA then (if x < 0x104A0 then -1 else 0x104A0)
      else if x < 0x10D3A then (if x < 0x10D30 then -1 else 0x10D30)
      else if x < 0x11070 then (if x < 0x11066 then -1 else 0x11066)
      else if x < 0x110FA then (if x < 0x110F0 then -1 else 0x110F0)
      else if x < 0x11140 then (if x < 0x11136 then -1 else 0x11136)
      else if x < 0x111DA then (if x < 0x111D0 then -1 else 0x111D0)
      else if x < 0x112FA then (if x < 0x112F0 then -1 else 0x112F0)
      else if x < 0x1145A then (if x < 0x11450 then -1 else 0x11450)
      else if x < 0x114DA then (if x < 0x114D0 then -1 else 0x114D0)
      else if x < 0x1165A then (if x < 0x11650 then -1 else 0x11650)
      else if x < 0x116CA then (if x < 0x116C0 then -1 else 0x116C0)
      else if x < 0x1173A then (if x < 0x11730 then -1 else 0x11730)
      else if x < 0x118EA then (if x < 0x118E0 then -1 else 0x118E0)
      else if x < 0x1195A then (if x < 0x11950 then -1 else 0x11950)
      else if x < 0x11C5A then (if x < 0x11C50 then -1 else 0x11C50)
      else if x < 0x11D5A then (if x < 0x11D50 then -1 else 0x11D50)
      else if x < 0x11DAA then (if x < 0x11DA0 then -1 else 0x11DA0)
      else if x < 0x11F5A then (if x < 0x11F50 then -1 else 0x11F50)
      else if x < 0x16A6A then (if x < 0x16A60 then -1 else 0x16A60)
      else if x < 0x16ACA then (if x < 0x16AC0 then -1 else 0x16AC0)
      else if x < 0x16B5A then (if x < 0x16B50 then -1 else 0x16B50)
      else if x < 0x1D7D8 then (if x < 0x1D7CE then -1 else 0x1D7CE)
      else if x < 0x1D7E2 then (if x < 0x1D7D8 then -1 else 0x1D7D8)
      else if x < 0x1D7EC then (if x < 0x1D7E2 then -1 else 0x1D7E2)
      else if x < 0x1D7F6 then (if x < 0x1D7EC then -1 else 0x1D7EC)
      else if x < 0x1D800 then (if x < 0x1D7F6 then -1 else 0x1D7F6)
      else if x < 0x1E14A then (if x < 0x1E140 then -1 else 0x1E140)
      else if x < 0x1E2FA then (if x < 0x1E2F0 then -1 else 0x1E2F0)
      else if x < 0x1E4FA then (if x < 0x1E4F0 then -1 else 0x1E4F0)
      else if x < 0x1E95A then (if x < 0x1E950 then -1 else 0x1E950)
      else if x < 0x1FBFA then (if x < 0x1FBF0 then -1 else 0x1FBF0)
      else -1
  }

  /** The characters `str.isdigit()` accepts but `int()` rejects:
      superscripts, subscripts, circled and parenthesized numbers and the
      like. */
  predicate IsDigitOnly(c: char) {
    var x := c as int;
    (0xB2 <= x <= 0xB3
     || x == 0xB9
     || 0x1369 <= x <= 0x1371
     || x == 0x19DA
     || x == 0x2070
     || 0x2074 <= x <= 0x2079
     || 0x2080 <= x <= 0x2089
     || 0x2460 <= x <= 0x2468
     || 0x2474 <= x <= 0x247C
     || 0x2488 <= x <= 0x2490
     || x == 0x24EA
     || 0x24F5 <= x <= 0x24FD
     || x == 0x24FF
     || 0x2776 <= x <= 0x277E
     || 0x2780 <= x <= 0x2788
     || 0x278A <= x <= 0x2792
     || 0x10A40 <= x <= 0x10A43
     || 0x10E60 <= x <= 0x10E68
     || 0x11052 <= x <= 0x1105A
     || 0x1F100 <= x <= 0x1F10A)
  }

  /** The value of a decimal digit of any script. */
  function DecimalDigit(c: char): (d: Option<nat>)
    ensures d.Some? ==> d.value < 10
    ensures '0' <= c <= '9' <==> d.Some? && c as int < 0x80
    ensures '0' <= c <= '9' ==> d == Some(c as int - '0' as int)
  {
    var s := DecimalRunStart(c as int);
    if s < 0 then None else Some(c as int - s)
  }

  predicate IsDecimalChar(c: char) { DecimalDigit(c).Some? }

  predicate IsDigitChar(c: char) { IsDecimalChar(c) || IsDigitOnly(c) }

  /** The characters `int()` rejects are no decimal digits. */
  lemma DigitOnlyNotDecimal(c: char)
    requires IsDigitOnly(c)
    ensures !IsDecimalChar(c)
  {
  }

  /** `str.isdigit()`: non-empty, and every character a digit. */
  predicate IsDigitString(s: string) {
    |s| > 0 && forall i :: 0 <= i < |s| ==> IsDigitChar(s[i])
  }

  /** `str.isdecimal()`. */
  predicate IsDecimalString(s: string) {
    |s| > 0 && forall i :: 0 <= i < |s| ==> IsDecimalChar(s[i])
  }

  /** `sys.get_int_max_str_digits()`: `int()` refuses decimal text longer
      than this. */
  const IntMaxStrDigits: nat := 4300

  /** The number spelled by decimal digits of any script. */
  function DigitsValue(s: string): nat
    requires forall i :: 0 <= i < |s| ==> IsDecimalChar(s[i])
  {
    if |s| == 0 then 0
    else
      assert IsDecimalChar(s[|s| - 1]);
      DigitsValue(s[..|s| - 1]) * 10 + DecimalDigit(s[|s| - 1]).value
  }

  /** On ASCII digits the value is the one `DecimalValue` reads. */
  lemma {:induction false} DigitsValueAscii(s: string)
    requires forall i :: 0 <= i < |s| ==> '0' <= s[i] <= '9'
    ensures DigitsValue(s) == DecimalValue(s)
  {
    if |s| > 0 {
      DigitsValueAscii(s[..|s| - 1]);
    }
  }

  /** Python's `int(s)` for text without white space or sign: the number
      its digits spell, or None where `int` raises ValueError, because
      the text is empty, holds a character that is no decimal digit, or
      is longer than the conversion limit. */
  function ParseInt(s: string): (r: Option<nat>)
    ensures r.Some? <==> IsDecimalString(s) && |s| <= IntMaxStrDigits
    ensures r.Some? && (forall i :: 0 <= i < |s| ==> '0' <= s[i] <= '9') ==> r.value == DecimalValue(s)
  {
    if IsDecimalString(s) && |s| <= IntMaxStrDigits then
      assert (forall i :: 0 <= i < |s| ==> '0' <= s[i] <= '9') ==> DigitsValue(s) == DecimalValue(s) by {
        if forall i :: 0 <= i < |s| ==> '0' <= s[i] <= '9' { DigitsValueAscii(s); }
      }
      Some(DigitsValue(s))
    else None
  }

  /** Reading back a rendered number gives the number, within the limit. */
  lemma ParseIntRoundTrip(n: nat)
    requires |NatToDecimal(n)| <= IntMaxStrDigits
    ensures ParseInt(NatToDecimal(n)) == Some(n)
  {
    DecimalRoundTrip(n);
  }

  /** Arabic-Indic three reads as 3; superscript two passes the digit test
      but not `int`. */
  lemma UnicodeDigitWitnesses()
    ensures ParseInt("\U{663}") == Some(3)
    ensures IsDigitString("\U{B2}") && ParseInt("\U{B2}").None?
  {
    assert DigitsValue("\U{663}") == DigitsValue([]) * 10 + 3;
  }

  // ---------------------------------------------------------------------
  // Numbers
  // ---------------------------------------------------------------------

  function Min(a: real, b: real): real { if a <= b then a else b }
  function Max(a: real, b: real): real { if a >= b then a else b }

  /** `max(lo, min(hi, x))`. */
  function Clamp(x: real, lo: real, hi: real): (r: real)
    requires lo <= hi
    ensures lo <= r <= hi
    ensures lo <= x <= hi ==> r == x
    ensures x < lo ==> r == lo
    ensures x > hi ==> r == hi
  {
    Max(lo, Min(hi, x))
  }

  /** Python's int(a / b) for b > 0: division truncating toward zero
      (Dafny's own `/` rounds toward negative infinity here). */
  function TruncDiv(a: int, b: int): (q: int)
    requires b > 0
    ensures a >= 0 ==> 0 <= q && q * b <= a < q * b + b
    ensures a < 0 ==> q <= 0 && q * b - b < a <= q * b
  {
    if a >= 0 then
      DivBounds(a, b);
      a / b
    else
      DivBounds(-a, b);
      NegateProduct((-a) / b, b);
      -((-a) / b)
  }

  lemma DivBounds(n: nat, b: int)
    requires b > 0
    ensures 0 <= n / b && (n / b) * b <= n < (n / b) * b + b
  {
  }

  lemma NegateProduct(m: int, b: int)
    ensures (-m) * b == -(m * b)
  {
  }

  lemma MulPositive(a: real, b: real)
    requires a > 0.0 && b > 0.0
    ensures a * b > 0.0
  {
  }

  /** Dividing by a positive number keeps bounds scaled by it. */
  lemma DivBetween(lo: real, hi: real, s: real, n: real)
    requires n > 0.0 && lo * n <= s <= hi * n
    ensures lo <= s / n <= hi
  {
    var q := s / n;
    assert q * n == s;
    assert (lo - q) * n == lo * n - q * n;
    assert (q - hi) * n == q * n - hi * n;
    if q < lo { MulPositive(lo - q, n); }
    if q > hi { MulPositive(q - hi, n); }
  }

  /** Dividing by a positive number keeps order. */
  lemma DivMonotone(a: real, b: real, n: real)
    requires n > 0.0 && a <= b
    ensures a / n <= b / n
  {
    var qa, qb := a / n, b / n;
    assert qa * n == a && qb * n == b;
    assert (qa - qb) * n == qa * n - qb * n;
    if qa > qb { MulPositive(qa - qb, n); }
  }

  /** Reciprocals of positive numbers reverse their order. */
  lemma ReciprocalLess(a: real, b: real)
    requires 0.0 < a < b
    ensures 1.0 / b < 1.0 / a
  {
    var wa := 1.0 / a;
    var wb := 1.0 / b;
    assert wa * a == 1.0 && wb * b == 1.0;
    MulPositive(wb, b - a);
    assert wb * (b - a) == wb * b - wb * a;
    assert (wb - wa) * a == wb * a - wa * a;
    if wb > wa { MulPositive(wb - wa, a); }
  }

  function ToReals(xs: seq<int>): (r: seq<real>)
    ensures |r| == |xs|
    ensures forall i :: 0 <= i < |xs| ==> r[i] == xs[i] as real
  {
    if |xs| == 0 then [] else [xs[0] as real] + ToReals(xs[1..])
  }

  function Sum(xs: seq<real>): real {
    if |xs| == 0 then 0.0 else xs[0] + Sum(xs[1..])
  }

  lemma {:induction false} SumAppend(xs: seq<real>, x: real)
    ensures Sum(xs + [x]) == Sum(xs) + x
  {
    if |xs| > 0 {
      assert (xs + [x])[1..] == xs[1..] + [x];
      SumAppend(xs[1..], x);
    }
  }

  lemma {:induction false} SumBounds(xs: seq<real>, lo: real, hi: real)
    requires forall i :: 0 <= i < |xs| ==> lo <= xs[i] <= hi
    ensures lo * |xs| as real <= Sum(xs) <= hi * |xs| as real
  {
    if |xs| > 0 {
      SumBounds(xs[1..], lo, hi);
    }
  }

  function Mean(xs: seq<real>): real
    requires |xs| > 0
  {
    Sum(xs) / |xs| as real
  }

  /** A mean never leaves the interval its samples lie in. */
  lemma MeanBounds(xs: seq<real>, lo: real, hi: real)
    requires |xs| > 0
    requires forall i :: 0 <= i < |xs| ==> lo <= xs[i] <= hi
    ensures lo <= Mean(xs) <= hi
  {
    SumBounds(xs, lo, hi);
    var n := |xs| as real;
    DivBetween(lo, hi, Sum(xs), n);
  }

  /** A ratio of a part to a positive whole lies in [0, 1], and hits its
      ends exactly for the empty and the full part. */
  lemma FractionBounds(d: real, n: real)
    requires 0.0 <= d <= n && n > 0.0
    ensures 0.0 <= d / n <= 1.0
    ensures d / n == 1.0 <==> d == n
    ensures d / n == 0.0 <==> d == 0.0
    ensures (d / n) * n == d
  {
    var q := d / n;
    assert q * n == d;
    assert (1.0 - q) * n == n - d;
    if q > 1.0 { MulPositive(q - 1.0, n); }
    if q < 0.0 { MulPositive(-q, n); }
    if q == 1.0 { assert d == n; }
  }

  lemma ClampMonotone(x: real, y: real, lo: real, hi: real)
    requires lo <= hi && x <= y
    ensures Clamp(x, lo, hi) <= Clamp(y, lo, hi)
  {
  }

  /** Index of the first least element (Python's min by key). */
  function ArgMin(xs: seq<real>): (k: nat)
    requires |xs| > 0
    ensures k < |xs|
    ensures forall i :: 0 <= i < |xs| ==> xs[k] <= xs[i]
    ensures forall i :: 0 <= i < k ==> xs[i] > xs[k]
  {
    if |xs| == 1 then 0
    else
      var k := ArgMin(xs[1..]) + 1;
      if xs[0] <= xs[k] then 0 else k
  }

  /** Index of the first greatest element (Python's max by key). */
  function ArgMax(xs: seq<real>): (k: nat)
    requires |xs| > 0
    ensures k < |xs|
    ensures forall i :: 0 <= i < |xs| ==> xs[i] <= xs[k]
    ensures forall i :: 0 <= i < k ==> xs[i] < xs[k]
  {
    if |xs| == 1 then 0
    else
      var k := ArgMax(xs[1..]) + 1;
      if xs[0] >= xs[k] then 0 else k
  }

  /** A mean lies between the least and the greatest sample. */
  lemma MeanWithinSamples(xs: seq<real>)
    requires |xs| > 0
    ensures xs[ArgMin(xs)] <= Mean(xs) <= xs[ArgMax(xs)]
  {
    MeanBounds(xs, xs[ArgMin(xs)], xs[ArgMax(xs)]);
  }

  // ---------------------------------------------------------------------
  // Filtering
  // ---------------------------------------------------------------------

  /** The elements of `xs` satisfying `p`, in their original order. */
  function Filter<T(!new)>(xs: seq<T>, p: T -> bool): (r: seq<T>)
    ensures |r| <= |xs|
    ensures forall x :: x in r <==> x in xs && p(x)
    ensures (forall i :: 0 <= i < |xs| ==> !p(xs[i])) <==> r == []
  {
    if |xs| == 0 then []
    else if p(xs[0]) then [xs[0]] + Filter(xs[1..], p)
    else Filter(xs[1..], p)
  }

  lemma {:induction false} FilterAppend<T(!new)>(xs: seq<T>, ys: seq<T>, p: T -> bool)
    ensures Filter(xs + ys, p) == Filter(xs, p) + Filter(ys, p)
  {
    if |xs| == 0 {
      assert xs + ys == ys;
    } else {
      assert (xs + ys)[0] == xs[0];
      assert (xs + ys)[1..] == xs[1..] + ys;
      FilterAppend(xs[1..], ys, p);
    }
  }

  /** Appending one element adds one to the count exactly when it passes. */
  lemma FilterSnocCount<T(!new)>(xs: seq<T>, x: T, p: T -> bool)
    ensures |Filter(xs + [x], p)| == |Filter(xs, p)| + (if p(x) then 1 else 0)
  {
    FilterAppend(xs, [x], p);
    assert [x][1..] == [];
  }

  /** `xs` and `ys` are related position by position. */
  predicate Pairwise<A, B>(xs: seq<A>, ys: seq<B>, rel: (A, B) -> bool) {
    |xs| == |ys| && forall i :: 0 <= i < |xs| ==> rel(xs[i], ys[i])
  }

  /** Related heads in front of related tails stay related. */
  lemma PairwiseCons<A, B>(x: A, y: B, xs: seq<A>, ys: seq<B>, rel: (A, B) -> bool)
    requires rel(x, y) && Pairwise(xs, ys, rel)
    ensures Pairwise([x] + xs, [y] + ys, rel)
  {
    forall i | 0 < i < |xs| + 1 ensures rel(([x] + xs)[i], ([y] + ys)[i]) {
      assert ([x] + xs)[i] == xs[i - 1] && ([y] + ys)[i] == ys[i - 1];
    }
  }

  /** Position `i` of `xs` holds `f(i)`. */
  ghost predicate Tabulates<T>(xs: seq<T>, f: nat -> T) {
    forall i :: 0 <= i < |xs| ==> xs[i] == f(i)
  }

  /** Appending the next value keeps a tabulation. */
  lemma TabulatesSnoc<T>(xs: seq<T>, f: nat -> T, x: T)
    requires Tabulates(xs, f) && x == f(|xs|)
    ensures Tabulates(xs + [x], f)
  {
    var r := xs + [x];
    forall i | 0 <= i < |r| ensures r[i] == f(i) {
      if i < |xs| {
        assert r[i] == xs[i];
      }
    }
  }

  /** The number of elements of `xs` that pass `p`: never more than all of
      them, all of them exactly when every element passes, none exactly
      when no element does. */
  function Count<T>(xs: seq<T>, p: T -> bool): (n: nat)
    ensures n <= |xs|
    ensures n == |xs| <==> forall i :: 0 <= i < |xs| ==> p(xs[i])
    ensures n == 0 <==> forall i :: 0 <= i < |xs| ==> !p(xs[i])
  {
    if |xs| == 0 then 0
    else (if p(xs[0]) then 1 else 0) + Count(xs[1..], p)
  }

  /** The number of elements of `xs` that pass `p`, counted from the back. */
  function CountFromBack<T>(xs: seq<T>, p: T -> bool): nat {
    if |xs| == 0 then 0
    else CountFromBack(xs[..|xs| - 1], p) + (if p(xs[|xs| - 1]) then 1 else 0)
  }

  /** Counting from the back agrees with filtering. */
  lemma {:induction false} CountFromBackFilters<T(!new)>(xs: seq<T>, p: T -> bool)
    ensures CountFromBack(xs, p) == |Filter(xs, p)|
  {
    if |xs| > 0 {
      var init, x := xs[..|xs| - 1], xs[|xs| - 1];
      CountFromBackFilters(init, p);
      assert xs == init + [x];
      FilterSnocCount(init, x, p);
    }
  }

  /** Splitting by a predicate and its negation loses and adds nothing. */
  lemma {:induction false} FilterSplit<T(!new)>(xs: seq<T>, p: T -> bool, q: T -> bool)
    requires forall x :: p(x) <==> !q(x)
    ensures |Filter(xs, p)| + |Filter(xs, q)| == |xs|
  {
    if |xs| > 0 {
      FilterSplit(xs[1..], p, q);
    }
  }

  /** The concatenation of `f(x)` over `xs`, left to right. */
  function ConcatMap<T, U>(xs: seq<T>, f: T -> seq<U>): seq<U> {
    if |xs| == 0 then [] else f(xs[0]) + ConcatMap(xs[1..], f)
  }

  /** Appending an element appends its image. */
  lemma {:induction false} ConcatMapAppend<T, U>(xs: seq<T>, x: T, f: T -> seq<U>)
    ensures ConcatMap(xs + [x], f) == ConcatMap(xs, f) + f(x)
  {
    if |xs| == 0 {
      assert [x][1..] == [];
      assert xs + [x] == [x];
      assert f(x) + [] == f(x);
    } else {
      var ys := xs + [x];
      assert ys[0] == xs[0];
      assert ys[1..] == xs[1..] + [x];
      ConcatMapAppend(xs[1..], x, f);
      assert f(xs[0]) + (ConcatMap(xs[1..], f) + f(x)) == (f(xs[0]) + ConcatMap(xs[1..], f)) + f(x);
    }
  }

  /** `k` is the position of the first element satisfying `p`. */
  ghost predicate IsFirst<T>(xs: seq<T>, p: T -> bool, k: int) {
    0 <= k < |xs| && p(xs[k]) && forall i :: 0 <= i < k ==> !p(xs[i])
  }

  /** The first element satisfying `p` (a query's `.first()`). */
  function First<T>(xs: seq<T>, p: T -> bool): (r: Option<T>)
    ensures r.None? <==> forall i :: 0 <= i < |xs| ==> !p(xs[i])
    ensures r.Some? ==> exists k :: IsFirst(xs, p, k) && xs[k] == r.value
  {
    if |xs| == 0 then None
    else if p(xs[0]) then
      assert IsFirst(xs, p, 0);
      Some(xs[0])
    else
      var r := First(xs[1..], p);
      assert forall i :: 1 <= i < |xs| ==> xs[i] == xs[1..][i - 1];
      assert r.Some? ==> exists k :: IsFirst(xs, p, k) && xs[k] == r.value by {
        if r.Some? {
          var k :| IsFirst(xs[1..], p, k) && xs[1..][k] == r.value;
          assert IsFirst(xs, p, k + 1);
        }
      }
      r
  }

  /** No two elements of `xs` share a key. */
  ghost predicate KeysDistinct<T, K>(xs: seq<T>, key: T -> K) {
    forall i, j :: 0 <= i < j < |xs| ==> key(xs[i]) != key(xs[j])
  }

  /** Filtering keeps keys distinct. */
  lemma {:induction false} FilterKeepsDistinct<T(!new), K>(xs: seq<T>, p: T -> bool, key: T -> K)
    requires KeysDistinct(xs, key)
    ensures KeysDistinct(Filter(xs, p), key)
  {
    if |xs| > 0 {
      var rest := Filter(xs[1..], p);
      FilterKeepsDistinct(xs[1..], p, key);
      if p(xs[0]) {
        var r := Filter(xs, p);
        assert r == [xs[0]] + rest;
        forall i, j | 0 <= i < j < |r| ensures key(r[i]) != key(r[j]) {
          if i == 0 {
            assert r[j] == rest[j - 1] && rest[j - 1] in xs[1..];
            var m :| 0 <= m < |xs[1..]| && xs[1..][m] == r[j];
            assert xs[m + 1] == r[j];
          } else {
            assert r[i] == rest[i - 1] && r[j] == rest[j - 1];
          }
        }
      }
    }
  }

  // ---------------------------------------------------------------------
  // Stable sort, descending by a real key
  // ---------------------------------------------------------------------

  ghost predicate SortedDesc<T>(xs: seq<T>, key: T -> real) {
    forall i, j :: 0 <= i < j < |xs| ==> key(xs[i]) >= key(xs[j])
  }

  /** The subsequence of the elements whose key equals `k`. Two sequences
      with equal such subsequences for every `k` order equal keys alike. */
  function WithKey<T>(xs: seq<T>, key: T -> real, k: real): seq<T> {
    if |xs| == 0 then []
    else (if key(xs[0]) == k then [xs[0]] else []) + WithKey(xs[1..], key, k)
  }

  /** Places `x` in front of the first element whose key is not above
      its own, so `x` precedes every element with an equal key. */
  function Insert<T>(x: T, ys: seq<T>, key: T -> real): (r: seq<T>)
    ensures |r| == |ys| + 1
  {
    if |ys| == 0 || key(ys[0]) <= key(x) then [x] + ys
    else [ys[0]] + Insert(x, ys[1..], key)
  }

  lemma {:induction false} InsertMultiset<T>(x: T, ys: seq<T>, key: T -> real)
    ensures multiset(Insert(x, ys, key)) == multiset(ys) + multiset{x}
  {
    if |ys| > 0 && key(ys[0]) > key(x) {
      InsertMultiset(x, ys[1..], key);
      assert ys == [ys[0]] + ys[1..];
    }
  }

  lemma {:induction false} InsertSorted<T>(x: T, ys: seq<T>, key: T -> real)
    requires SortedDesc(ys, key)
    ensures SortedDesc(Insert(x, ys, key), key)
  {
    var r := Insert(x, ys, key);
    if |ys| == 0 || key(ys[0]) <= key(x) {
      forall i, j | 0 <= i < j < |r| ensures key(r[i]) >= key(r[j]) {
        assert r[j] == ys[j - 1];
        if i > 0 { assert r[i] == ys[i - 1]; }
      }
    } else {
      var rest := Insert(x, ys[1..], key);
      InsertSorted(x, ys[1..], key);
      InsertMultiset(x, ys[1..], key);
      forall i, j | 0 <= i < j < |r| ensures key(r[i]) >= key(r[j]) {
        assert r[j] == rest[j - 1];
        if i > 0 {
          assert r[i] == rest[i - 1];
        } else {
          assert r[j] in multiset(ys[1..]) + multiset{x};
          if r[j] != x {
            assert r[j] in ys[1..];
            var m :| 0 <= m < |ys[1..]| && ys[1..][m] == r[j];
            assert ys[m + 1] == r[j];
          }
        }
      }
    }
  }

  lemma {:induction false} InsertWithKey<T>(x: T, ys: seq<T>, key: T -> real, k: real)
    ensures WithKey(Insert(x, ys, key), key, k)
      == (if key(x) == k then [x] else []) + WithKey(ys, key, k)
  {
    if |ys| > 0 && key(ys[0]) > key(x) {
      var rest := Insert(x, ys[1..], key);
      assert ([ys[0]] + rest)[1..] == rest;
      InsertWithKey(x, ys[1..], key, k);
    } else {
      assert ([x] + ys)[1..] == ys;
    }
  }

  /** Permutations have the same members. */
  lemma {:induction false} SameMembers<T>(a: seq<T>, b: seq<T>)
    requires multiset(a) == multiset(b)
    ensures forall x :: x in a <==> x in b
  {
    forall x ensures x in a <==> x in b {
      assert x in a <==> x in multiset(a);
      assert x in b <==> x in multiset(b);
    }
  }

  /** A property of every element survives a permutation. */
  lemma {:induction false} PermutationKeeps<T>(a: seq<T>, b: seq<T>, p: T -> bool)
    requires multiset(a) == multiset(b)
    requires forall i :: 0 <= i < |b| ==> p(b[i])
    ensures forall i :: 0 <= i < |a| ==> p(a[i])
  {
    forall i | 0 <= i < |a| ensures p(a[i]) {
      assert a[i] in multiset(b);
      var j :| 0 <= j < |b| && b[j] == a[i];
    }
  }

  /** Inserting the head into the sorted tail sorts the whole list. */
  lemma {:induction false} InsertStep<T>(xs: seq<T>, rest: seq<T>, key: T -> real)
    requires |xs| > 0
    requires multiset(rest) == multiset(xs[1..]) && SortedDesc(rest, key)
    requires forall k :: WithKey(rest, key, k) == WithKey(xs[1..], key, k)
    ensures multiset(Insert(xs[0], rest, key)) == multiset(xs)
    ensures SortedDesc(Insert(xs[0], rest, key), key)
    ensures forall k :: WithKey(Insert(xs[0], rest, key), key, k) == WithKey(xs, key, k)
  {
    InsertMultiset(xs[0], rest, key);
    InsertSorted(xs[0], rest, key);
    forall k ensures WithKey(Insert(xs[0], rest, key), key, k) == WithKey(xs, key, k) {
      InsertWithKey(xs[0], rest, key, k);
    }
    assert xs == [xs[0]] + xs[1..];
  }

  /** Python's `list.sort(key=key, reverse=True)`: a stable sort into
      non-increasing key order. */
  function SortDesc<T>(xs: seq<T>, key: T -> real): (r: seq<T>)
    ensures multiset(r) == multiset(xs)
    ensures |r| == |xs|
    ensures SortedDesc(r, key)
    ensures forall k :: WithKey(r, key, k) == WithKey(xs, key, k)
  {
    if |xs| == 0 then []
    else
      var rest := SortDesc(xs[1..], key);
      InsertStep(xs, rest, key);
      Insert(xs[0], rest, key)
  }

  /** `sorted(xs, key=key, reverse=True)[:n]`: the first `n` elements of
      the stable descending sort. */
  function TopN<T>(xs: seq<T>, key: T -> real, n: nat): (r: seq<T>)
    ensures |r| == if |xs| < n then |xs| else n
    ensures SortedDesc(r, key)
    ensures forall x :: x in r ==> x in xs
  {
    var s := SortDesc(xs, key);
    var r := if |s| <= n then s else s[..n];
    assert forall x :: x in r ==> x in multiset(s);
    r
  }

  /** Whatever the top `n` leave out ranks no higher than anything they
      keep. */
  lemma TopNDominates<T>(xs: seq<T>, key: T -> real, n: nat, x: T)
    requires x in xs && x !in TopN(xs, key, n)
    ensures forall y :: y in TopN(xs, key, n) ==> key(x) <= key(y)
  {
    var s := SortDesc(xs, key);
    assert x in multiset(s);
    var j :| 0 <= j < |s| && s[j] == x;
    assert j >= n;
    forall y | y in TopN(xs, key, n) ensures key(x) <= key(y) {
      var i :| 0 <= i < n && s[i] == y;
    }
  }

  /** The head of a non-empty top list ranks at least as high as every
      element of the input. */
  lemma TopNHeadIsMax<T>(xs: seq<T>, key: T -> real, n: nat)
    requires n > 0 && |xs| > 0
    ensures forall x :: x in xs ==> key(x) <= key(TopN(xs, key, n)[0])
  {
    var top := TopN(xs, key, n);
    forall x | x in xs ensures key(x) <= key(top[0]) {
      if x !in top {
        TopNDominates(xs, key, n, x);
      } else {
        var k :| 0 <= k < |top| && top[k] == x;
      }
    }
  }
}

=== FILE: energy_service.dfy ===
/** The energy service: logging a reading (clamped, and filed under the
    day's morning, afternoon or evening slot), the low/high alert rule,
    the circadian default table, recency-weighted hourly predictions with
    their confidence, the contextual adjustment, the booster/drain
    tallies, the half-against-half trend, the recovery tiers and the
    insight recommendations. The service's own store queries become
    filters over the user's logs and activities. */
module EnergyService {
  import opened Basics
  import opened Models

  // ---------------------------------------------------------------------
  // Logging a reading
  // ---------------------------------------------------------------------

  /** `int(x) if x else 5`, then clamped into 1..10. `None` is a missing
      reading; 0 is falsy as well. */
  function NormalizeLevel(input: Option<int>): (r: int)
    ensures ValidEnergyLevel(r)
    ensures input.None? || input.value == 0 ==> r == 5
    ensures input.Some? && ValidEnergyLevel(input.value) ==> r == input.value
    ensures input.Some? && input.value < 0 ==> r == 1
    ensures input.Some? && input.value > 10 ==> r == 10
  {
    var x := if input.None? || input.value == 0 then 5 else input.value;
    if x < 1 then 1 else if x > 10 then 10 else x
  }

  /** Normalizing a normalized reading changes nothing, and readings keep
      their order through it. */
  lemma NormalizeLevelStable(a: int, b: int)
    ensures NormalizeLevel(Some(NormalizeLevel(Some(a)))) == NormalizeLevel(Some(a))
    ensures a != 0 && b != 0 && a <= b ==> NormalizeLevel(Some(a)) <= NormalizeLevel(Some(b))
  {
  }

  datatype Slot = Morning | Afternoon | Evening

  /** The daily-log field a reading taken at `hour` lands in. */
  function SlotOf(hour: int): (r: Option<Slot>)
    ensures r == Some(Morning) <==> 5 <= hour <= 11
    ensures r == Some(Afternoon) <==> 12 <= hour <= 17
    ensures r == Some(Evening) <==> 18 <= hour <= 23
    ensures r.None? <==> hour < 5 || hour > 23
  {
    if 5 <= hour <= 11 then Some(Morning)
    else if 12 <= hour <= 17 then Some(Afternoon)
    else if 18 <= hour <= 23 then Some(Evening)
    else None
  }

  /** A fresh UserDailyLog for `date` (get_or_create with no defaults). */
  function EmptyDay(date: Date): DailyLog {
    DailyLog(date, None, None, None, None, None, "")
  }

  /** Files `level` under the slot of `hour`; hours 0-4 touch nothing. */
  function RecordSlot(d: DailyLog, hour: int, level: int): (r: DailyLog)
    ensures r.(energyMorning := d.energyMorning, energyAfternoon := d.energyAfternoon,
               energyEvening := d.energyEvening) == d
    ensures r.energyMorning == if SlotOf(hour) == Some(Morning) then Some(level) else d.energyMorning
    ensures r.energyAfternoon == if SlotOf(hour) == Some(Afternoon) then Some(level) else d.energyAfternoon
    ensures r.energyEvening == if SlotOf(hour) == Some(Evening) then Some(level) else d.energyEvening
  {
    match SlotOf(hour)
    case Some(Morning) => d.(energyMorning := Some(level))
    case Some(Afternoon) => d.(energyAfternoon := Some(level))
    case Some(Evening) => d.(energyEvening := Some(level))
    case None => d
  }

  /** A later reading in the same hour overwrites an earlier one, and a
      reading at 0-4 o'clock leaves the day unchanged. */
  lemma RecordSlotOverwrites(d: DailyLog, hour: int, a: int, b: int)
    ensures RecordSlot(RecordSlot(d, hour, a), hour, b) == RecordSlot(d, hour, b)
    ensures 0 <= hour <= 4 ==> RecordSlot(d, hour, a) == d
  {
  }

  // Cleaning the context factors

  /** The characters Python's str.strip() removes, restricted to ASCII. */
  predicate IsSpace(c: char) {
    c == ' ' || c == '\t' || c == '\n' || c == '\r' || c as int == 11 || c as int == 12
  }

  function StripLeft(s: string): (r: string)
    ensures |r| <= |s| && r == s[|s| - |r|..]
    ensures |r| > 0 ==> !IsSpace(r[0])
    ensures forall i :: 0 <= i < |s| - |r| ==> IsSpace(s[i])
  {
    if |s| > 0 && IsSpace(s[0]) then
      var r := StripLeft(s[1..]);
      assert s[1..][|s| - 1 - |r|..] == s[|s| - |r|..];
      assert forall i :: 1 <= i < |s| - |r| ==> s[i] == s[1..][i - 1];
      r
    else s
  }

  function StripRight(s: string): (r: string)
    ensures |r| <= |s| && r == s[..|r|]
    ensures |r| > 0 ==> !IsSpace(r[|r| - 1])
    ensures forall i :: |r| <= i < |s| ==> IsSpace(s[i])
  {
    if |s| > 0 && IsSpace(s[|s| - 1]) then StripRight(s[..|s| - 1]) else s
  }

  /** `r` is `s[i..i + |r|]`, and everything of `s` around it is white
      space. */
  ghost predicate StrippedAt(s: string, r: string, i: int) {
    && 0 <= i && i + |r| <= |s| && s[i..i + |r|] == r
    && (forall k :: 0 <= k < i ==> IsSpace(s[k]))
    && (forall k :: i + |r| <= k < |s| ==> IsSpace(s[k]))
  }

  /** str.strip(): `s` without its leading and trailing white space. */
  function Strip(s: string): (r: string)
    ensures |r| > 0 ==> !IsSpace(r[0]) && !IsSpace(r[|r| - 1])
    ensures exists i :: StrippedAt(s, r, i)
  {
    var l := StripLeft(s);
    var r := StripRight(l);
    StripShape(s, l, r);
    r
  }

  /** Stripping the left and then the right leaves a middle slice with
      only white space around it. */
  lemma StripShape(s: string, l: string, r: string)
    requires |l| <= |s| && l == s[|s| - |l|..]
    requires forall k :: 0 <= k < |s| - |l| ==> IsSpace(s[k])
    requires |r| <= |l| && r == l[..|r|]
    requires forall k :: |r| <= k < |l| ==> IsSpace(l[k])
    ensures StrippedAt(s, r, |s| - |l|)
  {
    var i := |s| - |l|;
    assert l == s[i..];
    assert r == l[..|r|];
    assert s[i..i + |r|] == r by {
      forall k | 0 <= k < |r| ensures s[i..i + |r|][k] == r[k] {
        assert r[k] == l[k] == s[i + k];
      }
    }
    forall k | i + |r| <= k < |s| ensures IsSpace(s[k]) {
      assert s[k] == l[k - i];
    }
  }

  /** Stripping is idempotent, and a string already without edge white
      space is left alone. */
  lemma StripIdempotent(s: string)
    ensures Strip(Strip(s)) == Strip(s)
    ensures (|s| == 0 || (!IsSpace(s[0]) && !IsSpace(s[|s| - 1]))) ==> Strip(s) == s
  {
  }

  /** What validation does with one context value. A value that makes
      `int` raise fails the whole call. */
  datatype Cleaned = Dropped | Stored(value: Value) | Raises

  /** One context value after validation: None is dropped, text that
      passes `str.isdigit()` is stored as the integer `int` reads from it
      (or raises, for digits `int` rejects), other text is stored
      stripped, and any other value as it is. */
  function CleanValue(v: Value): (r: Cleaned)
    ensures r == Dropped <==> v == Null
    ensures r == Raises <==> v.Text? && IsDigitString(v.s) && ParseInt(v.s).None?
    ensures v.Text? && IsDigitString(v.s) && ParseInt(v.s).Some? ==> r == Stored(Int(ParseInt(v.s).value))
    ensures v.Text? && !IsDigitString(v.s) ==> r == Stored(Text(Strip(v.s)))
    ensures !v.Text? && v != Null ==> r == Stored(v)
    ensures r.Stored? ==> r.value != Null
  {
    match v
    case Null => Dropped
    case Text(s) =>
      if IsDigitString(s) then
        match ParseInt(s)
        case Some(n) => Stored(Int(n))
        case None => Raises
      else Stored(Text(Strip(s)))
    case _ => Stored(v)
  }

  /** A number rendered as text is stored as that number. */
  lemma DigitTextStoredAsNumber(n: nat)
    requires |NatToDecimal(n)| <= IntMaxStrDigits
    ensures CleanValue(Text(NatToDecimal(n))) == Stored(Int(n))
  {
    ParseIntRoundTrip(n);
  }

  /** Text of digits holding one that `int` rejects, such as a
      superscript, raises. */
  lemma DigitOnlyTextRaises(s: string, i: int)
    requires IsDigitString(s) && 0 <= i < |s| && IsDigitOnly(s[i])
    ensures CleanValue(Text(s)) == Raises
  {
    DigitOnlyNotDecimal(s[i]);
  }

  /** Arabic-Indic three is stored as 3; superscript two raises. */
  lemma UnicodeDigitValues()
    ensures CleanValue(Text("\U{663}")) == Stored(Int(3))
    ensures CleanValue(Text("\U{B2}")) == Raises
  {
    UnicodeDigitWitnesses();
  }

  /** Some entry of `ctx` has key `k` and a value other than None. */
  predicate HasLiveKey(ctx: Mapping, k: string) {
    exists i :: 0 <= i < |ctx| && ctx[i].0 == k && ctx[i].1 != Null
  }

  lemma HasLiveKeyStep(ctx: Mapping, k: string)
    requires |ctx| > 0
    ensures HasLiveKey(ctx, k) <==> (ctx[0].0 == k && ctx[0].1 != Null) || HasLiveKey(ctx[1..], k)
  {
    if HasLiveKey(ctx, k) && !(ctx[0].0 == k && ctx[0].1 != Null) {
      var i :| 0 <= i < |ctx| && ctx[i].0 == k && ctx[i].1 != Null;
      assert ctx[1..][i - 1] == ctx[i];
    }
    if HasLiveKey(ctx[1..], k) {
      var i :| 0 <= i < |ctx[1..]| && ctx[1..][i].0 == k && ctx[1..][i].1 != Null;
      assert ctx[i + 1] == ctx[1..][i];
    }
  }

  lemma HasKeyCons(e: (string, Value), m: Mapping, k: string)
    ensures HasKey([e] + m, k) <==> e.0 == k || HasKey(m, k)
  {
    var r := [e] + m;
    if e.0 == k {
      assert r[0].0 == k;
    }
    if HasKey(r, k) && e.0 != k {
      var i :| 0 <= i < |r| && r[i].0 == k;
      assert m[i - 1] == r[i];
    }
    if HasKey(m, k) {
      var i :| 0 <= i < |m| && m[i].0 == k;
      assert r[i + 1] == m[i];
    }
  }

  predicate IsLive(e: (string, Value)) { e.1 != Null }

  /** The validated context: the entries whose value is not None, in
      their order, each value as `CleanValue` stores it; None when some
      value raises. */
  function CleanContext(ctx: Mapping): (r: Option<Mapping>)
    ensures r.None? <==> exists i :: 0 <= i < |ctx| && CleanValue(ctx[i].1) == Raises
    ensures r.Some? ==> |r.value| <= |ctx|
    ensures r.Some? ==> forall i :: 0 <= i < |r.value| ==> r.value[i].1 != Null
    ensures r.Some? ==> forall k :: HasKey(r.value, k) <==> HasLiveKey(ctx, k)
    ensures r.Some? ==> |r.value| == |Filter(ctx, IsLive)|
    ensures r.Some? ==> forall i :: 0 <= i < |r.value| ==>
      r.value[i].0 == Filter(ctx, IsLive)[i].0 && CleanValue(Filter(ctx, IsLive)[i].1) == Stored(r.value[i].1)
  {
    var r := CleanLive(ctx);
    assert r.Some? ==> forall k :: HasKey(r.value, k) <==> HasLiveKey(ctx, k) by {
      if r.Some? { LiveKeysKept(ctx, r.value); }
    }
    r
  }

  /** The validation loop: each live entry in turn, cleaned, until one
      raises. */
  function CleanLive(ctx: Mapping): (r: Option<Mapping>)
    ensures r.None? <==> Raising(ctx)
    ensures r.Some? ==> CleanedFrom(r.value, Filter(ctx, IsLive))
  {
    if |ctx| == 0 then Some([])
    else
      var rest := CleanLive(ctx[1..]);
      RaisesStep(ctx);
      match CleanValue(ctx[0].1)
      case Raises => None
      case Dropped =>
        assert Filter(ctx, IsLive) == Filter(ctx[1..], IsLive);
        rest
      case Stored(v) =>
        if rest.None? then None
        else
          assert IsLive(ctx[0]);
          assert Filter(ctx, IsLive) == [ctx[0]] + Filter(ctx[1..], IsLive);
          assert CleansTo((ctx[0].0, v), ctx[0]);
          PairwiseCons((ctx[0].0, v), ctx[0], rest.value, Filter(ctx[1..], IsLive), CleansTo);
          Some([(ctx[0].0, v)] + rest.value)
  }

  predicate Raising(ctx: Mapping) {
    exists i :: 0 <= i < |ctx| && CleanValue(ctx[i].1) == Raises
  }

  lemma RaisesStep(ctx: Mapping)
    requires |ctx| > 0
    ensures Raising(ctx) <==> CleanValue(ctx[0].1) == Raises || Raising(ctx[1..])
  {
    if Raising(ctx) && CleanValue(ctx[0].1) != Raises {
      var i :| 0 <= i < |ctx| && CleanValue(ctx[i].1) == Raises;
      assert ctx[1..][i - 1] == ctx[i];
    }
    if Raising(ctx[1..]) {
      var i :| 0 <= i < |ctx[1..]| && CleanValue(ctx[1..][i].1) == Raises;
      assert ctx[i + 1] == ctx[1..][i];
    }
  }

  /** Entry `x` is live entry `e` with its value as `CleanValue` stores it. */
  predicate CleansTo(x: (string, Value), e: (string, Value)) {
    x.0 == e.0 && CleanValue(e.1) == Stored(x.1)
  }

  /** `r` holds, in order, the keys of `live` with their values as
      `CleanValue` stores them. */
  predicate CleanedFrom(r: Mapping, live: Mapping) {
    Pairwise(r, live, CleansTo)
  }



  /** A mapping whose keys are, in order, those of the live entries of
      `ctx` has exactly the keys `ctx` holds a live value for. */
  lemma LiveKeysKept(ctx: Mapping, r: Mapping)
    requires |r| == |Filter(ctx, IsLive)|
    requires forall i :: 0 <= i < |r| ==> r[i].0 == Filter(ctx, IsLive)[i].0
    ensures forall k :: HasKey(r, k) <==> HasLiveKey(ctx, k)
  {
    var live := Filter(ctx, IsLive);
    forall k ensures HasKey(r, k) <==> HasLiveKey(ctx, k) {
      if HasLiveKey(ctx, k) {
        var i :| 0 <= i < |ctx| && ctx[i].0 == k && ctx[i].1 != Null;
        assert IsLive(ctx[i]);
        assert ctx[i] in live;
        var j :| 0 <= j < |live| && live[j] == ctx[i];
        assert r[j].0 == k;
      }
      if HasKey(r, k) {
        var j :| 0 <= j < |r| && r[j].0 == k;
        assert live[j] in live;
        var i :| 0 <= i < |ctx| && ctx[i] == live[j];
        assert IsLive(ctx[i]);
      }
    }
  }


  // The activity that ended last

  const RecentActivityWindow: int := 2 * SecondsPerHour

  predicate EndedRecently(a: Activity, now: Instant) {
    a.actualEnd.Some? && now - RecentActivityWindow <= a.actualEnd.value <= now
  }

  /** The activity whose actual end is latest within the two hours up to
      `now` (ties go to the earliest in store order). */
  function LatestEnded(acts: seq<Activity>, now: Instant): (r: Option<Activity>)
    ensures r.None? <==> forall i :: 0 <= i < |acts| ==> !EndedRecently(acts[i], now)
    ensures r.Some? ==> r.value in acts && EndedRecently(r.value, now)
    ensures r.Some? ==> forall i :: 0 <= i < |acts| && EndedRecently(acts[i], now) ==>
      acts[i].actualEnd.value <= r.value.actualEnd.value
  {
    if |acts| == 0 then None
    else
      var rest := LatestEnded(acts[1..], now);
      assert forall i :: 1 <= i < |acts| ==> acts[i] == acts[1..][i - 1];
      if !EndedRecently(acts[0], now) then rest
      else if rest.Some? && rest.value.actualEnd.value > acts[0].actualEnd.value then rest
      else Some(acts[0])
  }

  const ActivityBefore: string := "activity_before"

  /** The context as logged: when the caller gave no `activity_before`,
      the type of the activity that ended last is added under that key. */
  function WithActivityBefore(ctx: Mapping, acts: seq<Activity>, now: Instant): (r: Mapping)
    ensures HasKey(ctx, ActivityBefore) ==> r == ctx
    ensures !HasKey(ctx, ActivityBefore) && LatestEnded(acts, now).None? ==> r == ctx
    ensures !HasKey(ctx, ActivityBefore) && LatestEnded(acts, now).Some? ==>
      r == ctx + [(ActivityBefore, Text(LatestEnded(acts, now).value.typeName))]
  {
    if HasKey(ctx, ActivityBefore) then ctx
    else match LatestEnded(acts, now)
      case None => ctx
      case Some(a) => ctx + [(ActivityBefore, Text(a.typeName))]
  }

  // Alerts

  datatype Alert = NoAlert | LowEnergyAlert | HighEnergyAlert

  const AlertWindow: int := 6 * SecondsPerHour

  function LoggedAt(l: EnergyLog): real { l.at as real }

  function LevelOf(l: EnergyLog): real { l.level as real }

  function Levels(ls: seq<EnergyLog>): (r: seq<real>)
    ensures |r| == |ls|
    ensures forall i :: 0 <= i < |ls| ==> r[i] == ls[i].level as real
  {
    if |ls| == 0 then [] else [LevelOf(ls[0])] + Levels(ls[1..])
  }

  predicate InAlertWindow(l: EnergyLog, now: Instant) { l.at >= now - AlertWindow }

  function AlertWindowAt(now: Instant): EnergyLog -> bool {
    (l: EnergyLog) => InAlertWindow(l, now)
  }

  /** The three latest readings of the last six hours. */
  function RecentReadings(logs: seq<EnergyLog>, now: Instant): (r: seq<EnergyLog>)
    ensures |r| <= 3
    ensures |r| == if |Filter(logs, AlertWindowAt(now))| < 3 then |Filter(logs, AlertWindowAt(now))| else 3
    ensures forall l :: l in r ==> l in logs && InAlertWindow(l, now)
    ensures SortedDesc(r, LoggedAt)
    ensures forall l :: l in logs && InAlertWindow(l, now) && l !in r ==>
      forall x :: x in r ==> l.at <= x.at
  {
    var w := Filter(logs, AlertWindowAt(now));
    var r := TopN(w, LoggedAt, 3);
    assert forall l :: l in logs && InAlertWindow(l, now) && l !in r ==>
      forall x :: x in r ==> l.at <= x.at
    by {
      forall l | l in logs && InAlertWindow(l, now) && l !in r
        ensures forall x :: x in r ==> l.at <= x.at
      {
        assert l in w;
        TopNDominates(w, LoggedAt, 3, l);
      }
    }
    r
  }

  /** Two readings in the last six hours are enough for the alert check
      to look at the average. */
  lemma TwoWindowReadingsSuffice(logs: seq<EnergyLog>, now: Instant, i: int, j: int)
    requires 0 <= i < j < |logs| && InAlertWindow(logs[i], now) && InAlertWindow(logs[j], now)
    ensures |RecentReadings(logs, now)| >= 2
  {
    var p := AlertWindowAt(now);
    assert logs == logs[..j] + logs[j..];
    FilterAppend(logs[..j], logs[j..], p);
    assert logs[..j][i] == logs[i] && p(logs[..j][i]);
    assert logs[j..][0] == logs[j] && p(logs[j..][0]);
  }

  /** `_check_energy_alerts`: with at least two recent readings, a reading
      of at most 3 on a recent average of at most 4 is low, one of at
      least 8 on an average of at least 7 is high. */
  function AlertFor(logs: seq<EnergyLog>, now: Instant, level: int): (r: Alert)
    ensures |RecentReadings(logs, now)| < 2 ==> r == NoAlert
    ensures r == LowEnergyAlert ==> level <= 3
    ensures r == HighEnergyAlert ==> level >= 8
    ensures 4 <= level <= 7 ==> r == NoAlert
    ensures r == LowEnergyAlert <==>
      |RecentReadings(logs, now)| >= 2 && level <= 3 && Mean(Levels(RecentReadings(logs, now))) <= 4.0
    ensures r == HighEnergyAlert <==>
      && |RecentReadings(logs, now)| >= 2 && !(level <= 3 && Mean(Levels(RecentReadings(logs, now))) <= 4.0)
      && level >= 8 && Mean(Levels(RecentReadings(logs, now))) >= 7.0
  {
    var recent := RecentReadings(logs, now);
    if |recent| >= 2 then
      var avg := Mean(Levels(recent));
      if level <= 3 && avg <= 4.0 then LowEnergyAlert
      else if level >= 8 && avg >= 7.0 then HighEnergyAlert
      else NoAlert
    else NoAlert
  }

  /** A low alert means some recent reading was at most 4, and a high one
      that some recent reading was at least 7: the average vouches for a
      sample on its side. */
  lemma AlertWitnessedByReading(logs: seq<EnergyLog>, now: Instant, level: int)
    ensures AlertFor(logs, now, level) == LowEnergyAlert ==>
      exists l :: l in logs && InAlertWindow(l, now) && l.level <= 4
    ensures AlertFor(logs, now, level) == HighEnergyAlert ==>
      exists l :: l in logs && InAlertWindow(l, now) && l.level >= 7
  {
    var recent := RecentReadings(logs, now);
    if |recent| >= 2 {
      var xs := Levels(recent);
      MeanWithinSamples(xs);
      assert recent[ArgMin(xs)] in recent && recent[ArgMax(xs)] in recent;
    }
  }

  /** When every reading of the last six hours was at most 4, a reading
      of at most 3 raises the low alert as soon as two such readings
      exist. */
  lemma {:induction false} LowHistoryRaisesLowAlert(logs: seq<EnergyLog>, now: Instant, level: int)
    requires level <= 3
    requires forall l :: l in logs && InAlertWindow(l, now) ==> l.level <= 4
    ensures |RecentReadings(logs, now)| >= 2 ==> AlertFor(logs, now, level) == LowEnergyAlert
  {
    var recent := RecentReadings(logs, now);
    if |recent| >= 2 {
      var xs := Levels(recent);
      forall i | 0 <= i < |xs| ensures xs[ArgMin(xs)] <= xs[i] <= 4.0 {
        assert recent[i] in recent;
      }
      MeanBounds(xs, xs[ArgMin(xs)], 4.0);
    }
  }

  /** When every reading of the last six hours was at least 7, a reading
      of at least 8 raises the high alert as soon as two such readings
      exist. */
  lemma {:induction false} HighHistoryRaisesHighAlert(logs: seq<EnergyLog>, now: Instant, level: int)
    requires level >= 8
    requires forall l :: l in logs && InAlertWindow(l, now) ==> l.level >= 7
    ensures |RecentReadings(logs, now)| >= 2 ==> AlertFor(logs, now, level) == HighEnergyAlert
  {
    var recent := RecentReadings(logs, now);
    if |recent| >= 2 {
      var xs := Levels(recent);
      forall i | 0 <= i < |xs| ensures 7.0 <= xs[i] <= xs[ArgMax(xs)] {
        assert recent[i] in recent;
      }
      MeanBounds(xs, 7.0, xs[ArgMax(xs)]);
    }
  }

  /** A reading with no other reading in the six hours before it never
      raises an alert. */
  lemma LoneReadingNeverAlerts(logs: seq<EnergyLog>, entry: EnergyLog, now: Instant)
    requires forall i :: 0 <= i < |logs| ==> !InAlertWindow(logs[i], now)
    ensures AlertFor(logs + [entry], now, entry.level) == NoAlert
  {
    var p := AlertWindowAt(now);
    FilterAppend(logs, [entry], p);
    assert Filter(logs, p) == [];
    assert |Filter(logs + [entry], p)| <= 1;
  }

  /** Two digits, zero-padded (`%H`, `%M`). */
  function TwoDigits(n: nat): (s: string)
    requires n < 100
    ensures |s| == 2
  {
    [DigitChar(n / 10), DigitChar(n % 10)]
  }

  /** The line the low-energy protocol appends to the day's challenges:
      `\n[HH:MM] Low energy alert (level: L.0)`. */
  function LowEnergyNote(now: Instant, level: nat): (s: string)
    ensures |s| > 0 && s[0] == '\n'
  {
    "\n[" + TwoDigits(HourOf(now)) + ":" + TwoDigits((now % SecondsPerHour) / 60)
      + "] Low energy alert (level: " + NatToDecimal(level) + ".0)"
  }

  /** The outcome of `log_energy_level`: the new log, the day's log as
      saved, and the alert it raised. */
  datatype Logged = Logged(entry: EnergyLog, daily: DailyLog, alert: Alert)

  /** `log_energy_level` for a user with earlier readings `logs`,
      scheduled activities `acts` and, when one exists, today's daily log
      `today`. The high-energy suggestions are returned to no one, so
      only the low-energy protocol leaves a trace: a note appended to the
      day's challenges. When validating the context raises, nothing is
      written and the call returns None. */
  function LogEnergy(logs: seq<EnergyLog>, acts: seq<Activity>, today: Option<DailyLog>,
                     now: Instant, input: Option<int>, ctx: Mapping): (r: Option<Logged>)
    ensures r.None? <==> CleanContext(WithActivityBefore(ctx, acts, now)).None?
    ensures r.Some? ==> r.value.entry.at == now && r.value.entry.level == NormalizeLevel(input)
    ensures r.Some? ==> Some(r.value.entry.context) == CleanContext(WithActivityBefore(ctx, acts, now))
    ensures r.Some? ==> r.value.alert == AlertFor(logs + [r.value.entry], now, r.value.entry.level)
    ensures r.Some? ==>
      var base := RecordSlot(if today.Some? then today.value else EmptyDay(DateOf(now)),
                             HourOf(now), r.value.entry.level);
      r.value.daily.(challenges := base.challenges) == base
      && r.value.daily.challenges == base.challenges
           + (if r.value.alert == LowEnergyAlert then LowEnergyNote(now, r.value.entry.level) else "")
  {
    match CleanContext(WithActivityBefore(ctx, acts, now))
    case None => None
    case Some(validated) =>
      var level := NormalizeLevel(input);
      var entry := EnergyLog(now, level, validated);
      var day := if today.Some? then today.value else EmptyDay(DateOf(now));
      var slotted := RecordSlot(day, HourOf(now), level);
      var alert := AlertFor(logs + [entry], now, level);
      var saved := if alert == LowEnergyAlert
        then slotted.(challenges := slotted.challenges + LowEnergyNote(now, level))
        else slotted;
      Some(Logged(entry, saved, alert))
  }

  /** A context value of digits that `int` rejects, such as "²", makes
      the call fail: no log is written. */
  lemma DigitOnlyContextFails(logs: seq<EnergyLog>, acts: seq<Activity>, today: Option<DailyLog>,
                              now: Instant, input: Option<int>, ctx: Mapping, i: int, j: int)
    requires 0 <= i < |ctx| && ctx[i].1.Text?
    requires IsDigitString(ctx[i].1.s) && 0 <= j < |ctx[i].1.s| && IsDigitOnly(ctx[i].1.s[j])
    ensures LogEnergy(logs, acts, today, now, input, ctx) == None
  {
    var full := WithActivityBefore(ctx, acts, now);
    assert full[i] == ctx[i];
    DigitOnlyTextRaises(ctx[i].1.s, j);
  }

  // ---------------------------------------------------------------------
  // Circadian defaults
  // ---------------------------------------------------------------------

  /** Typical energy for each hour of the day, 0 through 23. */
  const CircadianTable: seq<int> :=
    [3, 2, 2, 2, 2, 3, 5, 6, 7, 8, 8, 8, 7, 6, 5, 5, 6, 7, 7, 6, 5, 4, 4, 3]

  /** `_get_default_energy_for_hour`: the table entry, or 5 for an hour
      outside the table. */
  function CircadianEnergy(hour: int): (r: int)
    ensures 0 <= hour <= 23 ==> 2 <= r <= 8
    ensures !(0 <= hour <= 23) ==> r == 5
  {
    if 0 <= hour < |CircadianTable| then CircadianTable[hour] else 5
  }

  /** The day peaks at 8 exactly over 09:00-11:59 and bottoms out at 2
      exactly over 01:00-04:59. */
  lemma CircadianPeakAndTrough(hour: int)
    ensures CircadianEnergy(hour) == 8 <==> 9 <= hour <= 11
    ensures CircadianEnergy(hour) == 2 <==> 1 <= hour <= 4
  {
  }

  // ---------------------------------------------------------------------
  // Predictions
  // ---------------------------------------------------------------------

  datatype Prediction = Prediction(at: Instant, energy: real, confidence: real)

  const HistoryWindow: int := 30 * SecondsPerDay
  const FallbackConfidence: real := 0.3
  const NewUserConfidence: real := 0.4

  /** `(today - log date).days`. */
  function DaysAgo(now: Instant, t: Instant): int { DateOf(now) - DateOf(t) }

  /** `1 / (1 + 0.1 * days_ago)`; a log ten days in the future divides by
      zero. */
  function RecencyWeight(d: int): (w: real)
    requires d != -10
    ensures d > -10 ==> w > 0.0
    ensures d == 0 ==> w == 1.0
  {
    var den := 1.0 + d as real * 0.1;
    if d > -10 then
      assert den > 0.0;
      1.0 / den
    else 1.0 / den
  }

  /** Older readings weigh less. */
  lemma RecencyWeightDecreasing(d1: int, d2: int)
    requires -10 < d1 < d2
    ensures RecencyWeight(d2) < RecencyWeight(d1)
  {
    ReciprocalLess(1.0 + d1 as real * 0.1, 1.0 + d2 as real * 0.1);
  }

  /** No reading in `hl` is dated ten days after today. */
  predicate SafelyDated(hl: seq<EnergyLog>, now: Instant) {
    forall i :: 0 <= i < |hl| ==> DaysAgo(now, hl[i].at) != -10
  }

  function TotalWeight(hl: seq<EnergyLog>, now: Instant): real
    requires SafelyDated(hl, now)
  {
    if |hl| == 0 then 0.0
    else RecencyWeight(DaysAgo(now, hl[0].at)) + TotalWeight(hl[1..], now)
  }

  function WeightedTotal(hl: seq<EnergyLog>, now: Instant): real
    requires SafelyDated(hl, now)
  {
    if |hl| == 0 then 0.0
    else hl[0].level as real * RecencyWeight(DaysAgo(now, hl[0].at)) + WeightedTotal(hl[1..], now)
  }

  /** The recency-weighted average of one hour's readings, or the plain
      mean when the weights do not sum to a positive number; None when a
      weight divides by zero. */
  function HourEstimate(hl: seq<EnergyLog>, now: Instant): (r: Option<real>)
    requires |hl| > 0
    ensures r.None? <==> !SafelyDated(hl, now)
  {
    if !SafelyDated(hl, now) then None
    else
      var tw := TotalWeight(hl, now);
      if tw > 0.0 then Some(WeightedTotal(hl, now) / tw) else Some(Mean(Levels(hl)))
  }

  /** Every reading strictly less than ten days in the future. */
  predicate NotFarAhead(hl: seq<EnergyLog>, now: Instant) {
    forall i :: 0 <= i < |hl| ==> DaysAgo(now, hl[i].at) > -10
  }

  lemma {:induction false} TotalWeightPositive(hl: seq<EnergyLog>, now: Instant)
    requires NotFarAhead(hl, now)
    ensures TotalWeight(hl, now) >= 0.0
    ensures |hl| > 0 ==> TotalWeight(hl, now) > 0.0
  {
    if |hl| > 0 {
      assert forall i :: 0 <= i < |hl[1..]| ==> hl[1..][i] == hl[i + 1];
      TotalWeightPositive(hl[1..], now);
    }
  }

  /** `weighted` lies between `lo` and `hi` times `total`. */
  ghost predicate ScaledWithin(lo: real, hi: real, total: real, weighted: real) {
    lo * total <= weighted <= hi * total
  }

  /** Scaling a bounded sample by a positive weight keeps it bounded. */
  lemma ScaledStep(lo: real, hi: real, v: real, w: real, t: real, s: real, total: real, weighted: real)
    requires lo <= v <= hi && w > 0.0
    requires lo * t <= s <= hi * t
    requires total == w + t && weighted == v * w + s
    ensures ScaledWithin(lo, hi, total, weighted)
  {
    if v > lo { MulPositive(v - lo, w); }
    if hi > v { MulPositive(hi - v, w); }
    assert lo * (w + t) == lo * w + lo * t;
    assert hi * (w + t) == hi * w + hi * t;
  }

  lemma {:induction false} WeightedBounds(hl: seq<EnergyLog>, now: Instant, lo: real, hi: real)
    requires NotFarAhead(hl, now)
    requires forall i :: 0 <= i < |hl| ==> lo <= hl[i].level as real <= hi
    ensures ScaledWithin(lo, hi, TotalWeight(hl, now), WeightedTotal(hl, now))
  {
    if |hl| > 0 {
      WeightedBounds(hl[1..], now, lo, hi);
      WeightedStep(hl, now, lo, hi);
    }
  }

  lemma WeightedStep(hl: seq<EnergyLog>, now: Instant, lo: real, hi: real)
    requires |hl| > 0 && NotFarAhead(hl, now)
    requires lo <= hl[0].level as real <= hi
    requires ScaledWithin(lo, hi, TotalWeight(hl[1..], now), WeightedTotal(hl[1..], now))
    ensures ScaledWithin(lo, hi, TotalWeight(hl, now), WeightedTotal(hl, now))
  {
    var v := hl[0].level as real;
    var w := RecencyWeight(DaysAgo(now, hl[0].at));
    var t := TotalWeight(hl[1..], now);
    var s := WeightedTotal(hl[1..], now);
    assert DaysAgo(now, hl[0].at) > -10;
    assert w > 0.0;
    assert TotalWeight(hl, now) == w + t;
    assert WeightedTotal(hl, now) == v * w + s;
    ScaledStep(lo, hi, v, w, t, s, TotalWeight(hl, now), WeightedTotal(hl, now));
  }

  /** With no reading ten or more days ahead, the weighted estimate lies
      within any bounds its readings lie in. */
  lemma HourEstimateWithin(hl: seq<EnergyLog>, now: Instant, lo: real, hi: real)
    requires |hl| > 0 && NotFarAhead(hl, now)
    requires forall i :: 0 <= i < |hl| ==> lo <= hl[i].level as real <= hi
    ensures HourEstimate(hl, now).Some?
    ensures lo <= HourEstimate(hl, now).value <= hi
  {
    WeightedBounds(hl, now, lo, hi);
    TotalWeightPositive(hl, now);
    DivBetween(lo, hi, WeightedTotal(hl, now), TotalWeight(hl, now));
  }

  /** The estimate lies between the least and the greatest reading of
      the hour. */
  lemma HourEstimateWithinSamples(hl: seq<EnergyLog>, now: Instant)
    requires |hl| > 0 && NotFarAhead(hl, now)
    ensures HourEstimate(hl, now).Some?
    ensures Levels(hl)[ArgMin(Levels(hl))] <= HourEstimate(hl, now).value <= Levels(hl)[ArgMax(Levels(hl))]
  {
    var xs := Levels(hl);
    HourEstimateWithin(hl, now, xs[ArgMin(xs)], xs[ArgMax(xs)]);
  }

  /** `min(0.95, 0.1 * n)` for an hour with `n` readings. */
  function SampleConfidence(n: nat): (c: real)
    requires n > 0
    ensures 0.1 <= c <= 0.95
    ensures c == 0.95 <==> n >= 10
  {
    Min(0.95, n as real * 0.1)
  }

  /** More readings never lower the confidence. */
  lemma SampleConfidenceMonotone(m: nat, n: nat)
    requires 0 < m <= n
    ensures SampleConfidence(m) <= SampleConfidence(n)
  {
  }

  // Contextual adjustment

  /** A scheduled activity whose time span reaches into the two hours up
      to `t` (compared as times of day, as the query does). */
  predicate Overlaps(a: Activity, t: Instant) {
    a.start <= TimeOfDay(t) && a.end >= TimeOfDay(t - 2 * SecondsPerHour)
  }

  const RestNames: seq<string> := ["break", "mindfulness", "meditation"]

  /** What one overlapping activity does to the estimate. */
  function ActivityShift(name: string): (r: real)
    ensures r == 1.0 <==> Occurs("exercise", Lower(name))
    ensures r == -0.5 <==> !Occurs("exercise", Lower(name)) && Occurs("deep work", Lower(name))
    ensures r == 0.5 <==> !Occurs("exercise", Lower(name)) && !Occurs("deep work", Lower(name))
                          && Lower(name) in RestNames
    ensures r == 0.0 || r == 1.0 || r == -0.5 || r == 0.5
  {
    var n := Lower(name);
    if Contains(n, "exercise") then 1.0
    else if Contains(n, "deep work") then -0.5
    else if n in RestNames then 0.5
    else 0.0
  }

  /** "BREA\U{212A}" is a break: the rest shift applies. */
  lemma KelvinBreak()
    ensures ActivityShift("BREA\U{212A}") == 0.5
  {
    var n := Lower("BREA\U{212A}");
    assert n == "break" == RestNames[0];
    assert !OccursAt("exercise", n, 0) && !OccursAt("deep work", n, 0);
  }

  function ActivitiesShift(acts: seq<Activity>, t: Instant): (r: real)
    ensures -0.5 * |acts| as real <= r <= |acts| as real
  {
    if |acts| == 0 then 0.0
    else (if Overlaps(acts[0], t) then ActivityShift(acts[0].typeName) else 0.0) + ActivitiesShift(acts[1..], t)
  }

  predicate IsWeekend(t: Instant) { Weekday(t) >= 5 }

  /** The weekend bonus plus the post-lunch dip or the morning peak. */
  function CalendarShift(t: Instant): (r: real)
    ensures r == 1.0 <==> IsWeekend(t) && HourOf(t) in {10, 11}
    ensures r == 0.5 <==> (IsWeekend(t) && HourOf(t) !in {10, 11, 14, 15})
                          || (!IsWeekend(t) && HourOf(t) in {10, 11})
    ensures r == 0.0 <==> (IsWeekend(t) && HourOf(t) in {14, 15})
                          || (!IsWeekend(t) && HourOf(t) !in {10, 11, 14, 15})
    ensures r == -0.5 <==> !IsWeekend(t) && HourOf(t) in {14, 15}
  {
    var weekend := if IsWeekend(t) then 0.5 else 0.0;
    var h := HourOf(t);
    weekend + (if h == 14 || h == 15 then -0.5 else if h == 10 || h == 11 then 0.5 else 0.0)
  }

  /** `_adjust_for_context`: the estimate moved by the overlapping
      activities and the calendar, then clamped into [1, 10]. */
  function AdjustForContext(acts: seq<Activity>, base: real, t: Instant): (r: real)
    ensures 1.0 <= r <= 10.0
    ensures var raw := base + ActivitiesShift(acts, t) + CalendarShift(t);
      (1.0 <= raw <= 10.0 ==> r == raw) && (raw < 1.0 ==> r == 1.0) && (raw > 10.0 ==> r == 10.0)
  {
    Clamp(base + ActivitiesShift(acts, t) + CalendarShift(t), 1.0, 10.0)
  }

  /** A higher estimate is never adjusted below a lower one. */
  lemma AdjustMonotone(acts: seq<Activity>, a: real, b: real, t: Instant)
    requires a <= b
    ensures AdjustForContext(acts, a, t) <= AdjustForContext(acts, b, t)
  {
    ClampMonotone(a + ActivitiesShift(acts, t) + CalendarShift(t),
                  b + ActivitiesShift(acts, t) + CalendarShift(t), 1.0, 10.0);
  }

  /** On a weekday outside 10-11 and 14-15 o'clock, with nothing
      scheduled around it, an in-range estimate passes unchanged. */
  lemma QuietHourUnchanged(acts: seq<Activity>, base: real, t: Instant)
    requires forall i :: 0 <= i < |acts| ==> !Overlaps(acts[i], t)
    requires !IsWeekend(t) && HourOf(t) !in {10, 11, 14, 15}
    requires 1.0 <= base <= 10.0
    ensures AdjustForContext(acts, base, t) == base
  {
    NoOverlapNoShift(acts, t);
  }

  lemma {:induction false} NoOverlapNoShift(acts: seq<Activity>, t: Instant)
    requires forall i :: 0 <= i < |acts| ==> !Overlaps(acts[i], t)
    ensures ActivitiesShift(acts, t) == 0.0
  {
    if |acts| > 0 {
      assert forall i :: 0 <= i < |acts[1..]| ==> acts[1..][i] == acts[i + 1];
      NoOverlapNoShift(acts[1..], t);
    }
  }

  // The prediction run

  /** Where predictions start: the current hour of the chosen date. */
  function PredictionStart(now: Instant, date: Date): Instant {
    date * SecondsPerDay + HourOf(now) * SecondsPerHour
  }

  function AtLeastZero(n: int): nat { if n < 0 then 0 else n }

  /** The instant `i` whole hours after `start`. */
  function HourAfter(start: Instant, i: int): Instant {
    start + i * SecondsPerHour
  }

  /** `_generate_default_predictions`: the circadian table, hour by hour,
      at confidence 0.4. */
  function DefaultPredictions(start: Instant, count: int): (r: seq<Prediction>)
    ensures |r| == AtLeastZero(count)
    ensures forall i :: 0 <= i < |r| ==>
      && r[i].at == HourAfter(start, i)
      && r[i].energy == CircadianEnergy(HourOf(r[i].at)) as real
      && r[i].confidence == NewUserConfidence
    decreases AtLeastZero(count)
  {
    if count <= 0 then []
    else
      var t := HourAfter(start, count - 1);
      DefaultPredictions(start, count - 1) + [Prediction(t, CircadianEnergy(HourOf(t)) as real, NewUserConfidence)]
  }

  lemma HourOfNextDay(t: Instant)
    ensures HourOf(t + SecondsPerDay) == HourOf(t)
  {
    assert (t + SecondsPerDay) % SecondsPerDay == t % SecondsPerDay;
  }

  /** Default predictions repeat every 24 hours and stay within [2, 8]. */
  lemma DefaultPredictionsDaily(start: Instant, count: int)
    ensures forall i :: 0 <= i < |DefaultPredictions(start, count)| ==>
      2.0 <= DefaultPredictions(start, count)[i].energy <= 8.0
    ensures forall i :: 0 <= i && i + 24 < |DefaultPredictions(start, count)| ==>
      DefaultPredictions(start, count)[i + 24].energy == DefaultPredictions(start, count)[i].energy
  {
    var r := DefaultPredictions(start, count);
    forall i | 0 <= i && i + 24 < |r| ensures r[i + 24].energy == r[i].energy {
      assert r[i + 24].at == r[i].at + SecondsPerDay;
      HourOfNextDay(r[i].at);
    }
  }

  /** The readings of `hist` taken in the same hour of day as `t`. */
  function HourSamples(hist: seq<EnergyLog>, t: Instant): seq<EnergyLog> {
    Filter(hist, (l: EnergyLog) => HourOf(l.at) == HourOf(t))
  }

  /** One hour of `predict_energy_levels`: the weighted estimate of the
      hour's readings at confidence `min(0.95, 0.1 n)`, or the circadian
      default at 0.3 when the hour has none, then the contextual
      adjustment. None when a weight divides by zero. */
  function PredictAt(hist: seq<EnergyLog>, acts: seq<Activity>, now: Instant, t: Instant): (r: Option<Prediction>)
    ensures r.None? <==> HourSamples(hist, t) != [] && !SafelyDated(HourSamples(hist, t), now)
    ensures r.Some? ==> r.value.at == t && Plausible(r.value)
    ensures r.Some? && HourSamples(hist, t) == [] ==> r.value.confidence == FallbackConfidence
    ensures r.Some? && HourSamples(hist, t) != [] ==> r.value.confidence == SampleConfidence(|HourSamples(hist, t)|)
    ensures r.Some? && HourSamples(hist, t) == [] ==>
      r.value.energy == AdjustForContext(acts, CircadianEnergy(HourOf(t)) as real, t)
    ensures r.Some? && HourSamples(hist, t) != [] ==>
      HourEstimate(HourSamples(hist, t), now).Some?
      && r.value.energy == AdjustForContext(acts, HourEstimate(HourSamples(hist, t), now).value, t)
  {
    var hl := HourSamples(hist, t);
    if hl == [] then
      Some(Prediction(t, AdjustForContext(acts, CircadianEnergy(HourOf(t)) as real, t), FallbackConfidence))
    else match HourEstimate(hl, now)
      case None => None
      case Some(e) => Some(Prediction(t, AdjustForContext(acts, e, t), SampleConfidence(|hl|)))
  }

  /** With no reading ten days ahead, an hour with readings is predicted
      between the adjusted least and the adjusted greatest of them. */
  lemma PredictAtWithinReadings(hist: seq<EnergyLog>, acts: seq<Activity>, now: Instant, t: Instant)
    requires NotFarAhead(hist, now)
    ensures var hl := HourSamples(hist, t);
      hl != [] ==>
        && PredictAt(hist, acts, now, t).Some?
        && AdjustForContext(acts, Levels(hl)[ArgMin(Levels(hl))], t) <= PredictAt(hist, acts, now, t).value.energy
        && PredictAt(hist, acts, now, t).value.energy <= AdjustForContext(acts, Levels(hl)[ArgMax(Levels(hl))], t)
  {
    var hl := HourSamples(hist, t);
    if hl != [] {
      forall j | 0 <= j < |hl| ensures DaysAgo(now, hl[j].at) > -10 {
        assert hl[j] in hist;
      }
      HourEstimateWithinSamples(hl, now);
      var xs := Levels(hl);
      var e := HourEstimate(hl, now).value;
      AdjustMonotone(acts, xs[ArgMin(xs)], e, t);
      AdjustMonotone(acts, e, xs[ArgMax(xs)], t);
    }
  }

  /** An energy level on the 1-10 scale with a confidence in [0.1, 0.95]. */
  predicate Plausible(p: Prediction) {
    1.0 <= p.energy <= 10.0 && 0.1 <= p.confidence <= 0.95
  }

  /** The first `count` hours from `start`, or None when one of them
      fails. */
  function PredictHours(hist: seq<EnergyLog>, acts: seq<Activity>, now: Instant,
                        start: Instant, count: int): (r: Option<seq<Prediction>>)
    ensures r.Some? ==> |r.value| == AtLeastZero(count)
    ensures r.Some? ==> forall i :: 0 <= i < |r.value| ==>
      r.value[i].at == HourAfter(start, i) && Plausible(r.value[i])
    ensures r.None? <==> exists i :: 0 <= i < count && PredictAt(hist, acts, now, HourAfter(start, i)).None?
    ensures r.Some? ==> forall i :: 0 <= i < |r.value| ==> PredictAt(hist, acts, now, HourAfter(start, i)) == Some(r.value[i])
  {
    var n := AtLeastZero(count);
    if forall i | 0 <= i < n :: PredictAt(hist, acts, now, HourAfter(start, i)).Some? then
      Some(seq(n, i requires 0 <= i < n && PredictAt(hist, acts, now, HourAfter(start, i)).Some? =>
        PredictAt(hist, acts, now, HourAfter(start, i)).value))
    else
      None
  }

  /** A reading never ten days ahead never divides by zero, so the hour
      is predicted. */
  lemma PredictAtSucceeds(hist: seq<EnergyLog>, acts: seq<Activity>, now: Instant, t: Instant)
    requires NotFarAhead(hist, now)
    ensures PredictAt(hist, acts, now, t).Some?
  {
    var hl := HourSamples(hist, t);
    forall j | 0 <= j < |hl| ensures DaysAgo(now, hl[j].at) != -10 {
      assert hl[j] in hist;
    }
    assert SafelyDated(hl, now);
  }

  /** With no reading ten days ahead, every hour is predicted. */
  lemma PredictHoursSucceed(hist: seq<EnergyLog>, acts: seq<Activity>, now: Instant,
                            start: Instant, count: int)
    requires NotFarAhead(hist, now)
    ensures PredictHours(hist, acts, now, start, count).Some?
  {
    forall i | 0 <= i < count ensures PredictAt(hist, acts, now, HourAfter(start, i)).Some? {
      PredictAtSucceeds(hist, acts, now, HourAfter(start, i));
    }
  }

  /** The hour the run starts from: the current hour of `date`, or of
      today when no date is given. */
  function RunStart(now: Instant, date: Option<Date>): Instant {
    PredictionStart(now, if date.Some? then date.value else DateOf(now))
  }

  /** The readings of the last 30 days. */
  function RecentHistory(logs: seq<EnergyLog>, now: Instant): seq<EnergyLog> {
    Filter(logs, (l: EnergyLog) => l.at >= now - HistoryWindow)
  }

  /** `predict_energy_levels` for `hoursAhead` hours from the current hour
      of `date` (today when absent): the default run when the last 30 days
      hold no reading, otherwise the per-hour estimates; the empty list
      when a weight divides by zero. */
  function PredictEnergyLevels(logs: seq<EnergyLog>, acts: seq<Activity>, now: Instant,
                               date: Option<Date>, hoursAhead: int): (r: seq<Prediction>)
    ensures r == [] || |r| == AtLeastZero(hoursAhead)
    ensures NotFarAhead(logs, now) ==> |r| == AtLeastZero(hoursAhead)
    ensures forall i :: 0 <= i < |r| ==> 1.0 <= r[i].energy <= 10.0 && 0.1 <= r[i].confidence <= 0.95
    ensures (forall i :: 0 <= i < |logs| ==> logs[i].at < now - HistoryWindow) ==>
      forall i :: 0 <= i < |r| ==> r[i].confidence == NewUserConfidence
    ensures forall i :: 0 <= i < |r| ==> r[i].at == HourAfter(RunStart(now, date), i)
    ensures RecentHistory(logs, now) == [] <==> (forall i :: 0 <= i < |logs| ==> logs[i].at < now - HistoryWindow)
    ensures RecentHistory(logs, now) == [] ==> r == DefaultPredictions(RunStart(now, date), hoursAhead)
    ensures RecentHistory(logs, now) != [] ==> forall i :: 0 <= i < |r| ==>
      PredictAt(RecentHistory(logs, now), acts, now, HourAfter(RunStart(now, date), i)) == Some(r[i])
    // an empty answer for a positive horizon comes only from an hour whose prediction fails
    ensures RecentHistory(logs, now) != [] ==>
      (r == [] && AtLeastZero(hoursAhead) > 0 <==>
       exists i :: 0 <= i < hoursAhead && PredictAt(RecentHistory(logs, now), acts, now, HourAfter(RunStart(now, date), i)).None?)
  {
    var start := RunStart(now, date);
    var hist := RecentHistory(logs, now);
    if hist == [] then
      DefaultPredictionsDaily(start, hoursAhead);
      DefaultPredictions(start, hoursAhead)
    else
      assert NotFarAhead(logs, now) ==> NotFarAhead(hist, now) by {
        if NotFarAhead(logs, now) {
          forall j | 0 <= j < |hist| ensures DaysAgo(now, hist[j].at) > -10 {
            assert hist[j] in logs;
          }
        }
      }
      assert NotFarAhead(logs, now) ==> PredictHours(hist, acts, now, start, hoursAhead).Some? by {
        if NotFarAhead(logs, now) { PredictHoursSucceed(hist, acts, now, start, hoursAhead); }
      }
      match PredictHours(hist, acts, now, start, hoursAhead)
      case None => []
      case Some(ps) => ps
  }

  // ---------------------------------------------------------------------
  // Context analysis: energy boosters and drains
  // ---------------------------------------------------------------------

  predicate Boosting(l: EnergyLog) { l.level >= 7 }
  predicate Draining(l: EnergyLog) { l.level <= 4 }

  /** The labels a log contributes, in order: its `activity_before`
      value, then `"factor: value"` for every other factor whose value is
      not None. `render` is Python's str() of a stored value. */
  function OtherLabels(ctx: Mapping, render: Value -> string): seq<string> {
    if |ctx| == 0 then []
    else
      (if ctx[0].0 != ActivityBefore && ctx[0].1 != Null then [ctx[0].0 + ": " + render(ctx[0].1)] else [])
        + OtherLabels(ctx[1..], render)
  }

  function LogLabels(l: EnergyLog, render: Value -> string): seq<string> {
    (if HasKey(l.context, ActivityBefore) then [render(Lookup(l.context, ActivityBefore, Null))] else [])
      + OtherLabels(l.context, render)
  }

  /** What one log adds to the labels of the logs `p` selects. */
  function Contribution(l: EnergyLog, p: EnergyLog -> bool, render: Value -> string): seq<string> {
    if p(l) then LogLabels(l, render) else []
  }

  /** Every label contributed by the logs satisfying `p`, log by log. */
  function LabelsWhere(logs: seq<EnergyLog>, p: EnergyLog -> bool, render: Value -> string): seq<string> {
    ConcatMap(logs, (l: EnergyLog) => Contribution(l, p, render))
  }

  /** A dict of counts in first-seen order. */
  type Tally = seq<(string, nat)>

  predicate HasLabel(t: Tally, k: string) {
    exists i :: 0 <= i < |t| && t[i].0 == k
  }

  /** `tally.get(k, 0)`. */
  function CountOf(t: Tally, k: string): nat {
    if |t| == 0 then 0 else if t[0].0 == k then t[0].1 else CountOf(t[1..], k)
  }

  /** No label occurs in two entries. */
  predicate DistinctLabels(t: Tally) {
    forall a, b :: 0 <= a < b < |t| ==> t[a].0 != t[b].0
  }

  /** A label occurs in a non-empty tally at its head or in its tail. */
  lemma HasLabelSplit(t: Tally, j: string)
    requires |t| > 0
    ensures HasLabel(t, j) <==> t[0].0 == j || HasLabel(t[1..], j)
  {
    if HasLabel(t, j) && t[0].0 != j {
      var i :| 0 <= i < |t| && t[i].0 == j;
      assert t[1..][i - 1].0 == j;
    }
    if HasLabel(t[1..], j) {
      var i :| 0 <= i < |t[1..]| && t[1..][i].0 == j;
      assert t[i + 1].0 == j;
    }
  }

  /** A non-empty tally has distinct labels exactly when its tail has and
      its head label does not occur again. */
  lemma DistinctSplit(t: Tally)
    requires |t| > 0
    ensures DistinctLabels(t) <==> DistinctLabels(t[1..]) && !HasLabel(t[1..], t[0].0)
  {
    var tail := t[1..];
    if DistinctLabels(t) {
      forall a, b | 0 <= a < b < |tail| ensures tail[a].0 != tail[b].0 {
        assert tail[a] == t[a + 1] && tail[b] == t[b + 1];
      }
      forall i | 0 <= i < |tail| ensures tail[i].0 != t[0].0 {
        assert t[i + 1] == tail[i];
      }
    }
    if DistinctLabels(tail) && !HasLabel(tail, t[0].0) {
      forall a, b | 0 <= a < b < |t| ensures t[a].0 != t[b].0 {
        assert t[b] == tail[b - 1];
        if a > 0 {
          assert t[a] == tail[a - 1];
        }
      }
    }
  }

  /** `tally[k] = tally.get(k, 0) + 1`. */
  function Bump(t: Tally, k: string): (r: Tally)
    ensures forall j :: CountOf(r, j) == CountOf(t, j) + (if j == k then 1 else 0)
    ensures forall j :: HasLabel(r, j) <==> HasLabel(t, j) || j == k
    ensures DistinctLabels(t) ==> DistinctLabels(r)
  {
    if |t| == 0 then
      assert [(k, 1)][0].0 == k;
      [(k, 1)]
    else if t[0].0 == k then
      var r := [(k, t[0].1 + 1)] + t[1..];
      assert r[1..] == t[1..];
      forall j ensures HasLabel(r, j) <==> HasLabel(t, j) {
        HasLabelSplit(r, j);
        HasLabelSplit(t, j);
      }
      DistinctSplit(r);
      DistinctSplit(t);
      r
    else
      var rest := Bump(t[1..], k);
      var r := [t[0]] + rest;
      assert r[1..] == rest;
      forall j ensures HasLabel(r, j) <==> HasLabel(t, j) || j == k {
        HasLabelSplit(r, j);
        HasLabelSplit(t, j);
      }
      DistinctSplit(r);
      DistinctSplit(t);
      r
  }

  /** The counts of `labels`, accumulated left to right. */
  function TallyOf(labels: seq<string>): (t: Tally)
    ensures DistinctLabels(t)
    ensures forall j :: HasLabel(t, j) <==> j in labels
  {
    if |labels| == 0 then []
    else
      var init := labels[..|labels| - 1];
      var last := labels[|labels| - 1];
      assert labels == init + [last];
      Bump(TallyOf(init), last)
  }

  /** Each label is counted exactly as often as it was contributed. */
  lemma {:induction false} TallyCounts(labels: seq<string>, k: string)
    ensures CountOf(TallyOf(labels), k) == multiset(labels)[k]
  {
    if |labels| > 0 {
      var init := labels[..|labels| - 1];
      assert labels == init + [labels[|labels| - 1]];
      TallyCounts(init, k);
    }
  }

  function CountKey(e: (string, nat)): real { e.1 as real }

  /** The five most frequent entries, most frequent first (ties in
      first-seen order). */
  function Top5(t: Tally): (r: Tally)
    ensures |r| <= 5 && (|t| >= 5 ==> |r| == 5)
    ensures |t| < 5 ==> |r| == |t|
    ensures SortedDesc(r, CountKey)
    ensures forall e :: e in r ==> e in t
  {
    TopN(t, CountKey, 5)
  }

  /** An entry left out of the top five is counted no more often than
      any entry kept. */
  lemma Top5Dominates(t: Tally, e: (string, nat))
    requires e in t && e !in Top5(t)
    ensures forall x :: x in Top5(t) ==> e.1 <= x.1
  {
    TopNDominates(t, CountKey, 5, e);
  }

  /** The labels of a tally. */
  ghost function LabelSet(t: Tally): set<string> {
    set i | 0 <= i < |t| :: t[i].0
  }

  /** A tally with distinct labels has one entry per label. */
  lemma {:induction false} DistinctLabelCount(t: Tally)
    requires DistinctLabels(t)
    ensures |LabelSet(t)| == |t|
  {
    if |t| > 0 {
      DistinctSplit(t);
      DistinctLabelCount(t[1..]);
      assert LabelSet(t) == {t[0].0} + LabelSet(t[1..]) by {
        forall k ensures k in LabelSet(t) <==> k == t[0].0 || k in LabelSet(t[1..]) {
          if k in LabelSet(t) {
            var i :| 0 <= i < |t| && t[i].0 == k;
            if i > 0 { assert t[1..][i - 1] == t[i]; }
          }
          if k in LabelSet(t[1..]) {
            var i :| 0 <= i < |t[1..]| && t[1..][i].0 == k;
            assert t[i + 1] == t[1..][i];
          }
        }
      }
      assert t[0].0 !in LabelSet(t[1..]) by {
        assert forall i :: 0 <= i < |t[1..]| ==> t[1..][i].0 != t[0].0;
      }
    }
  }

  /** What `sorted(tally.items(), key=count, reverse=True)[:5]` keeps of
      the contributed `labels`: one entry for each of the five most
      frequent distinct labels (all of them when there are fewer), each
      with its exact count, and no label left out counted more often
      than any label kept. */
  ghost predicate MostFrequentFive(r: Tally, labels: seq<string>) {
    && |r| == (if |set l | l in labels| < 5 then |set l | l in labels| else 5)
    && (forall e :: e in r ==> e.0 in labels && e.1 == multiset(labels)[e.0])
    && (forall j :: j in labels && !HasLabel(r, j) ==>
          forall x :: x in r ==> multiset(labels)[j] <= x.1)
  }

  /** The top five of a label tally are the most frequent labels. */
  lemma TopOfTally(labels: seq<string>)
    ensures MostFrequentFive(Top5(TallyOf(labels)), labels)
  {
    var t := TallyOf(labels);
    var r := Top5(t);
    DistinctLabelCount(t);
    assert LabelSet(t) == set l | l in labels by {
      forall k ensures k in LabelSet(t) <==> HasLabel(t, k) {
        if HasLabel(t, k) {
          var i :| 0 <= i < |t| && t[i].0 == k;
        }
      }
    }
    forall e | e in r ensures e.0 in labels && e.1 == multiset(labels)[e.0] {
      var i :| 0 <= i < |t| && t[i] == e;
      assert HasLabel(t, e.0);
      TallyCounts(labels, e.0);
      CountOfDistinct(t, i);
    }
    forall j | j in labels && !HasLabel(r, j)
      ensures forall x :: x in r ==> multiset(labels)[j] <= x.1
    {
      assert HasLabel(t, j);
      var i :| 0 <= i < |t| && t[i].0 == j;
      assert t[i] !in r by {
        assert forall k :: 0 <= k < |r| ==> r[k].0 != j;
      }
      Top5Dominates(t, t[i]);
      TallyCounts(labels, j);
      CountOfDistinct(t, i);
    }
  }

  datatype ContextAnalysis = ContextAnalysis(boosters: Tally, drains: Tally)

  /** `_analyze_context_factors`: readings of 7 or more count toward
      boosters, readings of 4 or less toward drains. */
  function AnalyzeContext(logs: seq<EnergyLog>, render: Value -> string): (r: ContextAnalysis)
    ensures |r.boosters| <= 5 && |r.drains| <= 5
    ensures SortedDesc(r.boosters, CountKey) && SortedDesc(r.drains, CountKey)
    ensures forall e :: e in r.boosters ==> e.0 in LabelsWhere(logs, Boosting, render)
    ensures forall e :: e in r.drains ==> e.0 in LabelsWhere(logs, Draining, render)
    ensures MostFrequentFive(r.boosters, LabelsWhere(logs, Boosting, render))
    ensures MostFrequentFive(r.drains, LabelsWhere(logs, Draining, render))
  {
    var b := LabelsWhere(logs, Boosting, render);
    var d := LabelsWhere(logs, Draining, render);
    TopOfTally(b);
    TopOfTally(d);
    ContextAnalysis(Top5(TallyOf(b)), Top5(TallyOf(d)))
  }

  /** A reading of 5 or 6 counts neither as a booster nor as a drain: the
      analysis is the same without it. */
  lemma NeutralReadingIgnored(logs: seq<EnergyLog>, l: EnergyLog, render: Value -> string)
    requires 5 <= l.level <= 6
    ensures AnalyzeContext(logs + [l], render) == AnalyzeContext(logs, render)
  {
    ConcatMapAppend(logs, l, (x: EnergyLog) => Contribution(x, Boosting, render));
    ConcatMapAppend(logs, l, (x: EnergyLog) => Contribution(x, Draining, render));
    assert !Boosting(l) && !Draining(l);
    var b := LabelsWhere(logs, Boosting, render);
    var d := LabelsWhere(logs, Draining, render);
    assert b + [] == b && d + [] == d;
    assert LabelsWhere(logs + [l], Boosting, render) == b;
    assert LabelsWhere(logs + [l], Draining, render) == d;
  }

  /** A booster entry carries the exact number of high readings that
      contributed its label. */
  lemma BoosterCountsExact(logs: seq<EnergyLog>, render: Value -> string, e: (string, nat))
    requires e in AnalyzeContext(logs, render).boosters
    ensures e.1 == multiset(LabelsWhere(logs, Boosting, render))[e.0]
  {
    assert MostFrequentFive(AnalyzeContext(logs, render).boosters, LabelsWhere(logs, Boosting, render));
  }

  /** A drain entry carries the exact number of low readings that
      contributed its label. */
  lemma DrainCountsExact(logs: seq<EnergyLog>, render: Value -> string, e: (string, nat))
    requires e in AnalyzeContext(logs, render).drains
    ensures e.1 == multiset(LabelsWhere(logs, Draining, render))[e.0]
  {
    assert MostFrequentFive(AnalyzeContext(logs, render).drains, LabelsWhere(logs, Draining, render));
  }

  lemma {:induction false} CountOfDistinct(t: Tally, i: int)
    requires 0 <= i < |t| && DistinctLabels(t)
    ensures CountOf(t, t[i].0) == t[i].1
  {
    if i > 0 {
      assert t[0].0 != t[i].0;
      assert DistinctLabels(t[1..]);
      assert t[1..][i - 1] == t[i];
      CountOfDistinct(t[1..], i - 1);
    }
  }

  /** `f"{factor} ({count}x)"`. */
  function FormatEntry(e: (string, nat)): string {
    e.0 + " (" + NatToDecimal(e.1) + "x)"
  }

  function FormatTally(t: Tally): (r: seq<string>)
    ensures |r| == |t|
    ensures forall i :: 0 <= i < |t| ==> r[i] == FormatEntry(t[i])
  {
    if |t| == 0 then [] else [FormatEntry(t[0])] + FormatTally(t[1..])
  }

  // ---------------------------------------------------------------------
  // Trend
  // ---------------------------------------------------------------------

  datatype Trend = NotEnoughData | TrendingUp(amount: real) | TrendingDown(amount: real) | StableTrend

  /** How far the later half's average lies above the earlier half's;
      with an odd count the middle reading belongs to the later half. */
  function HalfShift(xs: seq<real>): real
    requires |xs| >= 2
  {
    Mean(xs[|xs| / 2..]) - Mean(xs[..|xs| / 2])
  }

  /** The half-against-half comparison of readings in time order. */
  function TrendOf(xs: seq<real>): (r: Trend)
    ensures |xs| < 7 <==> r == NotEnoughData
    ensures r.TrendingUp? ==> r.amount > 0.5
    ensures r.TrendingDown? ==> r.amount > 0.5
    ensures |xs| >= 7 ==> (r.TrendingUp? <==> HalfShift(xs) > 0.5)
    ensures |xs| >= 7 ==> (r.TrendingDown? <==> HalfShift(xs) < -0.5)
    ensures |xs| >= 7 ==> (r == StableTrend <==> -0.5 <= HalfShift(xs) <= 0.5)
    ensures r.TrendingUp? ==> |xs| >= 7 && r.amount == HalfShift(xs)
    ensures r.TrendingDown? ==> |xs| >= 7 && r.amount == -HalfShift(xs)
  {
    if |xs| < 7 then NotEnoughData
    else
      var mid := |xs| / 2;
      var d := Mean(xs[mid..]) - Mean(xs[..mid]);
      if d > 0.5 then TrendingUp(d)
      else if d < -0.5 then TrendingDown(-d)
      else StableTrend
  }

  /** When every later reading tops every earlier one by more than half
      a point, energy is trending up. */
  lemma {:induction false} LaterHigherTrendsUp(xs: seq<real>)
    requires |xs| >= 7
    requires forall i, j :: 0 <= i < |xs| / 2 <= j < |xs| ==> xs[i] + 0.5 < xs[j]
    ensures TrendOf(xs).TrendingUp?
  {
    var mid := |xs| / 2;
    var early, late := xs[..mid], xs[mid..];
    var hi, lo := early[ArgMax(early)], late[ArgMin(late)];
    assert hi + 0.5 < lo by {
      assert early[ArgMax(early)] == xs[ArgMax(early)];
      assert late[ArgMin(late)] == xs[mid + ArgMin(late)];
    }
    MeanWithinSamples(early);
    MeanWithinSamples(late);
  }

  /** When every later reading lies below every earlier one by more than
      half a point, energy is trending down. */
  lemma {:induction false} LaterLowerTrendsDown(xs: seq<real>)
    requires |xs| >= 7
    requires forall i, j :: 0 <= i < |xs| / 2 <= j < |xs| ==> xs[j] + 0.5 < xs[i]
    ensures TrendOf(xs).TrendingDown?
  {
    var mid := |xs| / 2;
    var early, late := xs[..mid], xs[mid..];
    var lo, hi := early[ArgMin(early)], late[ArgMax(late)];
    assert hi + 0.5 < lo by {
      assert early[ArgMin(early)] == xs[ArgMin(early)];
      assert late[ArgMax(late)] == xs[mid + ArgMax(late)];
    }
    MeanWithinSamples(early);
    MeanWithinSamples(late);
  }

  /** The levels of a slice are the slice of the levels. */
  lemma LevelsSlices(logs: seq<EnergyLog>, k: nat)
    requires k <= |logs|
    ensures Levels(logs)[..k] == Levels(logs[..k])
    ensures Levels(logs)[k..] == Levels(logs[k..])
  {
    var xs, front, back := Levels(logs), Levels(logs[..k]), Levels(logs[k..]);
    assert |xs[..k]| == |front| && |xs[k..]| == |back|;
    forall i | 0 <= i < k ensures xs[..k][i] == front[i] {
      assert front[i] == logs[..k][i].level as real;
    }
    forall i | 0 <= i < |logs| - k ensures xs[k..][i] == back[i] {
      assert back[i] == logs[k..][i].level as real;
    }
  }

  /** How far the later half of the logs averages above the earlier. */
  function LevelShift(logs: seq<EnergyLog>): real
    requires |logs| >= 2
  {
    Mean(Levels(logs[|logs| / 2..])) - Mean(Levels(logs[..|logs| / 2]))
  }

  /** `_calculate_energy_trends` over logs in time order. Every stored
      level converts, so the "insufficient valid data" branch is dead. */
  function EnergyTrend(logs: seq<EnergyLog>): (r: Trend)
    ensures |logs| < 7 <==> r == NotEnoughData
    ensures |logs| >= 7 ==> (r.TrendingUp? <==> LevelShift(logs) > 0.5)
    ensures |logs| >= 7 ==> (r.TrendingDown? <==> LevelShift(logs) < -0.5)
    ensures |logs| >= 7 ==> (r == StableTrend <==> -0.5 <= LevelShift(logs) <= 0.5)
    ensures r.TrendingUp? ==> |logs| >= 7 && r.amount == LevelShift(logs)
    ensures r.TrendingDown? ==> |logs| >= 7 && r.amount == -LevelShift(logs)
  {
    assert |logs| >= 2 ==>
      Levels(logs)[..|logs| / 2] == Levels(logs[..|logs| / 2]) && Levels(logs)[|logs| / 2..] == Levels(logs[|logs| / 2..]) by {
      if |logs| >= 2 { LevelsSlices(logs, |logs| / 2); }
    }
    TrendOf(Levels(logs))
  }

  /** Levels are whole numbers: when every later reading is above every
      earlier one, energy is trending up. */
  lemma RisingLogsTrendUp(logs: seq<EnergyLog>)
    requires |logs| >= 7
    requires forall i, j :: 0 <= i < |logs| / 2 <= j < |logs| ==> logs[i].level < logs[j].level
    ensures EnergyTrend(logs).TrendingUp?
  {
    LaterHigherTrendsUp(Levels(logs));
  }

  /** And when every later reading is below every earlier one, energy is
      trending down. */
  lemma FallingLogsTrendDown(logs: seq<EnergyLog>)
    requires |logs| >= 7
    requires forall i, j :: 0 <= i < |logs| / 2 <= j < |logs| ==> logs[j].level < logs[i].level
    ensures EnergyTrend(logs).TrendingDown?
  {
    LaterLowerTrendsDown(Levels(logs));
  }

  /** `xs` read from its last element to its first. */
  function Reverse<T>(xs: seq<T>): (r: seq<T>)
  {
    seq(|xs|, i requires 0 <= i < |xs| => xs[|xs| - 1 - i])
  }

  /** Reversing peels the first element off onto the end. */
  lemma ReverseCons<T>(xs: seq<T>)
    requires |xs| > 0
    ensures Reverse(xs) == Reverse(xs[1..]) + [xs[0]]
  {
    var r, s := Reverse(xs), Reverse(xs[1..]) + [xs[0]];
    forall i | 0 <= i < |xs| ensures r[i] == s[i] {
      if i < |xs| - 1 {
        assert s[i] == xs[1..][|xs| - 2 - i];
      }
    }
  }

  lemma {:induction false} SumReverse(xs: seq<real>)
    ensures Sum(Reverse(xs)) == Sum(xs)
  {
    if |xs| > 0 {
      SumReverse(xs[1..]);
      ReverseCons(xs);
      SumAppend(Reverse(xs[1..]), xs[0]);
    }
  }

  /** Readings that do not move are stable. */
  lemma ConstantReadingsStable(xs: seq<real>, c: real)
    requires |xs| >= 7
    requires forall i :: 0 <= i < |xs| ==> xs[i] == c
    ensures TrendOf(xs) == StableTrend
  {
    var mid := |xs| / 2;
    MeanBounds(xs[mid..], c, c);
    MeanBounds(xs[..mid], c, c);
  }

  /** Read backwards, an even-length history trends the other way by the
      same amount. */
  lemma ReversedTrendFlips(xs: seq<real>)
    requires |xs| >= 7 && |xs| % 2 == 0
    ensures TrendOf(xs).TrendingUp? <==> TrendOf(Reverse(xs)).TrendingDown?
    ensures TrendOf(xs).TrendingDown? <==> TrendOf(Reverse(xs)).TrendingUp?
    ensures TrendOf(xs).TrendingUp? ==> TrendOf(xs).amount == TrendOf(Reverse(xs)).amount
    ensures TrendOf(xs).TrendingDown? ==> TrendOf(xs).amount == TrendOf(Reverse(xs)).amount
  {
    var mid := |xs| / 2;
    ReverseHalves(xs, mid);
    SumReverse(xs[mid..]);
    SumReverse(xs[..mid]);
  }

  /** With `mid` half of an even length, reversing swaps the halves. */
  lemma ReverseHalves(xs: seq<real>, mid: int)
    requires |xs| % 2 == 0 && mid == |xs| / 2
    ensures Reverse(xs)[..mid] == Reverse(xs[mid..])
    ensures Reverse(xs)[mid..] == Reverse(xs[..mid])
  {
    ReverseFront(xs, mid);
    ReverseBack(xs, mid);
  }

  lemma ReverseFront(xs: seq<real>, mid: int)
    requires |xs| % 2 == 0 && mid == |xs| / 2
    ensures Reverse(xs)[..mid] == Reverse(xs[mid..])
  {
    var r := Reverse(xs);
    var f := r[..mid];
    var tail := xs[mid..];
    var a := Reverse(tail);
    assert |f| == |a| == mid;
    forall i | 0 <= i < mid ensures f[i] == a[i] {
      assert f[i] == r[i] == xs[|xs| - 1 - i];
      assert a[i] == tail[mid - 1 - i];
    }
    assert f == a;
  }

  lemma ReverseBack(xs: seq<real>, mid: int)
    requires |xs| % 2 == 0 && mid == |xs| / 2
    ensures Reverse(xs)[mid..] == Reverse(xs[..mid])
  {
    var r := Reverse(xs);
    var g := r[mid..];
    var head := xs[..mid];
    var b := Reverse(head);
    assert |g| == |b| == mid;
    forall i | 0 <= i < mid ensures g[i] == b[i] {
      assert g[i] == r[mid + i] == xs[mid - 1 - i];
      assert b[i] == head[mid - 1 - i];
    }
    assert g == b;
  }

  // ---------------------------------------------------------------------
  // Recovery
  // ---------------------------------------------------------------------

  datatype RecoveryTier = Restore | Pace | Maintain

  /** Average of at most 4 restores, at most 6 paces, above that
      maintains. */
  function TierFor(avg: real): (r: RecoveryTier)
    ensures r == Restore <==> avg <= 4.0
    ensures r == Pace <==> 4.0 < avg <= 6.0
    ensures r == Maintain <==> avg > 6.0
  {
    if avg <= 4.0 then Restore else if avg <= 6.0 then Pace else Maintain
  }

  function TierRank(t: RecoveryTier): nat {
    match t
    case Restore => 0
    case Pace => 1
    case Maintain => 2
  }

  /** A higher average never calls for more recovery. */
  lemma TierMonotone(a: real, b: real)
    requires a <= b
    ensures TierRank(TierFor(a)) <= TierRank(TierFor(b))
  {
  }

  datatype Recovery =
    | StartTracking
    | InvalidReadings
    | RecoveryPlan(tier: RecoveryTier, stressed: bool, shortSleep: bool)

  const RecoveryWindow: int := 3 * SecondsPerDay

  function RecoveryWindowAt(now: Instant): EnergyLog -> bool {
    (l: EnergyLog) => l.at >= now - RecoveryWindow
  }

  /** Python's `int(x)` of a stored value; None where it raises. Text
      converts when, stripped, it is a string of decimal digits of any
      script within the conversion limit. */
  function IntOf(v: Value): Option<int> {
    match v
    case Null => None
    case Int(i) => Some(i)
    case Real(r) => Some(if r >= 0.0 then r.Floor else -((-r).Floor))
    case Text(s) => (match ParseInt(Strip(s)) case Some(n) => Some(n) case None => None)
    case Flag(b) => Some(if b then 1 else 0)
  }

  /** Python's `float(x)` of a stored value; None where it raises. */
  function RealOf(v: Value): Option<real> {
    match v
    case Null => None
    case Int(i) => Some(i as real)
    case Real(r) => Some(r)
    case Text(s) => if IsDecimalString(Strip(s)) then Some(DigitsValue(Strip(s)) as real) else None
    case Flag(b) => Some(if b then 1.0 else 0.0)
  }

  /** `stress_level` (default 0) converts to an integer above 3. */
  predicate Stressed(ctx: Mapping) {
    var v := Lookup(ctx, "stress_level", Int(0));
    var n := if Truthy(v) then IntOf(v) else Some(0);
    n.Some? && n.value > 3
  }

  /** `sleep_hours` (default 8) converts to a number below 6. */
  predicate ShortSleep(ctx: Mapping) {
    var v := Lookup(ctx, "sleep_hours", Int(8));
    var h := if Truthy(v) then RealOf(v) else Some(8.0);
    h.Some? && h.value < 6.0
  }

  /** The in-range levels among `ls`. */
  function ValidLevels(ls: seq<EnergyLog>): (r: seq<real>)
    ensures |r| <= |ls|
    ensures forall i :: 0 <= i < |r| ==> 1.0 <= r[i] <= 10.0
    ensures r == [] <==> forall i :: 0 <= i < |ls| ==> !ValidEnergyLevel(ls[i].level)
  {
    if |ls| == 0 then []
    else (if ValidEnergyLevel(ls[0].level) then [ls[0].level as real] else []) + ValidLevels(ls[1..])
  }

  /** `get_recovery_recommendations`: the tier of the average of the
      valid levels among the five latest readings of the last three days,
      plus the stress and sleep notes read off the latest one. */
  function RecoveryAdvice(logs: seq<EnergyLog>, now: Instant): (r: Recovery)
    ensures r == StartTracking <==> forall i :: 0 <= i < |logs| ==> logs[i].at < now - RecoveryWindow
    ensures r.RecoveryPlan? ==>
      var top := TopN(Filter(logs, RecoveryWindowAt(now)), LoggedAt, 5);
      && ValidLevels(top) != []
      && r.tier == TierFor(Mean(ValidLevels(top)))
      && r.stressed == (|top[0].context| > 0 && Stressed(top[0].context))
      && r.shortSleep == (|top[0].context| > 0 && ShortSleep(top[0].context))
      && forall l :: l in logs && l.at >= now - RecoveryWindow ==> l.at <= top[0].at
  {
    var recent := Filter(logs, RecoveryWindowAt(now));
    if recent == [] then StartTracking
    else
      var top := TopN(recent, LoggedAt, 5);
      var vals := ValidLevels(top);
      if vals == [] then InvalidReadings
      else
        var last := top[0];
        TopNHeadIsMax(recent, LoggedAt, 5);
        forall l | l in logs && l.at >= now - RecoveryWindow ensures l.at <= last.at {
          assert RecoveryWindowAt(now)(l);
          assert LoggedAt(l) <= LoggedAt(last);
        }
        RecoveryPlan(TierFor(Mean(vals)),
                     |last.context| > 0 && Stressed(last.context),
                     |last.context| > 0 && ShortSleep(last.context))
  }

  /** Once every one of the five latest readings is in range, the tier
      follows their plain average. */
  lemma RecoveryUsesLatestFive(logs: seq<EnergyLog>, now: Instant)
    requires forall i :: 0 <= i < |logs| ==> ValidEnergyLevel(logs[i].level)
    requires exists i :: 0 <= i < |logs| && logs[i].at >= now - RecoveryWindow
    ensures RecoveryAdvice(logs, now).RecoveryPlan?
    ensures RecoveryAdvice(logs, now).tier
      == TierFor(Mean(Levels(TopN(Filter(logs, RecoveryWindowAt(now)), LoggedAt, 5))))
  {
    var recent := Filter(logs, RecoveryWindowAt(now));
    var i :| 0 <= i < |logs| && logs[i].at >= now - RecoveryWindow;
    assert RecoveryWindowAt(now)(logs[i]);
    assert logs[i] in recent;
    var top := TopN(recent, LoggedAt, 5);
    assert |top| > 0;
    assert forall l :: l in top ==> l in logs;
    AllValidLevels(top);
    assert ValidLevels(top) != [];
  }

  lemma {:induction false} AllValidLevels(ls: seq<EnergyLog>)
    requires forall l :: l in ls ==> ValidEnergyLevel(l.level)
    ensures ValidLevels(ls) == Levels(ls)
  {
    if |ls| > 0 {
      assert forall l :: l in ls[1..] ==> l in ls;
      AllValidLevels(ls[1..]);
    }
  }

  // ---------------------------------------------------------------------
  // Insight recommendations
  // ---------------------------------------------------------------------

  /** `" ("` starts at index `i` of `s`. */
  predicate SepAt(s: string, i: int) {
    0 <= i && i + 1 < |s| && s[i] == ' ' && s[i + 1] == '('
  }

  function FirstSep(s: string): (r: Option<nat>)
    ensures r.None? <==> forall j :: !SepAt(s, j)
    ensures r.Some? ==> SepAt(s, r.value) && forall j :: 0 <= j < r.value ==> !SepAt(s, j)
  {
    if |s| < 2 then None
    else if s[0] == ' ' && s[1] == '(' then
      assert SepAt(s, 0);
      Some(0)
    else
      assert forall j :: SepAt(s, j + 1) <==> SepAt(s[1..], j);
      assert !SepAt(s, 0);
      assert forall j :: SepAt(s, j) ==> SepAt(s[1..], j - 1);
      match FirstSep(s[1..])
      case None => None
      case Some(i) => Some(i + 1)
  }

  function LastSep(s: string): (r: Option<nat>)
    ensures r.None? <==> forall j :: !SepAt(s, j)
    ensures r.Some? ==> SepAt(s, r.value) && forall j :: r.value < j ==> !SepAt(s, j)
  {
    if |s| < 2 then None
    else if SepAt(s, |s| - 2) then Some(|s| - 2)
    else
      var init := s[..|s| - 1];
      assert forall j :: SepAt(s, j) <==> SepAt(init, j);
      LastSep(init)
  }

  /** `s.split(' (')[0]`: the text before the first `" ("`. */
  function SplitHead(s: string): (r: string)
    ensures |r| <= |s| && r == s[..|r|]
    ensures forall j :: !SepAt(r, j)
    ensures r == s <==> forall j :: !SepAt(s, j)
    ensures r != s ==> SepAt(s, |r|)
  {
    match FirstSep(s)
    case None => s
    case Some(i) =>
      assert forall j :: SepAt(s[..i], j) ==> SepAt(s, j) && j < i;
      s[..i]
  }

  /** The text before the last `" ("`: what a formatted tally entry was
      formatted from. */
  function StripCount(s: string): (r: string)
    ensures |r| <= |s| && r == s[..|r|]
    ensures (forall j :: !SepAt(s, j)) ==> r == s
    ensures r != s ==> SepAt(s, |r|) && forall j :: |r| < j ==> !SepAt(s, j)
  {
    match LastSep(s)
    case None => s
    case Some(i) => s[..i]
  }

  /** The name the insights quote for a formatted booster or drain, as
      the service computes it: the text before the first `" ("`. */
  function TopNameAsWritten(formatted: string): (r: string)
    ensures |r| <= |formatted| && r == formatted[..|r|]
    ensures forall j :: !SepAt(r, j)
    ensures r == formatted <==> forall j :: !SepAt(formatted, j)
    ensures r != formatted ==> SepAt(formatted, |r|)
  {
    SplitHead(formatted)
  }

  /** The name the insights quote for a formatted booster or drain: the
      label the entry was formatted from. */
  function TopName(formatted: string): (r: string)
    ensures |r| <= |formatted| && r == formatted[..|r|]
    ensures r != formatted ==> SepAt(formatted, |r|) && forall j :: |r| < j ==> !SepAt(formatted, j)
  {
    StripCount(formatted)
  }

  /** Reading a formatted entry back gives its label, whatever the label
      contains. */
  lemma TopNameRoundTrip(e: (string, nat))
    ensures TopName(FormatEntry(e)) == e.0
  {
    var s := FormatEntry(e);
    var d := NatToDecimal(e.1);
    var n := |e.0|;
    assert s == e.0 + [' ', '('] + d + ['x', ')'];
    assert SepAt(s, n);
    forall j | n < j ensures !SepAt(s, j) {
      if j < |s| {
        assert s[j] == '(' || s[j] == 'x' || s[j] == ')' || '0' <= s[j] <= '9' by {
          if j == n + 1 { assert s[j] == '('; }
          else if j < n + 2 + |d| { assert s[j] == d[j - n - 2]; }
          else if j == n + 2 + |d| { assert s[j] == 'x'; }
          else { assert s[j] == ')'; }
        }
      }
    }
    var k := LastSep(s);
    assert k.Some? && k.value == n;
    assert s[..n] == e.0;
  }

  /** A label that itself contains `" ("` is cut short by the service:
      the booster `"Walk (outdoor)"` seen three times is quoted as
      `"Walk"`. */
  lemma TopNameAsWrittenTruncates()
    ensures TopNameAsWritten(FormatEntry(("Walk (outdoor)", 3))) == "Walk"
    ensures TopName(FormatEntry(("Walk (outdoor)", 3))) == "Walk (outdoor)"
  {
    var name := "Walk (outdoor)";
    var s := FormatEntry((name, 3));
    assert s[..|name|] == name;
    assert s[0] == 'W' && s[1] == 'a' && s[2] == 'l' && s[3] == 'k' && s[4] == ' ' && s[5] == '(';
    assert SepAt(s, 4);
    var k := FirstSep(s);
    assert k.Some? && k.value <= 4;
    assert k.value == 4;
    assert s[..4] == "Walk";
    TopNameRoundTrip((name, 3));
  }

  /** A label without `" ("` reads back the same both ways. */
  lemma {:induction false} TopNamesAgree(e: (string, nat))
    requires forall j :: !SepAt(e.0, j)
    ensures TopNameAsWritten(FormatEntry(e)) == e.0 == TopName(FormatEntry(e))
  {
    var s := FormatEntry(e);
    var n := |e.0|;
    assert s == e.0 + [' ', '('] + NatToDecimal(e.1) + ['x', ')'];
    assert SepAt(s, n);
    forall j | 0 <= j < n ensures !SepAt(s, j) {
      if j + 1 < n {
        assert !SepAt(e.0, j);
      } else {
        assert s[j + 1] == ' ';
      }
    }
    assert s[..n] == e.0;
    TopNameRoundTrip(e);
  }

  datatype EnergyTip =
    | PeakHour(hour: int, level: real)
    | LowHour(hour: int, level: real)
    | BestDay(day: string, level: real)
    | ChallengingDay(day: string, level: real)
    | BoosterTip(name: string)
    | DrainTip(name: string)
    | PrioritizeRest
    | TryExercise
    | AddRecovery
    | TakeOnChallenges
    | RaiseAmbition

  function Averages<K>(xs: seq<(K, real)>): (r: seq<real>)
    ensures |r| == |xs|
    ensures forall i :: 0 <= i < |xs| ==> r[i] == xs[i].1
  {
    if |xs| == 0 then [] else [xs[0].1] + Averages(xs[1..])
  }

  /** The peak hour and the low hour (the first of each among equals). */
  function HourTips(hourly: seq<(int, real)>): (r: seq<EnergyTip>)
    ensures hourly == [] <==> r == []
    ensures hourly != [] ==> |r| == 2 && r[0].PeakHour? && r[1].LowHour?
    ensures hourly != [] ==> (r[0].hour, r[0].level) in hourly && (r[1].hour, r[1].level) in hourly
    ensures hourly != [] ==> forall i :: 0 <= i < |hourly| ==> r[1].level <= hourly[i].1 <= r[0].level
    ensures forall t: EnergyTip :: t in r ==> t.PeakHour? || t.LowHour?
  {
    if hourly == [] then []
    else
      var xs := Averages(hourly);
      var p := hourly[ArgMax(xs)];
      var l := hourly[ArgMin(xs)];
      [PeakHour(p.0, p.1), LowHour(l.0, l.1)]
  }

  /** The best day, and the worst one when it falls more than a point
      below the overall average. */
  function DayTips(daily: seq<(string, real)>, avg: real): (r: seq<EnergyTip>)
    ensures daily == [] <==> r == []
    ensures daily != [] ==> r[0].BestDay? && (r[0].day, r[0].level) in daily
    ensures daily != [] ==> forall i :: 0 <= i < |daily| ==> daily[i].1 <= r[0].level
    ensures daily != [] ==> (|r| == 2 <==> exists i :: 0 <= i < |daily| && daily[i].1 < avg - 1.0)
    ensures |r| == 2 ==> (r[1].ChallengingDay? && r[1].level < avg - 1.0
      && forall i :: 0 <= i < |daily| ==> r[1].level <= daily[i].1)
    ensures |r| <= 2
    ensures forall t: EnergyTip :: t in r ==> t.BestDay? || t.ChallengingDay?
    ensures (exists t: EnergyTip :: t in r && t.ChallengingDay?) <==> |r| == 2
  {
    if daily == [] then []
    else
      var xs := Averages(daily);
      var b := daily[ArgMax(xs)];
      var w := daily[ArgMin(xs)];
      [BestDay(b.0, b.1)] + (if w.1 < avg - 1.0 then [ChallengingDay(w.0, w.1)] else [])
  }

  function ContextTips(boosters: seq<string>, drains: seq<string>): (r: seq<EnergyTip>)
    ensures forall t: EnergyTip :: t in r <==>
      (boosters != [] && t == BoosterTip(TopName(boosters[0])))
      || (drains != [] && t == DrainTip(TopName(drains[0])))
  {
    (if boosters != [] then [BoosterTip(TopName(boosters[0]))] else [])
      + (if drains != [] then [DrainTip(TopName(drains[0]))] else [])
  }

  /** The booster and drain tips as the service words them, with the
      names cut at the first `" ("`. */
  function ContextTipsAsWritten(boosters: seq<string>, drains: seq<string>): (r: seq<EnergyTip>)
    ensures forall t: EnergyTip :: t in r <==>
      (boosters != [] && t == BoosterTip(TopNameAsWritten(boosters[0])))
      || (drains != [] && t == DrainTip(TopNameAsWritten(drains[0])))
  {
    (if boosters != [] then [BoosterTip(TopNameAsWritten(boosters[0]))] else [])
      + (if drains != [] then [DrainTip(TopNameAsWritten(drains[0]))] else [])
  }

  /** While the top booster and drain labels hold no `" ("`, the tips as
      the service words them are the tips of the model. */
  lemma ContextTipsAgree(boosters: Tally, drains: Tally)
    requires boosters != [] ==> forall j :: !SepAt(boosters[0].0, j)
    requires drains != [] ==> forall j :: !SepAt(drains[0].0, j)
    ensures ContextTipsAsWritten(FormatTally(boosters), FormatTally(drains)) ==
      ContextTips(FormatTally(boosters), FormatTally(drains))
  {
    if boosters != [] { TopNamesAgree(boosters[0]); }
    if drains != [] { TopNamesAgree(drains[0]); }
  }

  function LevelTips(avg: real): (r: seq<EnergyTip>)
    ensures avg < 5.0 ==> r == [PrioritizeRest, TryExercise, AddRecovery]
    ensures avg > 7.0 ==> r == [TakeOnChallenges, RaiseAmbition]
    ensures 5.0 <= avg <= 7.0 ==> r == []
    ensures forall t: EnergyTip :: t in r ==>
      (t.PrioritizeRest? || t.TryExercise? || t.AddRecovery? || t.TakeOnChallenges? || t.RaiseAmbition?)
  {
    if avg < 5.0 then [PrioritizeRest, TryExercise, AddRecovery]
    else if avg > 7.0 then [TakeOnChallenges, RaiseAmbition]
    else []
  }

  /** `_generate_energy_recommendations` over the hourly and daily
      averages, the formatted boosters and drains, and the overall
      average, with the quoted names read back by `TopName`. */
  function EnergyRecommendations(hourly: seq<(int, real)>, daily: seq<(string, real)>,
                                 boosters: seq<string>, drains: seq<string>, avg: real): (r: seq<EnergyTip>)
    ensures |r| <= 2 + 2 + 2 + 3
    ensures hourly != [] ==> |r| >= 2 && r[0].PeakHour? && r[1].LowHour? && r[1].level <= r[0].level
  {
    HourTips(hourly) + DayTips(daily, avg) + ContextTips(boosters, drains) + LevelTips(avg)
  }

  lemma InFourParts<T>(a: seq<T>, b: seq<T>, c: seq<T>, d: seq<T>, x: T)
    ensures x in a + b + c + d <==> x in a || x in b || x in c || x in d
  {
  }

  /** A challenging day is named exactly when some day falls more than a
      point below the overall average. */
  lemma RecommendsChallengingDay(hourly: seq<(int, real)>, daily: seq<(string, real)>,
                                 boosters: seq<string>, drains: seq<string>, avg: real)
    ensures var r := EnergyRecommendations(hourly, daily, boosters, drains, avg);
      (exists t :: t in r && t.ChallengingDay?) <==> exists i :: 0 <= i < |daily| && daily[i].1 < avg - 1.0
  {
    var h := HourTips(hourly);
    var d := DayTips(daily, avg);
    var c := ContextTips(boosters, drains);
    var l := LevelTips(avg);
    forall t: EnergyTip | t.ChallengingDay? ensures t in h + d + c + l <==> t in d {
      InFourParts(h, d, c, l, t);
    }
  }

  /** A booster or drain is quoted exactly when the analysis found one,
      and under the name `TopName` reads back. */
  lemma RecommendsBoosterAndDrain(hourly: seq<(int, real)>, daily: seq<(string, real)>,
                                  boosters: seq<string>, drains: seq<string>, avg: real)
    ensures var r := EnergyRecommendations(hourly, daily, boosters, drains, avg);
      && (forall x :: BoosterTip(x) in r <==> boosters != [] && x == TopName(boosters[0]))
      && (forall x :: DrainTip(x) in r <==> drains != [] && x == TopName(drains[0]))
  {
    forall x ensures var r := EnergyRecommendations(hourly, daily, boosters, drains, avg);
      && (BoosterTip(x) in r <==> boosters != [] && x == TopName(boosters[0]))
      && (DrainTip(x) in r <==> drains != [] && x == TopName(drains[0]))
    {
      OnlyContextQuotes(hourly, daily, boosters, drains, avg, x);
    }
  }

  /** Only the context tips quote a name. */
  lemma OnlyContextQuotes(hourly: seq<(int, real)>, daily: seq<(string, real)>,
                          boosters: seq<string>, drains: seq<string>, avg: real, x: string)
    ensures var r := EnergyRecommendations(hourly, daily, boosters, drains, avg);
      && (BoosterTip(x) in r <==> boosters != [] && x == TopName(boosters[0]))
      && (DrainTip(x) in r <==> drains != [] && x == TopName(drains[0]))
  {
    var h := HourTips(hourly);
    var d := DayTips(daily, avg);
    var c := ContextTips(boosters, drains);
    var l := LevelTips(avg);
    assert BoosterTip(x) !in h && BoosterTip(x) !in d && BoosterTip(x) !in l;
    assert DrainTip(x) !in h && DrainTip(x) !in d && DrainTip(x) !in l;
    InFourParts(h, d, c, l, BoosterTip(x));
    InFourParts(h, d, c, l, DrainTip(x));
  }

  /** The low-energy advice appears exactly below an average of 5, the
      high-energy advice exactly above 7. */
  lemma RecommendsByAverage(hourly: seq<(int, real)>, daily: seq<(string, real)>,
                            boosters: seq<string>, drains: seq<string>, avg: real)
    ensures var r := EnergyRecommendations(hourly, daily, boosters, drains, avg);
      && (PrioritizeRest in r <==> avg < 5.0)
      && (TakeOnChallenges in r <==> avg > 7.0)
  {
    var h := HourTips(hourly);
    var d := DayTips(daily, avg);
    var c := ContextTips(boosters, drains);
    var l := LevelTips(avg);
    assert PrioritizeRest !in h && PrioritizeRest !in d && PrioritizeRest !in c;
    assert TakeOnChallenges !in h && TakeOnChallenges !in d && TakeOnChallenges !in c;
    assert PrioritizeRest in l <==> avg < 5.0;
    assert TakeOnChallenges in l <==> avg > 7.0;
    InFourParts(h, d, c, l, PrioritizeRest);
    InFourParts(h, d, c, l, TakeOnChallenges);
  }

  /** The quoted booster is exactly the label of the most frequent
      booster the context analysis found. */
  lemma BoosterTipNamesTopBooster(logs: seq<EnergyLog>, render: Value -> string,
                                  hourly: seq<(int, real)>, daily: seq<(string, real)>, avg: real)
    ensures var a := AnalyzeContext(logs, render);
      a.boosters != [] ==>
        BoosterTip(a.boosters[0].0)
          in EnergyRecommendations(hourly, daily, FormatTally(a.boosters), FormatTally(a.drains), avg)
  {
    var a := AnalyzeContext(logs, render);
    if a.boosters != [] {
      TopNameRoundTrip(a.boosters[0]);
      RecommendsBoosterAndDrain(hourly, daily, FormatTally(a.boosters), FormatTally(a.drains), avg);
    }
  }
}

=== FILE: models.dfy ===
/** The records of the Monk Mode store that the scoring and decision logic
    reads and writes, with the derived properties and save rules the
    record classes define. Each table is a sequence in the store's own
    retrieval order; a row's primary key is its `id`. */
module Models {
  import opened Basics

  // ---------------------------------------------------------------------
  // Time
  // ---------------------------------------------------------------------

  /** A moment, in whole seconds since an epoch that falls on a Monday at
      00:00 in the server's time zone. */
  type Instant = int
  /** A calendar date, as a day number counted from the same epoch. */
  type Date = int
  /** A time of day (a TimeField), in minutes after midnight. */
  type Minute = int

  const SecondsPerHour: int := 3600
  const SecondsPerDay: int := 86400
  const MinutesPerDay: int := 1440

  function DateOf(t: Instant): Date { t / SecondsPerDay }

  /** `t.hour`. */
  function HourOf(t: Instant): (h: int)
    ensures 0 <= h <= 23
  {
    (t % SecondsPerDay) / SecondsPerHour
  }

  /** `t.weekday()`: Monday is 0 and Sunday is 6. */
  function Weekday(t: Instant): (d: int)
    ensures 0 <= d <= 6
  {
    DateOf(t) % 7
  }

  /** `t.time()`, in whole minutes. */
  function TimeOfDay(t: Instant): (m: Minute)
    ensures 0 <= m < MinutesPerDay
  {
    (t % SecondsPerDay) / 60
  }

  predicate ValidTime(m: Minute) { 0 <= m < MinutesPerDay }

  // ---------------------------------------------------------------------
  // Records
  // ---------------------------------------------------------------------

  datatype GoalStatus = Draft | ActiveGoal | CompletedGoal | Archived

  datatype Goal = Goal(id: nat, status: GoalStatus, startDate: Date, endDate: Date)

  datatype Objective = Objective(
    id: nat,
    goalId: nat,
    dueDate: Option<Date>,
    isCompleted: bool,
    completedAt: Option<Instant>)

  datatype Period = Period(id: nat, goalId: nat, startDate: Date, endDate: Date, isActive: bool)

  /** A ScheduledActivity. The activity type is identified by its name,
      which the ActivityType table keeps unique. The `priority_score`
      column is kept in a separate table owned by the priority engine. */
  datatype Activity = Activity(
    id: nat,
    periodId: nat,
    typeName: string,
    day: int,
    start: Minute,
    end: Minute,
    durationMinutes: int,
    description: string,
    isCompleted: bool,
    completedAt: Option<Instant>,
    actualStart: Option<Instant>,
    actualEnd: Option<Instant>,
    energyRequired: int,
    quality: Option<int>)

  /** A JSON scalar stored in a context-factor or preference mapping. */
  datatype Value = Null | Int(i: int) | Real(r: real) | Text(s: string) | Flag(b: bool)

  /** A JSON object: key/value pairs in insertion order. */
  type Mapping = seq<(string, Value)>

  /** `k in m`. */
  predicate HasKey(m: Mapping, k: string) {
    exists i :: 0 <= i < |m| && m[i].0 == k
  }

  /** `m.get(k, default)`. */
  function Lookup(m: Mapping, k: string, default: Value): (v: Value)
    ensures !HasKey(m, k) ==> v == default
    ensures HasKey(m, k) ==> exists i :: 0 <= i < |m| && m[i] == (k, v)
  {
    if |m| == 0 then default
    else if m[0].0 == k then m[0].1
    else
      var v := Lookup(m[1..], k, default);
      assert HasKey(m[1..], k) ==> exists i :: 0 <= i < |m| && m[i] == (k, v) by {
        if HasKey(m[1..], k) {
          var i :| 0 <= i < |m[1..]| && m[1..][i] == (k, v);
          assert m[i + 1] == (k, v);
        }
      }
      assert HasKey(m, k) ==> HasKey(m[1..], k) by {
        if HasKey(m, k) {
          var i :| 0 <= i < |m| && m[i].0 == k;
          assert i > 0 && m[1..][i - 1].0 == k;
        }
      }
      v
  }

  /** Python truthiness of a JSON scalar. */
  predicate Truthy(v: Value) {
    match v
    case Null => false
    case Int(i) => i != 0
    case Real(r) => r != 0.0
    case Text(s) => s != ""
    case Flag(b) => b
  }

  datatype EnergyLog = EnergyLog(at: Instant, level: int, context: Mapping)

  datatype DailyLog = DailyLog(
    date: Date,
    mood: Option<int>,
    adherence: Option<int>,
    energyMorning: Option<int>,
    energyAfternoon: Option<int>,
    energyEvening: Option<int>,
    challenges: string)

  datatype Pattern = Pattern(
    hour: int,
    typeName: string,
    averagePerformance: real,
    energyLevel: real,
    completionRate: real,
    sampleSize: nat)

  /** The six factors of a TaskPriorityScore. */
  datatype Factors = Factors(
    deadline: real,
    impact: real,
    energy: real,
    dependency: real,
    preference: real,
    momentum: real)

  datatype ScoreRow = ScoreRow(activityId: nat, factors: Factors, finalScore: real)

  // ---------------------------------------------------------------------
  // Validator ranges
  // ---------------------------------------------------------------------

  predicate ValidActivity(a: Activity) {
    && 1 <= a.energyRequired <= 10
    && (a.quality.Some? ==> 1 <= a.quality.value <= 5)
    && ValidTime(a.start) && ValidTime(a.end)
  }

  predicate ValidEnergyLevel(level: int) { 1 <= level <= 10 }

  predicate ValidPattern(p: Pattern) { 0 <= p.hour <= 23 }

  // ---------------------------------------------------------------------
  // Uniqueness constraints
  // ---------------------------------------------------------------------

  /** unique_together (user, hour_of_day, activity_type). */
  ghost predicate PatternKeysUnique(ps: seq<Pattern>) {
    forall i, j :: 0 <= i < j < |ps| ==>
      (ps[i].hour, ps[i].typeName) != (ps[j].hour, ps[j].typeName)
  }

  /** The one-to-one link from a TaskPriorityScore to its activity. */
  ghost predicate ScoreKeysUnique(rows: seq<ScoreRow>) {
    forall i, j :: 0 <= i < j < |rows| ==> rows[i].activityId != rows[j].activityId
  }

  ghost predicate PeriodIdsUnique(ps: seq<Period>) {
    forall i, j :: 0 <= i < j < |ps| ==> ps[i].id != ps[j].id
  }

  /** The rule MonkModePeriod.save maintains: a goal has at most one
      active period. */
  ghost predicate AtMostOneActivePerGoal(ps: seq<Period>) {
    forall i, j :: 0 <= i < j < |ps| && ps[i].isActive && ps[j].isActive ==>
      ps[i].goalId != ps[j].goalId
  }

  // ---------------------------------------------------------------------
  // MonkModeGoal.completion_percentage
  // ---------------------------------------------------------------------

  function IsCompleted(o: Objective): bool { o.isCompleted }

  /** The percentage of a goal's objectives that are completed; 0 for a
      goal without objectives. */
  function CompletionPercentage(objs: seq<Objective>): (p: real)
    ensures 0.0 <= p <= 100.0
    ensures p == 0.0 <==> forall i :: 0 <= i < |objs| ==> !objs[i].isCompleted
    ensures p == 100.0 <==> |objs| > 0 && forall i :: 0 <= i < |objs| ==> objs[i].isCompleted
  {
    if |objs| == 0 then 0.0
    else
      var done := Count(objs, IsCompleted);
      RatioPercent(done as real, |objs| as real);
      (done as real / |objs| as real) * 100.0
  }

  lemma RatioPercent(d: real, n: real)
    requires 0.0 <= d <= n && n > 0.0
    ensures 0.0 <= (d / n) * 100.0 <= 100.0
    ensures (d / n) * 100.0 == 100.0 <==> d == n
    ensures (d / n) * 100.0 == 0.0 <==> d == 0.0
  {
    FractionBounds(d, n);
  }

  // ---------------------------------------------------------------------
  // MonkModeObjective.mark_completed
  // ---------------------------------------------------------------------

  function MarkCompleted(o: Objective, now: Instant): (r: Objective)
    ensures r.isCompleted && r.completedAt == Some(now)
    ensures r.(isCompleted := o.isCompleted, completedAt := o.completedAt) == o
  {
    o.(isCompleted := true, completedAt := Some(now))
  }

  // ---------------------------------------------------------------------
  // MonkModePeriod.save
  // ---------------------------------------------------------------------

  function Deactivate(ps: seq<Period>, goalId: nat): (r: seq<Period>)
    ensures |r| == |ps|
    ensures forall i :: 0 <= i < |ps| ==>
      r[i] == if ps[i].goalId == goalId then ps[i].(isActive := false) else ps[i]
  {
    if |ps| == 0 then []
    else
      var head := if ps[0].goalId == goalId then ps[0].(isActive := false) else ps[0];
      [head] + Deactivate(ps[1..], goalId)
  }

  predicate HasId(ps: seq<Period>, id: nat) {
    exists i :: 0 <= i < |ps| && ps[i].id == id
  }

  /** Writes `p` into the table: its row is replaced when its id is
      present, appended otherwise. */
  function WriteRow(ps: seq<Period>, p: Period): (r: seq<Period>)
    ensures HasId(ps, p.id) ==> |r| == |ps|
    ensures HasId(ps, p.id) ==> forall i :: 0 <= i < |ps| ==>
      r[i] == if ps[i].id == p.id then p else ps[i]
    ensures !HasId(ps, p.id) ==> r == ps + [p]
  {
    if HasId(ps, p.id) then seq(|ps|, i requires 0 <= i < |ps| => if ps[i].id == p.id then p else ps[i])
    else ps + [p]
  }

  /** MonkModePeriod.save: saving an active period first deactivates every
      period of its goal, then writes the period itself. */
  function SavePeriod(ps: seq<Period>, p: Period): (r: seq<Period>)
    ensures HasId(r, p.id)
    ensures forall i :: 0 <= i < |r| && r[i].id == p.id ==> r[i] == p
    ensures p.isActive ==> forall i :: 0 <= i < |r| && r[i].goalId == p.goalId && r[i].isActive ==> r[i] == p
    ensures forall i :: 0 <= i < |r| && r[i].id != p.id ==>
      (r[i].goalId != p.goalId || !p.isActive ==> r[i] in ps)
  {
    var base := if p.isActive then Deactivate(ps, p.goalId) else ps;
    var r := WriteRow(base, p);
    assert r[|r| - 1] == p || HasId(base, p.id);
    r
  }

  lemma DeactivateKeepsInvariants(ps: seq<Period>, goalId: nat)
    requires PeriodIdsUnique(ps)
    requires AtMostOneActivePerGoal(ps)
    ensures PeriodIdsUnique(Deactivate(ps, goalId))
    ensures AtMostOneActivePerGoal(Deactivate(ps, goalId))
  {
    var r := Deactivate(ps, goalId);
    assert forall i :: 0 <= i < |r| ==> r[i].id == ps[i].id && r[i].goalId == ps[i].goalId;
    assert forall i :: 0 <= i < |r| && r[i].isActive ==> ps[i].isActive;
  }

  lemma WriteRowKeepsInvariants(base: seq<Period>, p: Period)
    requires PeriodIdsUnique(base)
    requires AtMostOneActivePerGoal(base)
    requires p.isActive ==> forall i :: 0 <= i < |base| && base[i].goalId == p.goalId ==> !base[i].isActive
    ensures PeriodIdsUnique(WriteRow(base, p))
    ensures AtMostOneActivePerGoal(WriteRow(base, p))
  {
    var r := WriteRow(base, p);
    if HasId(base, p.id) {
      assert forall i :: 0 <= i < |r| ==> r[i].id == base[i].id;
      forall i, j | 0 <= i < j < |r| && r[i].isActive && r[j].isActive
        ensures r[i].goalId != r[j].goalId
      {
        if base[i].id != p.id && base[j].id != p.id {
          assert r[i] == base[i] && r[j] == base[j];
        }
      }
    } else {
      forall i, j | 0 <= i < j < |r| && r[i].isActive && r[j].isActive
        ensures r[i].goalId != r[j].goalId
      {
        if j < |base| {
          assert r[i] == base[i] && r[j] == base[j];
        }
      }
      forall i, j | 0 <= i < j < |r| ensures r[i].id != r[j].id {
        if j < |base| {
          assert r[i] == base[i] && r[j] == base[j];
        } else {
          assert r[i] == base[i];
        }
      }
    }
  }

  /** Saving never breaks the one-active-period rule (nor primary-key
      uniqueness). */
  lemma SavePeriodKeepsOneActive(ps: seq<Period>, p: Period)
    requires PeriodIdsUnique(ps)
    requires AtMostOneActivePerGoal(ps)
    ensures PeriodIdsUnique(SavePeriod(ps, p))
    ensures AtMostOneActivePerGoal(SavePeriod(ps, p))
  {
    if p.isActive {
      DeactivateKeepsInvariants(ps, p.goalId);
      WriteRowKeepsInvariants(Deactivate(ps, p.goalId), p);
    } else {
      WriteRowKeepsInvariants(ps, p);
    }
  }

  // ---------------------------------------------------------------------
  // ScheduledActivity.actual_duration_minutes
  // ---------------------------------------------------------------------

  /** Whole minutes between the actual start and end, truncated toward
      zero; defined only when both are recorded. */
  function ActualDurationMinutes(a: Activity): (r: Option<int>)
    ensures r.Some? <==> a.actualStart.Some? && a.actualEnd.Some?
    ensures r.Some? ==> var secs := a.actualEnd.value - a.actualStart.value;
      (secs >= 0 ==> 0 <= r.value * 60 <= secs < r.value * 60 + 60)
      && (secs < 0 ==> r.value * 60 - 60 < secs <= r.value * 60 <= 0)
  {
    if a.actualStart.Some? && a.actualEnd.Some? then
      Some(TruncDiv(a.actualEnd.value - a.actualStart.value, 60))
    else None
  }
}

=== FILE: motivation_service.dfy ===
/** Motivation content: the user's own media shown on a trigger, letters
    the user wrote to their future self and the rules for delivering them,
    and the extra content released at goal milestones. Whether a letter's
    email goes out is an input (`sent`); random orderings are the order in
    which the store returns rows. */
module MotivationService {
  import opened Basics
  import opened Models

  // ---------------------------------------------------------------------
  // Records
  // ---------------------------------------------------------------------

  /** A MotivationMedia row: the triggers it is shown on and when it was
      last shown. */
  datatype Media = Media(id: nat, triggers: seq<string>, lastShown: Option<Instant>)

  /** A SelfLetter row. */
  datatype Letter = Letter(
    id: nat,
    owner: nat,
    goalId: Option<nat>,
    trigger: string,
    deliveryDate: Option<Instant>,
    isDelivered: bool,
    deliveredAt: Option<Instant>)

  const Scheduled: string := "scheduled"
  const MoodLow: string := "mood_low"
  const Halfway: string := "halfway"
  const Completion: string := "completion"
  const MilestoneMedia: string := "milestone"

  const DailyMediaCap: nat := 3
  const MoodMediaCap: nat := 2
  const MoodLetterCap: nat := 1

  function Cap<T>(xs: seq<T>, n: nat): (r: seq<T>)
    ensures |r| == if |xs| < n then |xs| else n
    ensures r == xs[..|r|]
  {
    if |xs| <= n then xs else xs[..n]
  }

  function ShownOn(trigger: string): Media -> bool {
    (m: Media) => trigger in m.triggers
  }

  function ShownAt(ms: seq<Media>, now: Instant): (r: seq<Media>)
    ensures |r| == |ms|
    ensures forall i :: 0 <= i < |ms| ==> r[i] == ms[i].(lastShown := Some(now))
  {
    seq(|ms|, i requires 0 <= i < |ms| => ms[i].(lastShown := Some(now)))
  }

  function MediaIds(ms: seq<Media>): set<nat> {
    set m | m in ms :: m.id
  }

  /** Saves `last_shown = now` on the rows of the chosen media. */
  function MarkShown(table: seq<Media>, chosen: seq<Media>, now: Instant): (r: seq<Media>)
    ensures |r| == |table|
    ensures forall i :: 0 <= i < |table| ==>
      r[i] == if table[i].id in MediaIds(chosen) then table[i].(lastShown := Some(now)) else table[i]
  {
    seq(|table|, i requires 0 <= i < |table| =>
      if table[i].id in MediaIds(chosen) then table[i].(lastShown := Some(now)) else table[i])
  }

  /** Saves `is_delivered = True, delivered_at = now` on a letter. */
  function Delivered(l: Letter, now: Instant): Letter {
    l.(isDelivered := true, deliveredAt := Some(now))
  }

  // ---------------------------------------------------------------------
  // Daily motivation
  // ---------------------------------------------------------------------

  function NeverShown(m: Media): bool { m.lastShown.None? }
  function WasShown(m: Media): bool { m.lastShown.Some? }

  /** Sorting key that puts earlier showings first. */
  function Earliness(m: Media): real {
    match m.lastShown
    case Some(t) => -(t as real)
    case None => 0.0
  }

  /** The order `order_by('last_shown')` promises: media shown longer ago
      come first, and never-shown media come before every shown one when
      the database sorts missing values first (`nullsFirst`), after every
      shown one otherwise. */
  ghost predicate ShownOrdered(r: seq<Media>, nullsFirst: bool) {
    (forall i, j :: 0 <= i < j < |r| && r[i].lastShown.Some? && r[j].lastShown.Some? ==>
      r[i].lastShown.value <= r[j].lastShown.value) &&
    (forall i, j :: 0 <= i < j < |r| && r[i].lastShown.None? != r[j].lastShown.None? ==>
      (r[i].lastShown.None? <==> nullsFirst))
  }

  /** The media that were shown before, the longest-ago first. */
  function ShownByAge(ms: seq<Media>): (r: seq<Media>)
    ensures forall m :: m in r <==> m in ms && m.lastShown.Some?
    ensures |r| + |Filter(ms, NeverShown)| == |ms|
    ensures forall i, j :: 0 <= i < j < |r| ==> r[i].lastShown.Some? && r[i].lastShown.value <= r[j].lastShown.value
  {
    var shown := Filter(ms, WasShown);
    var r := SortDesc(shown, Earliness);
    FilterSplit(ms, NeverShown, WasShown);
    EarlinessSorted(ms, shown, r);
    r
  }

  /** Sorting the shown media by earliness orders them by when they were
      shown. */
  lemma {:induction false} EarlinessSorted(ms: seq<Media>, shown: seq<Media>, r: seq<Media>)
    requires forall m :: m in shown <==> m in ms && WasShown(m)
    requires multiset(r) == multiset(shown) && SortedDesc(r, Earliness)
    ensures forall m :: m in r <==> m in ms && m.lastShown.Some?
    ensures forall i, j :: 0 <= i < j < |r| ==> r[i].lastShown.Some? && r[i].lastShown.value <= r[j].lastShown.value
  {
    SameMembers(r, shown);
    forall i, j | 0 <= i < j < |r|
      ensures r[i].lastShown.Some? && r[j].lastShown.Some? && r[i].lastShown.value <= r[j].lastShown.value
    {
      assert r[i] in shown && r[j] in shown;
      assert WasShown(r[i]) && WasShown(r[j]);
      assert Earliness(r[i]) >= Earliness(r[j]);
    }
  }

  lemma {:induction false} NeverFirstOrdered(never: seq<Media>, shown: seq<Media>)
    requires forall m :: m in never ==> m.lastShown.None?
    requires forall m :: m in shown ==> m.lastShown.Some?
    requires forall i, j :: 0 <= i < j < |shown| ==> shown[i].lastShown.value <= shown[j].lastShown.value
    ensures ShownOrdered(never + shown, true)
  {
    var r := never + shown;
    assert forall k :: 0 <= k < |never| ==> r[k] == never[k] && r[k].lastShown.None?;
    assert forall k :: |never| <= k < |r| ==> r[k] == shown[k - |never|] && r[k].lastShown.Some?;
  }

  lemma {:induction false} NeverLastOrdered(never: seq<Media>, shown: seq<Media>)
    requires forall m :: m in never ==> m.lastShown.None?
    requires forall m :: m in shown ==> m.lastShown.Some?
    requires forall i, j :: 0 <= i < j < |shown| ==> shown[i].lastShown.value <= shown[j].lastShown.value
    ensures ShownOrdered(shown + never, false)
  {
    var r := shown + never;
    assert forall k :: 0 <= k < |shown| ==> r[k] == shown[k] && r[k].lastShown.Some?;
    assert forall k :: |shown| <= k < |r| ==> r[k] == never[k - |shown|] && r[k].lastShown.None?;
  }

  /** `order_by('last_shown', ...)`: media shown longer ago first, ties in
      the store's order, never-shown media first or last as the database
      sorts missing values. */
  function LeastRecentlyShown(ms: seq<Media>, nullsFirst: bool): (r: seq<Media>)
    ensures |r| == |ms|
    ensures forall m :: m in r <==> m in ms
    ensures ShownOrdered(r, nullsFirst)
  {
    var never := Filter(ms, NeverShown);
    var shown := ShownByAge(ms);
    if nullsFirst then
      NeverFirstOrdered(never, shown);
      never + shown
    else
      NeverLastOrdered(never, shown);
      shown + never
  }

  /** Cutting an ordered list short leaves out nothing that should have
      come before what it keeps. */
  lemma {:induction false} CapKeepsOrder(order: seq<Media>, n: nat, nullsFirst: bool, m: Media, s: Media)
    requires ShownOrdered(order, nullsFirst)
    requires m in order && m !in Cap(order, n) && s in Cap(order, n)
    ensures m.lastShown.Some? && s.lastShown.Some? ==> s.lastShown.value <= m.lastShown.value
    ensures m.lastShown.None? != s.lastShown.None? ==> (s.lastShown.None? <==> nullsFirst)
  {
    var r := Cap(order, n);
    var i :| 0 <= i < |r| && r[i] == s;
    var j :| 0 <= j < |order| && order[j] == m;
    assert forall k :: 0 <= k < |r| ==> r[k] == order[k];
    assert j >= |r|;
    assert order[i] == s && i < j;
  }

  /** The media `get_daily_motivation` picks: the first three of the
      least-recently-shown order among the media shown on the trigger. */
  function DailySelection(media: seq<Media>, trigger: string, nullsFirst: bool): (r: seq<Media>)
    ensures |r| == if |Filter(media, ShownOn(trigger))| < DailyMediaCap then |Filter(media, ShownOn(trigger))| else DailyMediaCap
    ensures forall m :: m in r ==> m in media && trigger in m.triggers
  {
    var candidates := Filter(media, ShownOn(trigger));
    var order := LeastRecentlyShown(candidates, nullsFirst);
    var r := Cap(order, DailyMediaCap);
    forall m | m in r ensures m in media && trigger in m.triggers {
      assert m in order;
      assert m in candidates;
      assert ShownOn(trigger)(m);
    }
    r
  }

  /** A medium for the trigger that is not picked was shown no earlier
      than any picked one; and if it was never shown, the database sorts
      missing values last or every pick is never-shown too. */
  lemma {:induction false} DailySelectionLeastRecent(media: seq<Media>, trigger: string, nullsFirst: bool, m: Media, s: Media)
    requires m in media && trigger in m.triggers
    ensures var r := DailySelection(media, trigger, nullsFirst);
      s in r && m !in r ==>
        (m.lastShown.Some? && s.lastShown.Some? ==> s.lastShown.value <= m.lastShown.value) &&
        (m.lastShown.None? != s.lastShown.None? ==> (s.lastShown.None? <==> nullsFirst))
  {
    var r := DailySelection(media, trigger, nullsFirst);
    if s in r && m !in r {
      var order := LeastRecentlyShown(Filter(media, ShownOn(trigger)), nullsFirst);
      assert ShownOn(trigger)(m);
      assert m in order;
      CapKeepsOrder(order, DailyMediaCap, nullsFirst, m, s);
    }
  }

  function ReadyFor(trigger: string): Letter -> bool {
    (l: Letter) => !l.isDelivered && l.trigger == trigger
  }

  /** Undelivered, scheduled, and with a delivery date that has come. */
  predicate IsDue(now: Instant, l: Letter) {
    !l.isDelivered && l.trigger == Scheduled && l.deliveryDate.Some? && l.deliveryDate.value <= now
  }

  function DueBy(now: Instant): Letter -> bool {
    (l: Letter) => IsDue(now, l)
  }

  /** The letters `get_daily_motivation` returns: the undelivered letters
      written for the trigger, followed by the undelivered scheduled
      letters that are due. */
  function DailyLetters(letters: seq<Letter>, trigger: string, now: Instant): (r: seq<Letter>)
    ensures forall l :: l in r <==> (l in letters && !l.isDelivered &&
      (l.trigger == trigger || (l.trigger == Scheduled && l.deliveryDate.Some? && l.deliveryDate.value <= now)))
    ensures forall i, j :: 0 <= i < j < |r| && r[i].trigger != trigger ==> r[j].trigger == Scheduled
  {
    var ready := Filter(letters, ReadyFor(trigger));
    var due := Filter(letters, DueBy(now));
    forall l | l in ready ensures l.trigger == trigger {
      assert ReadyFor(trigger)(l);
    }
    forall l | l in due ensures l.trigger == Scheduled {
      assert DueBy(now)(l);
    }
    ReadyBeforeDue(ready, due, trigger);
    forall l ensures l in ready + due <==> l in ready || l in due {
    }
    ready + due
  }

  /** Letters for the trigger followed by scheduled ones: anything after a
      letter not for the trigger is a scheduled one. */
  lemma ReadyBeforeDue(ready: seq<Letter>, due: seq<Letter>, trigger: string)
    requires forall l :: l in ready ==> l.trigger == trigger
    requires forall l :: l in due ==> l.trigger == Scheduled
    ensures var ls := ready + due;
      forall i, j :: 0 <= i < j < |ls| && ls[i].trigger != trigger ==> ls[j].trigger == Scheduled
  {
    var ls := ready + due;
    forall k | 0 <= k < |ready| ensures ls[k].trigger == trigger {
      assert ls[k] == ready[k] && ready[k] in ready;
    }
    forall k | |ready| <= k < |ls| ensures ls[k].trigger == Scheduled {
      assert ls[k] == due[k - |ready|] && due[k - |ready|] in due;
    }
  }

  /** Unless the trigger is "scheduled" itself, no letter is listed twice. */
  lemma {:induction false} DailyLettersDistinct(letters: seq<Letter>, trigger: string, now: Instant)
    requires trigger != Scheduled
    requires forall i, j :: 0 <= i < j < |letters| ==> letters[i] != letters[j]
    ensures var ls := DailyLetters(letters, trigger, now);
      forall i, j :: 0 <= i < j < |ls| ==> ls[i] != ls[j]
  {
    var ready := Filter(letters, ReadyFor(trigger));
    var due := Filter(letters, DueBy(now));
    FilterKeepsDistinct(letters, ReadyFor(trigger), (l: Letter) => l);
    FilterKeepsDistinct(letters, DueBy(now), (l: Letter) => l);
    var ls := ready + due;
    forall i, j | 0 <= i < j < |ls| ensures ls[i] != ls[j] {
      if j < |ready| {
        assert ls[i] == ready[i] && ls[j] == ready[j];
      } else if i >= |ready| {
        assert ls[i] == due[i - |ready|] && ls[j] == due[j - |ready|];
      } else {
        assert ls[i] == ready[i] && ready[i] in ready && ls[j] == due[j - |ready|] && due[j - |ready|] in due;
      }
    }
  }

  /** What `get_daily_motivation` returns, with the media table after it
      saves the new `last_shown` values. */
  datatype Daily = Daily(media: seq<Media>, letters: seq<Letter>, mediaTable: seq<Media>)

  /** `get_daily_motivation`: up to three media for the trigger, stamped as
      shown now, and the letters due for it. */
  function GetDailyMotivation(media: seq<Media>, letters: seq<Letter>, trigger: string,
                              now: Instant, nullsFirst: bool): (d: Daily)
    requires forall i, j :: 0 <= i < j < |media| ==> media[i].id != media[j].id
    ensures |d.media| <= DailyMediaCap
    ensures forall m :: m in d.media ==> m.lastShown == Some(now) && trigger in m.triggers
    ensures d.letters == DailyLetters(letters, trigger, now)
    ensures |d.mediaTable| == |media|
    ensures forall i :: 0 <= i < |media| ==>
      d.mediaTable[i].(lastShown := media[i].lastShown) == media[i] &&
      (d.mediaTable[i] != media[i] ==> d.mediaTable[i] in d.media)
    ensures |d.media| == |DailySelection(media, trigger, nullsFirst)|
    ensures forall i :: 0 <= i < |d.media| ==>
      d.media[i] == DailySelection(media, trigger, nullsFirst)[i].(lastShown := Some(now))
    ensures forall i :: 0 <= i < |media| ==>
      d.mediaTable[i] == if media[i] in DailySelection(media, trigger, nullsFirst)
        then media[i].(lastShown := Some(now)) else media[i]
  {
    var picked := DailySelection(media, trigger, nullsFirst);
    var shown := ShownAt(picked, now);
    var table := MarkShown(media, picked, now);
    MarkedRowsShown(media, picked, now, shown, table);
    StampedRowsArePicked(media, picked, now, table);
    forall m | m in shown ensures m.lastShown == Some(now) && trigger in m.triggers {
      var k :| 0 <= k < |shown| && shown[k] == m;
      assert picked[k] in picked;
    }
    Daily(shown, DailyLetters(letters, trigger, now), table)
  }

  /** With unique ids, every row the stamping changes belongs to one of
      the chosen media, stamped. */
  lemma MarkedRowsShown(table: seq<Media>, chosen: seq<Media>, now: Instant,
                        shown: seq<Media>, marked: seq<Media>)
    requires forall i, j :: 0 <= i < j < |table| ==> table[i].id != table[j].id
    requires forall m :: m in chosen ==> m in table
    requires shown == ShownAt(chosen, now) && marked == MarkShown(table, chosen, now)
    ensures forall i :: 0 <= i < |table| && marked[i] != table[i] ==> marked[i] in shown
    ensures forall i :: 0 <= i < |table| ==> marked[i].(lastShown := table[i].lastShown) == table[i]
  {
    forall i | 0 <= i < |table| && marked[i] != table[i] ensures marked[i] in shown {
      assert table[i].id in MediaIds(chosen);
      var k :| 0 <= k < |chosen| && chosen[k].id == table[i].id;
      assert chosen[k] in table;
      var j :| 0 <= j < |table| && table[j] == chosen[k];
      assert j == i;
      assert shown[k] == marked[i];
    }
  }

  /** With unique ids, a row is stamped exactly when its medium was
      chosen. */
  lemma StampedRowsArePicked(table: seq<Media>, chosen: seq<Media>, now: Instant, marked: seq<Media>)
    requires forall i, j :: 0 <= i < j < |table| ==> table[i].id != table[j].id
    requires forall m :: m in chosen ==> m in table
    requires marked == MarkShown(table, chosen, now)
    ensures forall i :: 0 <= i < |table| ==>
      marked[i] == if table[i] in chosen then table[i].(lastShown := Some(now)) else table[i]
  {
    forall i | 0 <= i < |table| ensures table[i].id in MediaIds(chosen) ==> table[i] in chosen {
      if table[i].id in MediaIds(chosen) {
        var k :| 0 <= k < |chosen| && chosen[k].id == table[i].id;
        assert chosen[k] in table;
        var j :| 0 <= j < |table| && table[j] == chosen[k];
        assert j == i;
      }
    }
  }

  /** Every chosen medium is shown, stamped. */
  lemma ShownAtKeepsAll(ms: seq<Media>, now: Instant)
    ensures forall m :: m in ms ==> m.(lastShown := Some(now)) in ShownAt(ms, now)
  {
    var shown := ShownAt(ms, now);
    forall m | m in ms ensures m.(lastShown := Some(now)) in shown {
      var k :| 0 <= k < |ms| && ms[k] == m;
      assert shown[k] == m.(lastShown := Some(now));
    }
  }

  /** `StampedRowsArePicked`, for whatever ids the table has. */
  lemma StampedRowsArePickedWhenUnique(table: seq<Media>, chosen: seq<Media>, now: Instant)
    requires forall m :: m in chosen ==> m in table
    ensures (forall i, j :: 0 <= i < j < |table| ==> table[i].id != table[j].id) ==>
      forall i :: 0 <= i < |table| ==>
        MarkShown(table, chosen, now)[i] == if table[i] in chosen then table[i].(lastShown := Some(now)) else table[i]
  {
    if forall i, j :: 0 <= i < j < |table| ==> table[i].id != table[j].id {
      StampedRowsArePicked(table, chosen, now, MarkShown(table, chosen, now));
    }
  }

  // ---------------------------------------------------------------------
  // Mood motivation
  // ---------------------------------------------------------------------

  /** Marks the letter with id `id` delivered at `now`. */
  function DeliverRow(table: seq<Letter>, id: nat, now: Instant): (r: seq<Letter>)
    ensures |r| == |table|
    ensures forall i :: 0 <= i < |table| ==> r[i] == if table[i].id == id then Delivered(table[i], now) else table[i]
  {
    seq(|table|, i requires 0 <= i < |table| => if table[i].id == id then Delivered(table[i], now) else table[i])
  }

  /** The number of undelivered letters written for `trigger`. */
  function Waiting(table: seq<Letter>, trigger: string): nat {
    |Filter(table, ReadyFor(trigger))|
  }

  /** The letter half of `trigger_mood_motivation`: the first undelivered
      low-mood letter, if any, handed out and saved as delivered now. */
  function TakeMoodLetter(letters: seq<Letter>, now: Instant): (r: (seq<Letter>, seq<Letter>))
    ensures |r.0| <= MoodLetterCap && |r.1| == |letters|
    ensures r.0 == [] <==> forall i :: 0 <= i < |letters| ==> !ReadyFor(MoodLow)(letters[i])
    ensures r.0 == [] ==> r.1 == letters
    ensures r.0 != [] ==> exists k :: (IsFirst(letters, ReadyFor(MoodLow), k) && r.0[0] == Delivered(letters[k], now) &&
      forall i :: 0 <= i < |letters| ==> r.1[i] == if letters[i].id == letters[k].id then Delivered(letters[i], now) else letters[i])
  {
    match First(letters, ReadyFor(MoodLow))
    case None => ([], letters)
    case Some(l) => ([Delivered(l, now)], DeliverRow(letters, l.id, now))
  }

  /** What `trigger_mood_motivation` hands out, with both tables after it
      saves its changes. */
  datatype MoodPackage = MoodPackage(
    media: seq<Media>,
    letters: seq<Letter>,
    mediaTable: seq<Media>,
    letterTable: seq<Letter>)

  /** The media half of `trigger_mood_motivation`: the first two media
      shown on low mood. */
  function MoodMedia(media: seq<Media>): (r: seq<Media>)
    ensures |r| <= MoodMediaCap
    ensures forall m :: m in r ==> m in media && MoodLow in m.triggers
    ensures |r| == MoodMediaCap || forall m :: m in media && MoodLow in m.triggers ==> m in r
  {
    var all := Filter(media, ShownOn(MoodLow));
    var r := Cap(all, MoodMediaCap);
    assert forall m :: m in r ==> m in all;
    r
  }

  /** `trigger_mood_motivation`: up to two low-mood media, stamped as
      shown, and at most one low-mood letter, marked delivered. */
  function TriggerMoodMotivation(media: seq<Media>, letters: seq<Letter>, now: Instant): (p: MoodPackage)
    ensures |p.media| <= MoodMediaCap && |p.letters| <= MoodLetterCap
    ensures forall m :: m in p.media ==> MoodLow in m.triggers && m.lastShown == Some(now)
    ensures p.letters == [] <==> forall i :: 0 <= i < |letters| ==> !ReadyFor(MoodLow)(letters[i])
    ensures forall l :: l in p.letters ==> l.isDelivered && l.deliveredAt == Some(now) && l.trigger == MoodLow
    ensures |p.mediaTable| == |media| && |p.letterTable| == |letters|
    ensures |p.media| == MoodMediaCap || forall m :: m in media && MoodLow in m.triggers ==> m.(lastShown := Some(now)) in p.media
    ensures |p.media| == |MoodMedia(media)|
    ensures forall i :: 0 <= i < |p.media| ==> p.media[i] == MoodMedia(media)[i].(lastShown := Some(now))
    ensures (forall i, j :: 0 <= i < j < |media| ==> media[i].id != media[j].id) ==>
      forall i :: 0 <= i < |media| ==>
        p.mediaTable[i] == if media[i] in MoodMedia(media) then media[i].(lastShown := Some(now)) else media[i]
  {
    var ms := MoodMedia(media);
    var taken := TakeMoodLetter(letters, now);
    ShownAtKeepsAll(ms, now);
    StampedRowsArePickedWhenUnique(media, ms, now);
    MoodPackage(ShownAt(ms, now), taken.0, MarkShown(media, ms, now), taken.1)
  }

  /** With letter ids unique, handing out a low-mood letter leaves exactly
      one fewer waiting. */
  lemma {:induction false} MoodLetterConsumed(media: seq<Media>, letters: seq<Letter>, now: Instant)
    requires forall i, j :: 0 <= i < j < |letters| ==> letters[i].id != letters[j].id
    ensures var p := TriggerMoodMotivation(media, letters, now);
      Waiting(p.letterTable, MoodLow) + |p.letters| == Waiting(letters, MoodLow)
  {
    var p := TriggerMoodMotivation(media, letters, now);
    var r := TakeMoodLetter(letters, now);
    assert p.letters == r.0 && p.letterTable == r.1;
    TakeMoodLetterConsumes(letters, now);
  }

  lemma {:induction false} TakeMoodLetterConsumes(letters: seq<Letter>, now: Instant)
    requires forall i, j :: 0 <= i < j < |letters| ==> letters[i].id != letters[j].id
    ensures var r := TakeMoodLetter(letters, now);
      Waiting(r.1, MoodLow) + |r.0| == Waiting(letters, MoodLow)
  {
    var r := TakeMoodLetter(letters, now);
    if r.0 != [] {
      var k :| IsFirst(letters, ReadyFor(MoodLow), k) && r.0[0] == Delivered(letters[k], now) &&
        forall i :: 0 <= i < |letters| ==> r.1[i] == if letters[i].id == letters[k].id then Delivered(letters[i], now) else letters[i];
      CountAfterDelivering(letters, r.1, k, now, MoodLow);
    }
  }

  lemma {:induction false} CountAfterDelivering(table: seq<Letter>, after: seq<Letter>, k: nat, now: Instant, trigger: string)
    requires k < |table| && ReadyFor(trigger)(table[k])
    requires |after| == |table|
    requires forall i :: 0 <= i < |table| ==> after[i] == if table[i].id == table[k].id then Delivered(table[i], now) else table[i]
    requires forall i, j :: 0 <= i < j < |table| ==> table[i].id != table[j].id
    ensures |Filter(after, ReadyFor(trigger))| + 1 == |Filter(table, ReadyFor(trigger))|
    decreases |table|
  {
    if k == 0 {
      assert after[0] == Delivered(table[0], now);
      assert after[1..] == table[1..] by {
        forall i | 0 <= i < |table| - 1 ensures after[1..][i] == table[1..][i] {
          assert table[i + 1].id != table[0].id;
        }
      }
    } else {
      assert table[0].id != table[k].id;
      assert after[0] == table[0];
      CountAfterDelivering(table[1..], after[1..], k - 1, now, trigger);
    }
  }

  // ---------------------------------------------------------------------
  // Delivering letters
  // ---------------------------------------------------------------------

  /** `_deliver_letter`: the letter is stamped delivered only when its
      email went out; the result says whether it did. */
  function DeliverLetter(l: Letter, now: Instant, sent: Letter -> bool): (r: (bool, Letter))
    ensures r.0 == sent(l)
    ensures r.0 ==> r.1.isDelivered && r.1.deliveredAt == Some(now) && r.1.(isDelivered := l.isDelivered, deliveredAt := l.deliveredAt) == l
    ensures !r.0 ==> r.1 == l
  {
    if sent(l) then (true, Delivered(l, now)) else (false, l)
  }

  /** The letters `deliver_scheduled_letters` attempts: undelivered,
      scheduled, due, and owned by the given user when one is given. */
  predicate IsAttempted(now: Instant, user: Option<nat>, l: Letter) {
    IsDue(now, l) && (user.None? || l.owner == user.value)
  }

  function Attempted(now: Instant, user: Option<nat>): Letter -> bool {
    (l: Letter) => IsAttempted(now, user, l)
  }

  /** Attempted, and its email went out. */
  predicate IsSuccess(now: Instant, user: Option<nat>, sent: Letter -> bool, l: Letter) {
    IsAttempted(now, user, l) && sent(l)
  }

  function Succeeds(now: Instant, user: Option<nat>, sent: Letter -> bool): Letter -> bool {
    (l: Letter) => IsSuccess(now, user, sent, l)
  }

  /** One letter after a run: delivered when attempted and its email went
      out, untouched otherwise. */
  function Settled(l: Letter, now: Instant, user: Option<nat>, sent: Letter -> bool): Letter {
    if Succeeds(now, user, sent)(l) then Delivered(l, now) else l
  }

  /** `deliver_scheduled_letters`: attempts every due scheduled letter
      (of `user`, when given) and counts the emails that went out; a
      letter becomes delivered exactly when its email went out. */
  method DeliverScheduledLetters(letters: seq<Letter>, now: Instant, user: Option<nat>, sent: Letter -> bool)
    returns (count: nat, table: seq<Letter>)
    ensures |table| == |letters|
    ensures count == |Filter(letters, Succeeds(now, user, sent))|
    ensures forall i :: 0 <= i < |letters| ==>
      table[i] == if Succeeds(now, user, sent)(letters[i]) then Delivered(letters[i], now) else letters[i]
    ensures forall i :: 0 <= i < |letters| ==>
      (table[i].isDelivered <==> letters[i].isDelivered || Succeeds(now, user, sent)(letters[i]))
  {
    count := 0;
    table := letters;
    for i := 0 to |letters|
      invariant |table| == |letters|
      invariant count == CountFromBack(letters[..i], Succeeds(now, user, sent))
      invariant forall j :: 0 <= j < i ==> table[j] == Settled(letters[j], now, user, sent)
      invariant forall j :: i <= j < |letters| ==> table[j] == letters[j]
    {
      var x := letters[i];
      assert letters[..i + 1][..i] == letters[..i];
      if Attempted(now, user)(x) {
        var (ok, l) := DeliverLetter(x, now, sent);
        assert ok == Succeeds(now, user, sent)(x) && l == Settled(x, now, user, sent);
        table := table[i := l];
        if ok {
          count := count + 1;
        }
      } else {
        assert !Succeeds(now, user, sent)(x) && x == Settled(x, now, user, sent);
      }
    }
    assert letters[..|letters|] == letters;
    CountFromBackFilters(letters, Succeeds(now, user, sent));
    forall i | 0 <= i < |letters|
      ensures table[i] == if Succeeds(now, user, sent)(letters[i]) then Delivered(letters[i], now) else letters[i]
      ensures table[i].isDelivered <==> letters[i].isDelivered || Succeeds(now, user, sent)(letters[i])
    {
      assert table[i] == Settled(letters[i], now, user, sent);
    }
  }

  /** A second run delivers only letters whose email failed in the first:
      nothing is delivered twice. */
  lemma {:induction false} SecondRunRetriesFailures(letters: seq<Letter>, after: seq<Letter>, now: Instant,
                                                    now2: Instant, user: Option<nat>,
                                                    sent: Letter -> bool, sent2: Letter -> bool, i: nat)
    requires |after| == |letters| && i < |letters|
    requires forall j :: 0 <= j < |letters| ==>
      after[j] == if Succeeds(now, user, sent)(letters[j]) then Delivered(letters[j], now) else letters[j]
    requires Succeeds(now2, user, sent2)(after[i])
    ensures after[i] == letters[i] && !letters[i].isDelivered && !Succeeds(now, user, sent)(letters[i])
  {
    assert Attempted(now2, user)(after[i]);
    assert DueBy(now2)(after[i]);
    assert !after[i].isDelivered;
    var before, saved := letters[i], after[i];
    assert Succeeds(now, user, sent)(before) ==> saved.isDelivered;
  }

  // ---------------------------------------------------------------------
  // Milestones
  // ---------------------------------------------------------------------

  /** The milestone triggers for a completion percentage: "halfway" from
      50 up to (not including) 60, "completion" from 100. */
  function MilestoneTriggers(p: real): (ts: seq<string>)
    ensures Halfway in ts <==> 50.0 <= p < 60.0
    ensures Completion in ts <==> p >= 100.0
    ensures |ts| <= 1
  {
    (if 50.0 <= p < 60.0 then [Halfway] else []) + (if p >= 100.0 then [Completion] else [])
  }

  /** Only the two bands release anything, and never both at once. */
  lemma MilestoneBandsExclusive(p: real)
    ensures forall t :: t in MilestoneTriggers(p) ==> t == Halfway || t == Completion
    ensures (p < 50.0 || 60.0 <= p < 100.0) <==> MilestoneTriggers(p) == []
  {
  }

  /** The user's undelivered letters for the goal and milestone. */
  function MilestoneLetter(user: nat, goalId: nat, trigger: string): Letter -> bool {
    (l: Letter) => l.owner == user && l.goalId == Some(goalId) && l.trigger == trigger && !l.isDelivered
  }

  function MilestoneSuccess(user: nat, goalId: nat, trigger: string, sent: Letter -> bool): Letter -> bool {
    (l: Letter) => MilestoneLetter(user, goalId, trigger)(l) && sent(l)
  }

  /** The letters sent at one milestone, as saved after delivery. */
  function ReleaseLetters(ls: seq<Letter>, now: Instant): (r: seq<Letter>)
    ensures |r| == |ls| && forall i :: 0 <= i < |ls| ==> r[i] == Delivered(ls[i], now)
  {
    seq(|ls|, i requires 0 <= i < |ls| => Delivered(ls[i], now))
  }

  /** Content released by a milestone. */
  datatype Content = LetterContent(letter: Letter) | MediaContent(media: Media)

  function LetterContents(ls: seq<Letter>): (r: seq<Content>)
    ensures |r| == |ls| && forall i :: 0 <= i < |ls| ==> r[i] == LetterContent(ls[i])
  {
    seq(|ls|, i requires 0 <= i < |ls| => LetterContent(ls[i]))
  }

  function MediaContents(ms: seq<Media>): (r: seq<Content>)
    ensures |r| == |ms| && forall i :: 0 <= i < |ms| ==> r[i] == MediaContent(ms[i])
  {
    seq(|ms|, i requires 0 <= i < |ms| => MediaContent(ms[i]))
  }

  /** The media table after a milestone stamps every milestone medium as
      shown now. */
  function MilestoneMediaTable(media: seq<Media>, now: Instant): (r: seq<Media>)
    ensures |r| == |media|
    ensures (forall i, j :: 0 <= i < j < |media| ==> media[i].id != media[j].id) ==>
      forall i :: 0 <= i < |media| ==>
        r[i] == if MilestoneMedia in media[i].triggers then media[i].(lastShown := Some(now)) else media[i]
  {
    var shown := Filter(media, ShownOn(MilestoneMedia));
    StampedRowsArePickedWhenUnique(media, shown, now);
    assert forall i :: 0 <= i < |media| ==> (media[i] in shown <==> MilestoneMedia in media[i].triggers);
    MarkShown(media, shown, now)
  }

  /** What `check_milestone_triggers` returns, with both tables after it
      saves its changes. */
  datatype Milestone = Milestone(content: seq<Content>, letterTable: seq<Letter>, mediaTable: seq<Media>)

  /** `check_milestone_triggers`: at a milestone, each of the user's
      undelivered letters for the goal and milestone is delivered, and
      released, when its email goes out; then every milestone medium is
      stamped as shown and released. Away from the bands nothing changes.
      `completion` is the goal's `completion_percentage`, as computed by
      `Models.CompletionPercentage`. */
  function CheckMilestoneTriggers(user: nat, goalId: nat, completion: real, letters: seq<Letter>,
                                  media: seq<Media>, now: Instant, sent: Letter -> bool): (m: Milestone)
    ensures MilestoneTriggers(completion) == [] ==> m == Milestone([], letters, media)
    ensures |m.letterTable| == |letters| && |m.mediaTable| == |media|
    ensures forall t, i :: t in MilestoneTriggers(completion) && 0 <= i < |letters| ==>
      (m.letterTable[i].isDelivered <==> letters[i].isDelivered || MilestoneSuccess(user, goalId, t, sent)(letters[i]))
    ensures forall i :: 0 <= i < |letters| && !m.letterTable[i].isDelivered ==> m.letterTable[i] == letters[i]
    ensures forall t :: t in MilestoneTriggers(completion) ==>
      |m.content| == |Filter(letters, MilestoneSuccess(user, goalId, t, sent))| + |Filter(media, ShownOn(MilestoneMedia))|
    ensures MilestoneTriggers(completion) != [] && (forall i, j :: 0 <= i < j < |media| ==> media[i].id != media[j].id) ==>
      forall i :: 0 <= i < |media| ==>
        m.mediaTable[i] == if MilestoneMedia in media[i].triggers then media[i].(lastShown := Some(now)) else media[i]
  {
    var ts := MilestoneTriggers(completion);
    if ts == [] then Milestone([], letters, media)
    else
      var succeeds := MilestoneSuccess(user, goalId, ts[0], sent);
      var shown := Filter(media, ShownOn(MilestoneMedia));
      var table := seq(|letters|, i requires 0 <= i < |letters| =>
        if succeeds(letters[i]) then Delivered(letters[i], now) else letters[i]);
      var content := LetterContents(ReleaseLetters(Filter(letters, succeeds), now)) + MediaContents(ShownAt(shown, now));
      assert forall t :: t in ts ==> t == ts[0];
      Milestone(content, table, MilestoneMediaTable(media, now))
  }

  /** Every letter a milestone releases was one of the user's waiting
      letters for the goal whose email went out, and is saved delivered;
      every milestone medium is released, stamped as shown now. */
  lemma {:induction false} MilestoneContent(user: nat, goalId: nat, completion: real, letters: seq<Letter>,
                                            media: seq<Media>, now: Instant, sent: Letter -> bool)
    ensures var m := CheckMilestoneTriggers(user, goalId, completion, letters, media, now, sent);
      forall c :: c in m.content && c.LetterContent? ==>
        exists k :: (0 <= k < |letters| && sent(letters[k]) && !letters[k].isDelivered &&
          letters[k].goalId == Some(goalId) && c.letter == Delivered(letters[k], now) && m.letterTable[k] == c.letter)
    ensures var m := CheckMilestoneTriggers(user, goalId, completion, letters, media, now, sent);
      MilestoneTriggers(completion) != [] ==>
        forall x :: x in media && MilestoneMedia in x.triggers ==> MediaContent(x.(lastShown := Some(now))) in m.content
  {
    MilestoneLettersReleased(user, goalId, completion, letters, media, now, sent);
    MilestoneMediaReleased(user, goalId, completion, letters, media, now, sent);
  }

  lemma {:induction false} MilestoneLettersReleased(user: nat, goalId: nat, completion: real, letters: seq<Letter>,
                                                    media: seq<Media>, now: Instant, sent: Letter -> bool)
    ensures var m := CheckMilestoneTriggers(user, goalId, completion, letters, media, now, sent);
      forall c :: c in m.content && c.LetterContent? ==>
        exists k :: (0 <= k < |letters| && sent(letters[k]) && !letters[k].isDelivered &&
          letters[k].goalId == Some(goalId) && c.letter == Delivered(letters[k], now) && m.letterTable[k] == c.letter)
  {
    var m := CheckMilestoneTriggers(user, goalId, completion, letters, media, now, sent);
    var ts := MilestoneTriggers(completion);
    if ts != [] {
      var succeeds := MilestoneSuccess(user, goalId, ts[0], sent);
      var ok := Filter(letters, succeeds);
      var shown := Filter(media, ShownOn(MilestoneMedia));
      var released := LetterContents(ReleaseLetters(ok, now));
      var rest := MediaContents(ShownAt(shown, now));
      assert m.content == released + rest;
      forall j | |released| <= j < |m.content| ensures m.content[j].MediaContent? {
        assert m.content[j] == rest[j - |released|];
      }
      forall c | c in m.content && c.LetterContent?
        ensures exists k :: (0 <= k < |letters| && sent(letters[k]) && !letters[k].isDelivered &&
          letters[k].goalId == Some(goalId) && c.letter == Delivered(letters[k], now) && m.letterTable[k] == c.letter)
      {
        var q :| 0 <= q < |m.content| && m.content[q] == c;
        assert q < |released|;
        assert ok[q] in ok;
        var k :| 0 <= k < |letters| && letters[k] == ok[q];
        assert succeeds(letters[k]);
      }
    }
  }

  lemma {:induction false} MilestoneMediaReleased(user: nat, goalId: nat, completion: real, letters: seq<Letter>,
                                                  media: seq<Media>, now: Instant, sent: Letter -> bool)
    ensures var m := CheckMilestoneTriggers(user, goalId, completion, letters, media, now, sent);
      MilestoneTriggers(completion) != [] ==>
        forall x :: x in media && MilestoneMedia in x.triggers ==> MediaContent(x.(lastShown := Some(now))) in m.content
  {
    var m := CheckMilestoneTriggers(user, goalId, completion, letters, media, now, sent);
    var ts := MilestoneTriggers(completion);
    if ts != [] {
      var succeeds := MilestoneSuccess(user, goalId, ts[0], sent);
      var ok := Filter(letters, succeeds);
      var shown := Filter(media, ShownOn(MilestoneMedia));
      var released := LetterContents(ReleaseLetters(ok, now));
      var rest := MediaContents(ShownAt(shown, now));
      assert m.content == released + rest;
      forall x | x in media && MilestoneMedia in x.triggers
        ensures MediaContent(x.(lastShown := Some(now))) in rest
      {
        assert ShownOn(MilestoneMedia)(x);
        var k :| 0 <= k < |shown| && shown[k] == x;
        assert rest[k] == MediaContent(x.(lastShown := Some(now)));
      }
    }
  }
}

=== FILE: priority_engine.dfy ===
/** The priority engine: six factor scorers, their weighted blend, the
    ranked daily plan with its score table, the focus recommendations
    drawn from it, and the productivity patterns learned from completed
    activities. The store is passed in as sequences holding one user's
    rows; `now` is the request time. */
module PriorityEngine {
  import opened Basics
  import opened Models

  // ---------------------------------------------------------------------
  // Weights and the blend
  // ---------------------------------------------------------------------

  const WeightDeadline: real := 0.25
  const WeightImpact: real := 0.25
  const WeightEnergy: real := 0.20
  const WeightDependency: real := 0.15
  const WeightPreference: real := 0.10
  const WeightMomentum: real := 0.05

  predicate InUnit(x: real) { 0.0 <= x <= 1.0 }

  predicate FactorsInUnit(f: Factors) {
    InUnit(f.deadline) && InUnit(f.impact) && InUnit(f.energy)
    && InUnit(f.dependency) && InUnit(f.preference) && InUnit(f.momentum)
  }

  /** Every factor of `f` is at most the same factor of `g`. */
  predicate FactorsLe(f: Factors, g: Factors) {
    f.deadline <= g.deadline && f.impact <= g.impact && f.energy <= g.energy
    && f.dependency <= g.dependency && f.preference <= g.preference && f.momentum <= g.momentum
  }

  function Uniform(c: real): Factors {
    Factors(c, c, c, c, c, c)
  }

  /** The weighted sum that becomes an activity's final score. Because the
      weights sum to 1, it is a convex combination of the factors. */
  function Blend(f: Factors): (r: real)
    ensures FactorsInUnit(f) ==> InUnit(r)
    ensures f == Uniform(f.deadline) ==> r == f.deadline
  {
    f.deadline * WeightDeadline + f.impact * WeightImpact + f.energy * WeightEnergy
    + f.dependency * WeightDependency + f.preference * WeightPreference
    + f.momentum * WeightMomentum
  }

  /** An activity whose six factors are all 0.5 scores exactly 0.5. */
  lemma NeutralFactorsScoreHalf()
    ensures Blend(Uniform(0.5)) == 0.5
  {
  }

  /** Raising any factor never lowers the final score. */
  lemma BlendMonotone(f: Factors, g: Factors)
    requires FactorsLe(f, g)
    ensures Blend(f) <= Blend(g)
  {
  }

  // ---------------------------------------------------------------------
  // Deadline urgency
  // ---------------------------------------------------------------------

  /** The urgency of a deadline `days` days away. */
  function UrgencyTier(days: int): (u: real)
    ensures 0.2 <= u <= 1.0
    ensures u == 1.0 <==> days <= 0
    ensures u == 0.2 <==> days > 14
  {
    if days <= 0 then 1.0
    else if days <= 1 then 0.9
    else if days <= 3 then 0.8
    else if days <= 7 then 0.6
    else if days <= 14 then 0.4
    else 0.2
  }

  /** A later deadline is never more urgent. */
  lemma UrgencyTierMonotone(a: int, b: int)
    requires a <= b
    ensures UrgencyTier(a) >= UrgencyTier(b)
  {
  }

  /** An objective that still counts toward urgency: open and dated. */
  predicate OpenDated(o: Objective) {
    o.dueDate.Some? && !o.isCompleted
  }

  /** The earliest due date among open dated objectives (what
      `order_by('due_date').first()` returns). */
  function EarliestOpenDue(objs: seq<Objective>): (r: Option<Date>)
    ensures r.None? <==> forall i :: 0 <= i < |objs| ==> !OpenDated(objs[i])
    ensures r.Some? ==> exists i :: 0 <= i < |objs| && OpenDated(objs[i]) && objs[i].dueDate.value == r.value
    ensures r.Some? ==> forall i :: 0 <= i < |objs| && OpenDated(objs[i]) ==> r.value <= objs[i].dueDate.value
  {
    if |objs| == 0 then None
    else
      var rest := EarliestOpenDue(objs[1..]);
      if !OpenDated(objs[0]) then
        assert forall i :: 1 <= i < |objs| ==> objs[i] == objs[1..][i - 1];
        rest
      else if rest.None? || objs[0].dueDate.value <= rest.value then
        Some(objs[0].dueDate.value)
      else
        assert forall i :: 1 <= i < |objs| ==> objs[i] == objs[1..][i - 1];
        rest
  }

  /** `_calculate_deadline_urgency` over the objectives of the activity's
      goal: 0.5 without an open dated objective, otherwise the urgency of
      the most pressing one. */
  function DeadlineUrgency(objs: seq<Objective>, target: Date): (u: real)
    ensures (forall i :: 0 <= i < |objs| ==> !OpenDated(objs[i])) ==> u == 0.5
    ensures forall i :: 0 <= i < |objs| && OpenDated(objs[i]) ==>
      u >= UrgencyTier(objs[i].dueDate.value - target)
    ensures (exists i :: 0 <= i < |objs| && OpenDated(objs[i])) ==>
      exists i :: 0 <= i < |objs| && OpenDated(objs[i]) && u == UrgencyTier(objs[i].dueDate.value - target)
  {
    match EarliestOpenDue(objs)
    case None => 0.5
    case Some(d) =>
      assert forall i :: 0 <= i < |objs| && OpenDated(objs[i]) ==>
        UrgencyTier(d - target) >= UrgencyTier(objs[i].dueDate.value - target);
      UrgencyTier(d - target)
  }

  // ---------------------------------------------------------------------
  // Goal impact
  // ---------------------------------------------------------------------

  const ImpactCore: seq<string> := ["deep work", "project focus", "skill development"]
  const ImpactSupport: seq<string> := ["planning", "research", "learning"]
  const ImpactHealth: seq<string> := ["exercise", "mindfulness", "reflection"]
  const ImpactBasic: seq<string> := ["sleep", "cooking", "partner time"]

  /** A case-insensitive exact match of the activity type's name against
      four fixed lists. */
  function GoalImpact(typeName: string): (g: real)
    ensures g in {1.0, 0.8, 0.6, 0.4, 0.5}
    ensures Lower(typeName) in ImpactCore <==> g == 1.0
    ensures g == 0.5 <==>
      Lower(typeName) !in ImpactCore + ImpactSupport + ImpactHealth + ImpactBasic
  {
    var n := Lower(typeName);
    if n in ImpactCore then 1.0
    else if n in ImpactSupport then 0.8
    else if n in ImpactHealth then 0.6
    else if n in ImpactBasic then 0.4
    else 0.5
  }

  /** Names differing only in letter case get the same impact. */
  lemma GoalImpactIgnoresCase(a: string, b: string)
    requires Lower(a) == Lower(b)
    ensures GoalImpact(a) == GoalImpact(b)
  {
  }

  /** Deep Work, in any letter case, has the highest impact. */
  lemma DeepWorkHasFullImpact(name: string)
    requires Lower(name) == "deep work"
    ensures GoalImpact(name) == 1.0
  {
    assert ImpactCore[0] == "deep work";
  }

  /** The Kelvin sign lower-cases to 'k', so "DEEP WOR\U{212A}" is Deep
      Work too. */
  lemma KelvinDeepWork()
    ensures GoalImpact("DEEP WOR\U{212A}") == 1.0
  {
    LowerKelvinDeepWork();
    DeepWorkHasFullImpact("DEEP WOR\U{212A}");
  }

  // ---------------------------------------------------------------------
  // Energy alignment
  // ---------------------------------------------------------------------

  /** How well the predicted energy covers the energy the activity needs. */
  function EnergyAlignment(predicted: real, required: int): (a: real)
    ensures predicted >= required as real ==> 0.6 <= a <= 1.0
    ensures predicted < required as real ==> 0.1 <= a < 0.5
    ensures predicted == required as real ==> a == 1.0
  {
    var req := required as real;
    if predicted >= req then
      Max(0.6, 1.0 - (predicted - req) / 10.0)
    else
      Max(0.1, 0.5 - (req - predicted) / 10.0)
  }

  /** With an energy deficit, more predicted energy never lowers the
      alignment. */
  lemma EnergyAlignmentMonotoneInDeficit(p: real, q: real, required: int)
    requires p <= q < required as real
    ensures EnergyAlignment(p, required) <= EnergyAlignment(q, required)
  {
  }

  /** `_get_default_energy_pattern`: the engine's own circadian guess. */
  function DefaultEnergyPattern(hour: int): (e: real)
    ensures 4.0 <= e <= 8.5
    ensures e == 4.0 <==> hour < 6 || hour > 21
    ensures e == 8.5 <==> 10 <= hour <= 12
  {
    if 6 <= hour <= 9 then 7.0
    else if 10 <= hour <= 12 then 8.5
    else if 13 <= hour <= 15 then 6.0
    else if 16 <= hour <= 18 then 7.5
    else if 19 <= hour <= 21 then 6.5
    else 4.0
  }

  const PredictionWindow: int := 30 * SecondsPerDay

  predicate InHourWindow(l: EnergyLog, now: Instant, hour: int) {
    HourOf(l.at) == hour && l.at >= now - PredictionWindow
  }

  function LogLevels(logs: seq<EnergyLog>): (r: seq<real>)
    ensures |r| == |logs|
    ensures forall i :: 0 <= i < |logs| ==> r[i] == logs[i].level as real
  {
    if |logs| == 0 then [] else [logs[0].level as real] + LogLevels(logs[1..])
  }

  function PatternEnergies(ps: seq<Pattern>): (r: seq<real>)
    ensures |r| == |ps|
    ensures forall i :: 0 <= i < |ps| ==> r[i] == ps[i].energyLevel
  {
    if |ps| == 0 then [] else [ps[0].energyLevel] + PatternEnergies(ps[1..])
  }

  function HourLogs(logs: seq<EnergyLog>, now: Instant, hour: int): seq<EnergyLog> {
    Filter(logs, (l: EnergyLog) => InHourWindow(l, now, hour))
  }

  function HourPatterns(ps: seq<Pattern>, hour: int): seq<Pattern> {
    Filter(ps, (p: Pattern) => p.hour == hour)
  }

  /** `_predict_user_energy`: the plain mean of this hour's logs from the
      last 30 days; failing that the mean energy of this hour's patterns
      unless it is 0; failing that the default pattern. */
  function PredictUserEnergy(logs: seq<EnergyLog>, ps: seq<Pattern>, now: Instant, hour: int): (e: real)
    ensures var hl := LogLevels(HourLogs(logs, now, hour));
      |hl| > 0 ==> hl[ArgMin(hl)] <= e <= hl[ArgMax(hl)]
    ensures |HourLogs(logs, now, hour)| == 0 && |HourPatterns(ps, hour)| == 0 ==>
      e == DefaultEnergyPattern(hour)
    ensures var hp := PatternEnergies(HourPatterns(ps, hour));
      |HourLogs(logs, now, hour)| == 0 && |hp| > 0 && Mean(hp) != 0.0 ==>
        hp[ArgMin(hp)] <= e <= hp[ArgMax(hp)]
    ensures var hp := PatternEnergies(HourPatterns(ps, hour));
      |HourLogs(logs, now, hour)| == 0 && (|hp| == 0 || Mean(hp) == 0.0) ==>
        e == DefaultEnergyPattern(hour)
  {
    var hl := LogLevels(HourLogs(logs, now, hour));
    var hp := PatternEnergies(HourPatterns(ps, hour));
    if |hl| > 0 then
      MeanWithinSamples(hl);
      Mean(hl)
    else if |hp| > 0 && Mean(hp) != 0.0 then
      MeanWithinSamples(hp);
      Mean(hp)
    else
      DefaultEnergyPattern(hour)
  }

  /** With logged levels and pattern energies on the 1-10 scale, the
      prediction stays on that scale. */
  lemma PredictUserEnergyInRange(logs: seq<EnergyLog>, ps: seq<Pattern>, now: Instant, hour: int)
    requires forall i :: 0 <= i < |logs| ==> ValidEnergyLevel(logs[i].level)
    requires forall i :: 0 <= i < |ps| ==> 1.0 <= ps[i].energyLevel <= 10.0
    ensures 1.0 <= PredictUserEnergy(logs, ps, now, hour) <= 10.0
  {
    var h := HourLogs(logs, now, hour);
    var hl := LogLevels(h);
    var q := HourPatterns(ps, hour);
    var hp := PatternEnergies(q);
    if |hl| > 0 {
      assert forall i :: 0 <= i < |h| ==> h[i] in h && h[i] in logs;
      MeanBounds(hl, 1.0, 10.0);
    } else if |hp| > 0 {
      assert forall i :: 0 <= i < |q| ==> q[i] in q && q[i] in ps;
      MeanBounds(hp, 1.0, 10.0);
    }
  }

  // ---------------------------------------------------------------------
  // Dependency weight
  // ---------------------------------------------------------------------

  const BlockingKeywords: seq<string> :=
    ["foundation", "setup", "planning", "research", "design", "architecture", "framework"]
  const DependentKeywords: seq<string> := ["polish", "refine", "optimize", "review", "test"]

  /** Some keyword of `keys` occurs in `s`. */
  function ContainsAny(s: string, keys: seq<string>): (b: bool)
    ensures b <==> exists i :: 0 <= i < |keys| && Occurs(keys[i], s)
  {
    if |keys| == 0 then false
    else if Contains(s, keys[0]) then true
    else
      assert forall i :: 1 <= i < |keys| ==> keys[i] == keys[1..][i - 1];
      ContainsAny(s, keys[1..])
  }

  /** Keyword scan of the lower-cased description: blocking keywords win
      over dependent ones. */
  function DependencyWeight(description: string): (w: real)
    ensures w in {0.8, 0.3, 0.5}
    ensures w == 0.8 <==> exists i :: 0 <= i < |BlockingKeywords| && Occurs(BlockingKeywords[i], Lower(description))
    ensures w == 0.3 <==>
      (forall i :: 0 <= i < |BlockingKeywords| ==> !Occurs(BlockingKeywords[i], Lower(description)))
      && exists i :: 0 <= i < |DependentKeywords| && Occurs(DependentKeywords[i], Lower(description))
  {
    var d := Lower(description);
    if ContainsAny(d, BlockingKeywords) then 0.8
    else if ContainsAny(d, DependentKeywords) then 0.3
    else 0.5
  }

  /** A description naming both "planning" and "test" counts as blocking. */
  lemma PlanningOutranksTest(description: string)
    requires Occurs("planning", Lower(description))
    requires Occurs("test", Lower(description))
    ensures DependencyWeight(description) == 0.8
  {
    assert BlockingKeywords[2] == "planning";
  }

  /** A description reading "framework" names a blocking keyword. */
  lemma FrameworkIsBlocking(description: string)
    requires Lower(description) == "framework"
    ensures DependencyWeight(description) == 0.8
  {
    assert OccursAt(BlockingKeywords[6], Lower(description), 0);
  }

  /** "FRAMEWOR\U{212A}" names the blocking keyword "framework". */
  lemma KelvinFramework()
    ensures DependencyWeight("FRAMEWOR\U{212A}") == 0.8
  {
    LowerKelvinFramework();
    FrameworkIsBlocking("FRAMEWOR\U{212A}");
  }


  // ---------------------------------------------------------------------
  // User preference
  // ---------------------------------------------------------------------

  function PatternPerformances(ps: seq<Pattern>): (r: seq<real>)
    ensures |r| == |ps|
    ensures forall i :: 0 <= i < |ps| ==> r[i] == ps[i].averagePerformance
  {
    if |ps| == 0 then [] else [ps[0].averagePerformance] + PatternPerformances(ps[1..])
  }

  function TypePatterns(ps: seq<Pattern>, typeName: string): seq<Pattern> {
    Filter(ps, (p: Pattern) => p.typeName == typeName)
  }

  function TypeActivities(acts: seq<Activity>, typeName: string): seq<Activity> {
    Filter(acts, (a: Activity) => a.typeName == typeName)
  }

  function IsDone(a: Activity): bool { a.isCompleted }

  /** `_calculate_user_preference`: the clamped mean performance of the
      type's patterns; without patterns, the completed share of all the
      user's activities of that type; without those, 0.5. */
  function UserPreference(ps: seq<Pattern>, acts: seq<Activity>, typeName: string): (p: real)
    ensures InUnit(p)
    ensures |TypePatterns(ps, typeName)| == 0 && |TypeActivities(acts, typeName)| == 0 ==> p == 0.5
    ensures var ta := TypeActivities(acts, typeName);
      |TypePatterns(ps, typeName)| == 0 && |ta| > 0 ==>
        (p == 1.0 <==> forall i :: 0 <= i < |ta| ==> ta[i].isCompleted)
    ensures var ta := TypeActivities(acts, typeName);
      |TypePatterns(ps, typeName)| == 0 && |ta| > 0 ==>
        (p == 0.0 <==> forall i :: 0 <= i < |ta| ==> !ta[i].isCompleted)
    ensures var ta := TypeActivities(acts, typeName);
      |TypePatterns(ps, typeName)| == 0 && |ta| > 0 ==> p == Count(ta, IsDone) as real / |ta| as real
    ensures var pp := PatternPerformances(TypePatterns(ps, typeName));
      |pp| > 0 ==> p == 0.0 || p == 1.0 || pp[ArgMin(pp)] <= p <= pp[ArgMax(pp)]
    ensures var pp := PatternPerformances(TypePatterns(ps, typeName));
      |pp| > 0 && p == 0.0 ==> pp[ArgMin(pp)] <= 0.0
    ensures var pp := PatternPerformances(TypePatterns(ps, typeName));
      |pp| > 0 && p == 1.0 ==> pp[ArgMax(pp)] >= 1.0
  {
    var tp := TypePatterns(ps, typeName);
    var ta := TypeActivities(acts, typeName);
    if |tp| > 0 then PerformanceShare(PatternPerformances(tp))
    else if |ta| > 0 then CompletionShare(ta)
    else 0.5
  }

  /** The mean performance clamped to [0, 1]: a sample mean unless it was
      cut at either end. */
  function PerformanceShare(pp: seq<real>): (p: real)
    requires |pp| > 0
    ensures InUnit(p)
    ensures p == 0.0 || p == 1.0 || pp[ArgMin(pp)] <= p <= pp[ArgMax(pp)]
    ensures p == 0.0 ==> pp[ArgMin(pp)] <= 0.0
    ensures p == 1.0 ==> pp[ArgMax(pp)] >= 1.0
  {
    MeanWithinSamples(pp);
    Clamp(Mean(pp), 0.0, 1.0)
  }

  /** The completed share of a non-empty list of activities. */
  function CompletionShare(ta: seq<Activity>): (p: real)
    requires |ta| > 0
    ensures InUnit(p)
    ensures p == Count(ta, IsDone) as real / |ta| as real
    ensures p == 1.0 <==> forall i :: 0 <= i < |ta| ==> ta[i].isCompleted
    ensures p == 0.0 <==> forall i :: 0 <= i < |ta| ==> !ta[i].isCompleted
  {
    var done := Count(ta, IsDone);
    var d, n := done as real, |ta| as real;
    FractionBounds(d, n);
    assert d == n <==> done == |ta|;
    assert d == 0.0 <==> done == 0;
    d / n
  }

  // ---------------------------------------------------------------------
  // Momentum
  // ---------------------------------------------------------------------

  /** `_get_complementary_activities`: an exact-name, one-directional map. */
  function ComplementaryActivities(name: string): (r: seq<string>)
    ensures |r| <= 3
    ensures name !in {"Deep Work", "Exercise", "Learning", "Planning", "Research", "Mindfulness", "Reflection"}
      ==> r == []
  {
    if name == "Deep Work" then ["Planning", "Research", "Learning"]
    else if name == "Exercise" then ["Mindfulness", "Sleep", "Cooking"]
    else if name == "Learning" then ["Deep Work", "Reflection", "Practice"]
    else if name == "Planning" then ["Deep Work", "Research"]
    else if name == "Research" then ["Deep Work", "Planning", "Learning"]
    else if name == "Mindfulness" then ["Exercise", "Reflection", "Sleep"]
    else if name == "Reflection" then ["Mindfulness", "Planning", "Learning"]
    else []
  }

  /** The map is not symmetric: Sleep complements Exercise, not the other
      way round. */
  lemma ComplementIsOneWay()
    ensures "Sleep" in ComplementaryActivities("Exercise")
    ensures "Exercise" !in ComplementaryActivities("Sleep")
  {
  }

  const MomentumWindow: int := 2 * SecondsPerDay

  predicate RecentlyCompleted(a: Activity, now: Instant) {
    a.isCompleted && a.completedAt.Some? && a.completedAt.value >= now - MomentumWindow
  }

  function RecentCompletions(acts: seq<Activity>, now: Instant): seq<Activity> {
    Filter(acts, (a: Activity) => RecentlyCompleted(a, now))
  }

  function SameType(acts: seq<Activity>, typeName: string): seq<Activity> {
    Filter(acts, (a: Activity) => a.typeName == typeName)
  }

  function OfTypes(acts: seq<Activity>, names: seq<string>): seq<Activity> {
    Filter(acts, (a: Activity) => a.typeName in names)
  }

  /** `_calculate_momentum_factor` from the user's completions of the last
      two days. */
  function Momentum(acts: seq<Activity>, now: Instant, typeName: string): (m: real)
    ensures |RecentCompletions(acts, now)| == 0 ==> m == 0.5
    ensures |SameType(RecentCompletions(acts, now), typeName)| > 0 ==> 0.5 < m <= 0.8
    ensures |SameType(RecentCompletions(acts, now), typeName)| == 2 ==> m == 0.7
    ensures |SameType(RecentCompletions(acts, now), typeName)| >= 3 ==> m == 0.8
    ensures m == 0.6 <==>
      |SameType(RecentCompletions(acts, now), typeName)| == 1
      || (|SameType(RecentCompletions(acts, now), typeName)| == 0
          && |OfTypes(RecentCompletions(acts, now), ComplementaryActivities(typeName))| > 0)
    ensures m == 0.4 <==>
      |RecentCompletions(acts, now)| > 0
      && |SameType(RecentCompletions(acts, now), typeName)| == 0
      && |OfTypes(RecentCompletions(acts, now), ComplementaryActivities(typeName))| == 0
  {
    var recent := RecentCompletions(acts, now);
    if |recent| == 0 then 0.5
    else
      var same := |SameType(recent, typeName)|;
      if same > 0 then 0.5 + Min(0.3, same as real * 0.1)
      else if |OfTypes(recent, ComplementaryActivities(typeName))| > 0 then 0.6
      else 0.4
  }

  // ---------------------------------------------------------------------
  // Scoring one activity
  // ---------------------------------------------------------------------

  /** The rows of one user's store that the engine reads. The score table,
      which it only writes, is passed separately, so no factor can depend
      on it. */
  datatype Store = Store(
    goals: seq<Goal>,
    objectives: seq<Objective>,
    periods: seq<Period>,
    activities: seq<Activity>,
    energyLogs: seq<EnergyLog>,
    patterns: seq<Pattern>)

  /** One entry of the ranked plan: the activity, its factors and its
      final score. */
  datatype Ranked = Ranked(activity: Activity, factors: Factors, finalScore: real)

  function FinalScoreOf(x: Ranked): real { x.finalScore }

  function ActivityIdOf(x: Ranked): nat { x.activity.id }

  function GoalObjectives(objs: seq<Objective>, goalId: nat): seq<Objective> {
    Filter(objs, (o: Objective) => o.goalId == goalId)
  }

  /** The least and the greatest factors any activity can receive. */
  const FloorFactors: Factors := Factors(0.2, 0.4, 0.1, 0.3, 0.0, 0.4)
  const CeilingFactors: Factors := Factors(1.0, 1.0, 1.0, 0.8, 1.0, 0.8)

  /** The six factors and the blended score of one activity of the goal
      `goalId`, for the day `target`, as seen at `now`. */
  function ScoreActivity(s: Store, goalId: nat, a: Activity, target: Date, now: Instant): (x: Ranked)
    ensures x.activity == a
    ensures ScoredWell(x)
    ensures FactorsLe(FloorFactors, x.factors) && FactorsLe(x.factors, CeilingFactors)
    ensures 0.235 <= x.finalScore <= 0.96
  {
    var f := Factors(
      DeadlineUrgency(GoalObjectives(s.objectives, goalId), target),
      GoalImpact(a.typeName),
      EnergyAlignment(PredictUserEnergy(s.energyLogs, s.patterns, now, a.start / 60), a.energyRequired),
      DependencyWeight(a.description),
      UserPreference(s.patterns, s.activities, a.typeName),
      Momentum(s.activities, now, a.typeName));
    BlendMonotone(FloorFactors, f);
    BlendMonotone(f, CeilingFactors);
    Ranked(a, f, Blend(f))
  }

  function ScoreAll(s: Store, goalId: nat, acts: seq<Activity>, target: Date, now: Instant): (r: seq<Ranked>)
    ensures |r| == |acts|
    ensures forall i :: 0 <= i < |acts| ==> r[i].activity == acts[i] && ScoredWell(r[i])
  {
    seq(|acts|, i requires 0 <= i < |acts| => ScoreActivity(s, goalId, acts[i], target, now))
  }

  // ---------------------------------------------------------------------
  // The score table
  // ---------------------------------------------------------------------

  function RowOf(x: Ranked): ScoreRow {
    ScoreRow(x.activity.id, x.factors, x.finalScore)
  }

  /** The score row of an activity, if it has one. */
  function RowFor(rows: seq<ScoreRow>, id: nat): (r: Option<ScoreRow>)
    ensures r.None? <==> forall i :: 0 <= i < |rows| ==> rows[i].activityId != id
    ensures r.Some? ==> r.value in rows && r.value.activityId == id
  {
    if |rows| == 0 then None
    else if rows[0].activityId == id then Some(rows[0])
    else
      assert forall i :: 1 <= i < |rows| ==> rows[i] == rows[1..][i - 1];
      RowFor(rows[1..], id)
  }

  /** `get_or_create` on the activity, then overwrite every column. */
  function UpsertScore(rows: seq<ScoreRow>, row: ScoreRow): (r: seq<ScoreRow>)
    ensures forall i :: 0 <= i < |r| ==> r[i] == row || r[i] in rows
    ensures RowFor(r, row.activityId) == Some(row)
    ensures forall id :: id != row.activityId ==> RowFor(r, id) == RowFor(rows, id)
    ensures ScoreKeysUnique(rows) ==> ScoreKeysUnique(r)
  {
    if |rows| == 0 then [row]
    else if rows[0].activityId == row.activityId then [row] + rows[1..]
    else
      var rest := UpsertScore(rows[1..], row);
      UpsertConsUnique(rows, row, rest);
      assert ([rows[0]] + rest)[1..] == rest;
      [rows[0]] + rest
  }

  lemma {:induction false} UpsertConsUnique(rows: seq<ScoreRow>, row: ScoreRow, rest: seq<ScoreRow>)
    requires |rows| > 0 && rows[0].activityId != row.activityId
    requires forall i :: 0 <= i < |rest| ==> rest[i] == row || rest[i] in rows[1..]
    requires ScoreKeysUnique(rows[1..]) ==> ScoreKeysUnique(rest)
    ensures ScoreKeysUnique(rows) ==> ScoreKeysUnique([rows[0]] + rest)
  {
    if ScoreKeysUnique(rows) {
      var r := [rows[0]] + rest;
      assert ScoreKeysUnique(rows[1..]);
      forall j | 1 <= j < |r| ensures r[0].activityId != r[j].activityId {
        assert r[j] == rest[j - 1];
        if r[j] != row {
          var m :| 0 <= m < |rows[1..]| && rows[1..][m] == r[j];
          assert rows[m + 1] == r[j];
        }
      }
      forall i, j | 1 <= i < j < |r| ensures r[i].activityId != r[j].activityId {
        assert r[i] == rest[i - 1] && r[j] == rest[j - 1];
      }
    }
  }

  /** Writes the score rows of `xs` in order. */
  function UpsertAll(rows: seq<ScoreRow>, xs: seq<Ranked>): (r: seq<ScoreRow>)
    decreases |xs|
    ensures ScoreKeysUnique(rows) ==> ScoreKeysUnique(r)
    ensures forall id :: (forall i :: 0 <= i < |xs| ==> xs[i].activity.id != id) ==> RowFor(r, id) == RowFor(rows, id)
    ensures KeysDistinct(xs, ActivityIdOf) ==>
      forall i :: 0 <= i < |xs| ==> RowFor(r, xs[i].activity.id) == Some(RowOf(xs[i]))
  {
    if |xs| == 0 then rows
    else
      var next := UpsertScore(rows, RowOf(xs[0]));
      var r := UpsertAll(next, xs[1..]);
      assert forall i :: 1 <= i < |xs| ==> xs[i] == xs[1..][i - 1];
      assert KeysDistinct(xs, ActivityIdOf) ==>
        forall i :: 0 <= i < |xs| ==> RowFor(r, xs[i].activity.id) == Some(RowOf(xs[i])) by {
        if KeysDistinct(xs, ActivityIdOf) {
          assert KeysDistinct(xs[1..], ActivityIdOf);
          assert forall i :: 0 <= i < |xs[1..]| ==> xs[1..][i].activity.id != xs[0].activity.id;
        }
      }
      r
  }

  // ---------------------------------------------------------------------
  // calculate_daily_priorities
  // ---------------------------------------------------------------------

  predicate IsActiveGoal(g: Goal) { g.status == ActiveGoal }

  /** An active period of goal `g`. */
  function ActivePeriodOf(g: Goal): Period -> bool {
    (p: Period) => p.isActive && p.goalId == g.id
  }

  /** The first active goal and its first active period, if both exist;
      no plan when the first active goal has no active period, even if a
      later active goal has one. */
  function DayPlan(s: Store): (r: Option<(Goal, Period)>)
    ensures r.Some? ==> IsActiveGoal(r.value.0) && r.value.0 in s.goals
    ensures r.Some? ==> r.value.1.isActive && r.value.1.goalId == r.value.0.id && r.value.1 in s.periods
    ensures (forall i :: 0 <= i < |s.goals| ==> !IsActiveGoal(s.goals[i])) ==> r.None?
    ensures forall k :: IsFirst(s.goals, IsActiveGoal, k) ==>
      (r.None? <==> forall j :: 0 <= j < |s.periods| ==> !ActivePeriodOf(s.goals[k])(s.periods[j]))
    ensures forall k :: IsFirst(s.goals, IsActiveGoal, k) && r.Some? ==>
      r.value.0 == s.goals[k] && exists j :: IsFirst(s.periods, ActivePeriodOf(s.goals[k]), j) && r.value.1 == s.periods[j]
  {
    match First(s.goals, IsActiveGoal)
    case None => None
    case Some(g) =>
      match First(s.periods, ActivePeriodOf(g))
      case None => None
      case Some(p) => Some((g, p))
  }

  /** The period day that `target` falls on: the start date is day 1. */
  function DayOfPeriod(p: Period, target: Date): int {
    target - p.startDate + 1
  }

  function ActivitiesOfDay(acts: seq<Activity>, p: Period, target: Date): seq<Activity> {
    Filter(acts, (a: Activity) => a.periodId == p.id && a.day == DayOfPeriod(p, target))
  }

  /** The day's activities with their scores, in store order. */
  function Scored(s: Store, target: Date, now: Instant): (xs: seq<Ranked>)
    ensures DayPlan(s).None? ==> xs == []
    ensures DayPlan(s).Some? ==> |xs| == |ActivitiesOfDay(s.activities, DayPlan(s).value.1, target)|
    ensures DayPlan(s).Some? ==> forall i :: 0 <= i < |xs| ==>
      xs[i].activity == ActivitiesOfDay(s.activities, DayPlan(s).value.1, target)[i]
    ensures forall i :: 0 <= i < |xs| ==> ScoredWell(xs[i])
  {
    match DayPlan(s)
    case None => []
    case Some((g, p)) => ScoreAll(s, g.id, ActivitiesOfDay(s.activities, p, target), target, now)
  }

  /** A final score that is the blend of six factors in [0, 1]. */
  predicate ScoredWell(x: Ranked) {
    x.finalScore == Blend(x.factors) && FactorsInUnit(x.factors)
  }

  ghost predicate ActivityIdsUnique(acts: seq<Activity>) {
    forall i, j :: 0 <= i < j < |acts| ==> acts[i].id != acts[j].id
  }

  lemma ScoredIdsDistinct(s: Store, target: Date, now: Instant)
    requires ActivityIdsUnique(s.activities)
    ensures KeysDistinct(Scored(s, target, now), ActivityIdOf)
  {
    match DayPlan(s)
    case None =>
    case Some((g, p)) =>
      var acts := ActivitiesOfDay(s.activities, p, target);
      assert KeysDistinct(s.activities, (a: Activity) => a.id);
      FilterKeepsDistinct(s.activities, (a: Activity) => a.periodId == p.id && a.day == DayOfPeriod(p, target), (a: Activity) => a.id);
  }

  /** `calculate_daily_priorities`, its returned list: the day's scored
      activities sorted by descending final score, ties kept in store
      order; empty when there is no active goal or period. */
  function RankedDay(s: Store, target: Date, now: Instant): (ranked: seq<Ranked>)
    ensures DayPlan(s).None? ==> ranked == []
    ensures multiset(ranked) == multiset(Scored(s, target, now))
    ensures SortedDesc(ranked, FinalScoreOf)
    ensures forall k :: WithKey(ranked, FinalScoreOf, k) == WithKey(Scored(s, target, now), FinalScoreOf, k)
    ensures forall i :: 0 <= i < |ranked| ==> ScoredWell(ranked[i])
  {
    var xs := Scored(s, target, now);
    var ranked := SortDesc(xs, FinalScoreOf);
    PermutationKeeps(ranked, xs, ScoredWell);
    ranked
  }

  /** `calculate_daily_priorities`, its writes: the score table after one
      row per scored activity has been created or overwritten. */
  function ScoreTable(s: Store, scores: seq<ScoreRow>, target: Date, now: Instant): (rows: seq<ScoreRow>)
    ensures DayPlan(s).None? ==> rows == scores
    ensures ScoreKeysUnique(scores) ==> ScoreKeysUnique(rows)
    ensures ActivityIdsUnique(s.activities) ==> forall i :: 0 <= i < |Scored(s, target, now)| ==>
      RowFor(rows, Scored(s, target, now)[i].activity.id) == Some(RowOf(Scored(s, target, now)[i]))
    ensures forall id :: (forall i :: 0 <= i < |Scored(s, target, now)| ==> Scored(s, target, now)[i].activity.id != id) ==>
      RowFor(rows, id) == RowFor(scores, id)
  {
    var xs := Scored(s, target, now);
    assert ActivityIdsUnique(s.activities) ==> KeysDistinct(xs, ActivityIdOf) by {
      if ActivityIdsUnique(s.activities) { ScoredIdsDistinct(s, target, now); }
    }
    UpsertAll(scores, xs)
  }

  /** Running the engine again on its own output rewrites every score row
      with the values it already holds. */
  lemma DailyPrioritiesIdempotent(s: Store, scores: seq<ScoreRow>, target: Date, now: Instant)
    requires ActivityIdsUnique(s.activities)
    ensures var once := ScoreTable(s, scores, target, now);
      forall id :: RowFor(ScoreTable(s, once, target, now), id) == RowFor(once, id)
  {
  }

  // ---------------------------------------------------------------------
  // Focus recommendations
  // ---------------------------------------------------------------------

  /** One line of advice; the wording and emoji of each are left out. */
  datatype Advice =
    | FocusOn(description: string)
    | HighEnergy(level: real)
    | LowEnergy(level: real)
    | MorningDeepWork
    | PostLunchLight
    | UrgentTasks(count: nat)
    | KeepMomentum
    | NoActivePeriod

  datatype Focus = Focus(primary: Option<Ranked>, secondary: seq<Ranked>, all: seq<Ranked>, advice: seq<Advice>)

  predicate IsUrgent(x: Ranked) { x.factors.deadline > 0.7 }

  predicate HasMomentum(x: Ranked) { x.factors.momentum > 0.6 }

  function EnergyAdvice(predicted: real): seq<Advice> {
    if predicted >= 7.0 then [HighEnergy(predicted)]
    else if predicted <= 4.0 then [LowEnergy(predicted)]
    else []
  }

  function TimeAdvice(hour: int): seq<Advice> {
    if 6 <= hour <= 10 then [MorningDeepWork]
    else if 14 <= hour <= 16 then [PostLunchLight]
    else []
  }

  function UrgentCount(ranked: seq<Ranked>): nat {
    |Filter(ranked, IsUrgent)|
  }

  function UrgentAdvice(ranked: seq<Ranked>): seq<Advice> {
    if UrgentCount(ranked) > 0 then [UrgentTasks(UrgentCount(ranked))] else []
  }

  function MomentumAdvice(ranked: seq<Ranked>): seq<Advice> {
    if |Filter(ranked, HasMomentum)| > 0 then [KeepMomentum] else []
  }

  /** `_generate_focus_recommendations` for a non-empty ranking, given
      the energy predicted for the current hour. */
  function FocusAdvice(ranked: seq<Ranked>, predicted: real, hour: int): (adv: seq<Advice>)
    requires |ranked| > 0
    ensures |adv| > 0 && adv[0] == FocusOn(ranked[0].activity.description)
    ensures NoActivePeriod !in adv
  {
    var f := [FocusOn(ranked[0].activity.description)];
    var e, t := EnergyAdvice(predicted), TimeAdvice(hour);
    var u, m := UrgentAdvice(ranked), MomentumAdvice(ranked);
    assert NoActivePeriod !in f && NoActivePeriod !in e && NoActivePeriod !in t;
    assert NoActivePeriod !in u && NoActivePeriod !in m;
    f + e + t + u + m
  }

  /** The energy lines of the advice: high or low energy (never both)
      from the predicted level. */
  lemma FocusAdviceEnergy(ranked: seq<Ranked>, predicted: real, hour: int)
    requires |ranked| > 0
    ensures var adv := FocusAdvice(ranked, predicted, hour);
      && (HighEnergy(predicted) in adv <==> predicted >= 7.0)
      && (LowEnergy(predicted) in adv <==> predicted <= 4.0)
  {
    var f := [FocusOn(ranked[0].activity.description)];
    var e, t := EnergyAdvice(predicted), TimeAdvice(hour);
    var u, m := UrgentAdvice(ranked), MomentumAdvice(ranked);
    assert FocusAdvice(ranked, predicted, hour) == f + e + t + u + m;
    assert HighEnergy(predicted) !in f && LowEnergy(predicted) !in f;
    assert HighEnergy(predicted) !in t && LowEnergy(predicted) !in t;
    assert HighEnergy(predicted) !in u && LowEnergy(predicted) !in u;
    assert HighEnergy(predicted) !in m && LowEnergy(predicted) !in m;
  }

  /** The time-of-day lines of the advice: morning deep work or
      post-lunch light work, from the hour. */
  lemma FocusAdviceTime(ranked: seq<Ranked>, predicted: real, hour: int)
    requires |ranked| > 0
    ensures var adv := FocusAdvice(ranked, predicted, hour);
      && (MorningDeepWork in adv <==> 6 <= hour <= 10)
      && (PostLunchLight in adv <==> 14 <= hour <= 16)
  {
    var f := [FocusOn(ranked[0].activity.description)];
    var e, t := EnergyAdvice(predicted), TimeAdvice(hour);
    var u, m := UrgentAdvice(ranked), MomentumAdvice(ranked);
    assert FocusAdvice(ranked, predicted, hour) == f + e + t + u + m;
    assert MorningDeepWork !in f && PostLunchLight !in f;
    assert MorningDeepWork !in e && PostLunchLight !in e;
    assert MorningDeepWork !in u && PostLunchLight !in u;
    assert MorningDeepWork !in m && PostLunchLight !in m;
  }

  /** Some element satisfies `p` exactly when filtering by `p` keeps one. */
  lemma SomeKept(ranked: seq<Ranked>, p: Ranked -> bool)
    ensures |Filter(ranked, p)| > 0 <==> exists i :: 0 <= i < |ranked| && p(ranked[i])
  {
  }

  /** The momentum line of the advice: present exactly when some activity
      carries momentum. */
  lemma FocusAdviceMomentum(ranked: seq<Ranked>, predicted: real, hour: int)
    requires |ranked| > 0
    ensures KeepMomentum in FocusAdvice(ranked, predicted, hour) <==>
      exists i :: 0 <= i < |ranked| && HasMomentum(ranked[i])
  {
    var f := [FocusOn(ranked[0].activity.description)];
    var e, t := EnergyAdvice(predicted), TimeAdvice(hour);
    var u, m := UrgentAdvice(ranked), MomentumAdvice(ranked);
    assert FocusAdvice(ranked, predicted, hour) == f + e + t + u + m;
    assert KeepMomentum !in f && KeepMomentum !in e && KeepMomentum !in t && KeepMomentum !in u;
    SomeKept(ranked, HasMomentum);
  }

  /** The deadline line of the advice: one line naming how many
      activities are urgent, present exactly when any is. */
  lemma FocusAdviceUrgent(ranked: seq<Ranked>, predicted: real, hour: int)
    requires |ranked| > 0
    ensures var adv := FocusAdvice(ranked, predicted, hour);
      && (forall n :: UrgentTasks(n) in adv ==> n == |Filter(ranked, IsUrgent)| && n > 0)
      && ((exists i :: 0 <= i < |ranked| && IsUrgent(ranked[i])) <==> UrgentTasks(|Filter(ranked, IsUrgent)|) in adv)
  {
    var f := [FocusOn(ranked[0].activity.description)];
    var e, t := EnergyAdvice(predicted), TimeAdvice(hour);
    var u, m := UrgentAdvice(ranked), MomentumAdvice(ranked);
    var adv := FocusAdvice(ranked, predicted, hour);
    assert adv == f + e + t + u + m;
    forall n ensures UrgentTasks(n) !in f + e + t && UrgentTasks(n) !in m {
    }
    SomeKept(ranked, IsUrgent);
  }

  /** `get_focus_recommendations`: the top activity, the next two, and the
      advice; a single "no active period" line when nothing is ranked. */
  function FocusRecommendations(ranked: seq<Ranked>, predicted: real, hour: int): (f: Focus)
    ensures ranked == [] ==> f == Focus(None, [], [], [NoActivePeriod])
    ensures ranked != [] ==> f.primary == Some(ranked[0]) && f.all == ranked
    ensures |ranked| > 0 ==> |f.secondary| == if |ranked| < 3 then |ranked| - 1 else 2
    ensures forall i :: 0 <= i < |f.secondary| ==> f.secondary[i] == ranked[i + 1]
    ensures SortedDesc(ranked, FinalScoreOf) && ranked != [] ==>
      forall i :: 0 <= i < |ranked| ==> ranked[i].finalScore <= f.primary.value.finalScore
    ensures ranked != [] ==> NoActivePeriod !in f.advice
  {
    if |ranked| == 0 then Focus(None, [], [], [NoActivePeriod])
    else
      var top := ranked[..if |ranked| < 3 then |ranked| else 3];
      var secondary := if |top| > 1 then top[1..] else [];
      Focus(Some(top[0]), secondary, ranked, FocusAdvice(ranked, predicted, hour))
  }

  /** The energy and time lines of a non-empty ranking's advice. */
  lemma FocusLines(ranked: seq<Ranked>, predicted: real, hour: int)
    ensures var adv := FocusRecommendations(ranked, predicted, hour).advice;
      ranked != [] ==>
        && (HighEnergy(predicted) in adv <==> predicted >= 7.0)
        && (LowEnergy(predicted) in adv <==> predicted <= 4.0)
        && (MorningDeepWork in adv <==> 6 <= hour <= 10)
        && (PostLunchLight in adv <==> 14 <= hour <= 16)
  {
    if ranked != [] {
      FocusAdviceEnergy(ranked, predicted, hour);
      FocusAdviceTime(ranked, predicted, hour);
    }
  }

  /** `get_focus_recommendations` as the service calls it: the day's
      ranking, the energy predicted for the current hour (the date plays
      no part in the prediction) and the current hour. */
  function CurrentFocus(s: Store, target: Date, now: Instant): (f: Focus)
    ensures var ranked := RankedDay(s, target, now);
      && (ranked == [] ==> f.advice == [NoActivePeriod])
      && (ranked != [] ==> f.primary == Some(ranked[0]) && f.all == ranked)
    ensures var e := PredictUserEnergy(s.energyLogs, s.patterns, now, HourOf(now));
      RankedDay(s, target, now) != [] ==>
        && (HighEnergy(e) in f.advice <==> e >= 7.0)
        && (LowEnergy(e) in f.advice <==> e <= 4.0)
        && (MorningDeepWork in f.advice <==> 6 <= HourOf(now) <= 10)
        && (PostLunchLight in f.advice <==> 14 <= HourOf(now) <= 16)
  {
    var ranked := RankedDay(s, target, now);
    var e := PredictUserEnergy(s.energyLogs, s.patterns, now, HourOf(now));
    FocusLines(ranked, e, HourOf(now));
    FocusRecommendations(ranked, e, HourOf(now))
  }

  /** When every reading logged at this hour of the day in the last 30
      days is 7 or more, the advice says energy is high. */
  lemma HighEnergyHourAdvised(s: Store, target: Date, now: Instant)
    requires RankedDay(s, target, now) != []
    requires |HourLogs(s.energyLogs, now, HourOf(now))| > 0
    requires forall l :: l in HourLogs(s.energyLogs, now, HourOf(now)) ==> l.level >= 7
    ensures HighEnergy(PredictUserEnergy(s.energyLogs, s.patterns, now, HourOf(now))) in CurrentFocus(s, target, now).advice
  {
    var h := HourLogs(s.energyLogs, now, HourOf(now));
    var hl := LogLevels(h);
    assert h[ArgMin(hl)] in h;
  }

  /** When every such reading is 4 or less, the advice says energy is
      low. */
  lemma LowEnergyHourAdvised(s: Store, target: Date, now: Instant)
    requires RankedDay(s, target, now) != []
    requires |HourLogs(s.energyLogs, now, HourOf(now))| > 0
    requires forall l :: l in HourLogs(s.energyLogs, now, HourOf(now)) ==> l.level <= 4
    ensures LowEnergy(PredictUserEnergy(s.energyLogs, s.patterns, now, HourOf(now))) in CurrentFocus(s, target, now).advice
  {
    var h := HourLogs(s.energyLogs, now, HourOf(now));
    var hl := LogLevels(h);
    assert h[ArgMax(hl)] in h;
  }

  // ---------------------------------------------------------------------
  // Performance score
  // ---------------------------------------------------------------------

  /** The quality shift: (quality - 3) / 10 when a non-zero quality is
      recorded. */
  function QualityShift(a: Activity): (q: real)
    ensures a.quality.None? || a.quality == Some(0) ==> q == 0.0
    ensures a.quality.Some? && 1 <= a.quality.value <= 5 ==> -0.2 <= q <= 0.2
  {
    if a.quality.Some? && a.quality.value != 0 then (a.quality.value - 3) as real * 0.1 else 0.0
  }

  /** The timing shift: +0.2 within 20% of the scheduled duration, -0.2
      beyond 150% of it, 0 otherwise or when either duration is 0. */
  function TimingShift(a: Activity): (t: real)
    ensures t in {0.2, 0.0, -0.2}
    ensures ActualDurationMinutes(a).None? ==> t == 0.0
    ensures a.durationMinutes == 0 ==> t == 0.0
  {
    match ActualDurationMinutes(a)
    case None => 0.0
    case Some(actual) =>
      if actual != 0 && a.durationMinutes != 0 then
        var ratio := actual as real / a.durationMinutes as real;
        if 0.8 <= ratio <= 1.2 then 0.2
        else if ratio > 1.5 then -0.2
        else 0.0
      else 0.0
  }

  /** An activity that took exactly its scheduled time gets the bonus. */
  lemma OnScheduleEarnsBonus(a: Activity)
    requires ActualDurationMinutes(a) == Some(a.durationMinutes)
    requires a.durationMinutes != 0
    ensures TimingShift(a) == 0.2
  {
    var d := a.durationMinutes as real;
    assert d / d == 1.0;
  }

  /** `_calculate_performance_score`. */
  function PerformanceScore(a: Activity): (p: real)
    ensures InUnit(p)
    ensures QualityShift(a) == 0.0 && TimingShift(a) == 0.0 ==> p == 0.5
    ensures ValidActivity(a) ==> p == 0.5 + QualityShift(a) + TimingShift(a)
  {
    Clamp(0.5 + QualityShift(a) + TimingShift(a), 0.0, 1.0)
  }

  /** A better completion rating never lowers the performance score. */
  lemma PerformanceMonotoneInQuality(a: Activity, q1: int, q2: int)
    requires 1 <= q1 <= q2
    ensures PerformanceScore(a.(quality := Some(q1))) <= PerformanceScore(a.(quality := Some(q2)))
  {
    var a1 := a.(quality := Some(q1));
    var a2 := a.(quality := Some(q2));
    assert TimingShift(a1) == TimingShift(a2);
    assert ActualDurationMinutes(a1) == ActualDurationMinutes(a2);
    ClampMonotone(0.5 + QualityShift(a1) + TimingShift(a1), 0.5 + QualityShift(a2) + TimingShift(a2), 0.0, 1.0);
  }

  // ---------------------------------------------------------------------
  // Productivity patterns
  // ---------------------------------------------------------------------

  /** The stored average after one more sample: (avg * n + x) / (n + 1). */
  function RunningMean(avg: real, n: nat, x: real): (r: real)
    ensures Min(avg, x) <= r <= Max(avg, x)
  {
    var m := n as real;
    var r := (avg * m + x) / (m + 1.0);
    assert r * (m + 1.0) == avg * m + x;
    BetweenByWeights(avg, m, x, r);
    r
  }

  lemma BetweenByWeights(avg: real, m: real, x: real, r: real)
    requires m >= 0.0 && r * (m + 1.0) == avg * m + x
    ensures Min(avg, x) <= r <= Max(avg, x)
  {
    var lo, hi := Min(avg, x), Max(avg, x);
    MulLeft(lo, avg, m);
    MulLeft(avg, hi, m);
    assert lo * (m + 1.0) == lo * m + lo && hi * (m + 1.0) == hi * m + hi;
    assert lo * (m + 1.0) <= r * (m + 1.0) <= hi * (m + 1.0);
    if r < lo { MulPositive(lo - r, m + 1.0); }
    if r > hi { MulPositive(r - hi, m + 1.0); }
  }

  lemma MulLeft(a: real, b: real, m: real)
    requires a <= b && m >= 0.0
    ensures a * m <= b * m
  {
    if a < b && m > 0.0 { MulPositive(b - a, m); }
  }

  /** The average a pattern holds after it was created with the first of
      `xs` and updated with each of the rest in turn. */
  function IncrementalMean(xs: seq<real>): real
    requires |xs| > 0
  {
    if |xs| == 1 then xs[0]
    else RunningMean(IncrementalMean(xs[..|xs| - 1]), |xs| - 1, xs[|xs| - 1])
  }

  /** The incremental updates compute the plain mean of every sample seen. */
  lemma {:induction false} IncrementalMeanIsMean(xs: seq<real>)
    requires |xs| > 0
    ensures IncrementalMean(xs) == Mean(xs)
  {
    if |xs| == 1 {
      assert xs[1..] == [];
      assert Sum(xs) == xs[0] + Sum([]);
    } else {
      var prefix := xs[..|xs| - 1];
      IncrementalMeanIsMean(prefix);
      MeanStep(prefix, xs[|xs| - 1]);
      assert prefix + [xs[|xs| - 1]] == xs;
    }
  }

  /** Folding one sample into the mean of the others gives the mean of all. */
  lemma MeanStep(prefix: seq<real>, x: real)
    requires |prefix| > 0
    ensures RunningMean(Mean(prefix), |prefix|, x) == Mean(prefix + [x])
  {
    var total := Sum(prefix);
    var m := |prefix| as real;
    RunningMeanOfMean(total, m, x);
    SumAppend(prefix, x);
    assert |prefix + [x]| as real == m + 1.0;
  }

  lemma RunningMeanOfMean(total: real, m: real, x: real)
    requires m >= 1.0
    ensures ((total / m) * m + x) / (m + 1.0) == (total + x) / (m + 1.0)
  {
    assert (total / m) * m == total;
  }

  predicate SameKey(p: Pattern, hour: int, typeName: string) {
    p.hour == hour && p.typeName == typeName
  }

  /** Where the pattern for an hour and activity type is stored, if it
      exists. */
  function PatternIndex(ps: seq<Pattern>, hour: int, typeName: string): (r: Option<nat>)
    ensures r.None? <==> forall i :: 0 <= i < |ps| ==> !SameKey(ps[i], hour, typeName)
    ensures r.Some? ==> r.value < |ps| && SameKey(ps[r.value], hour, typeName)
  {
    if |ps| == 0 then None
    else if SameKey(ps[0], hour, typeName) then Some(0)
    else
      match PatternIndex(ps[1..], hour, typeName)
      case None =>
        assert forall i :: 1 <= i < |ps| ==> ps[i] == ps[1..][i - 1];
        None
      case Some(k) => Some(k + 1)
  }

  function TotalSamples(ps: seq<Pattern>): nat {
    if |ps| == 0 then 0 else ps[0].sampleSize + TotalSamples(ps[1..])
  }

  lemma {:induction false} TotalSamplesAppend(ps: seq<Pattern>, p: Pattern)
    ensures TotalSamples(ps + [p]) == TotalSamples(ps) + p.sampleSize
  {
    if |ps| > 0 {
      assert (ps + [p])[1..] == ps[1..] + [p];
      TotalSamplesAppend(ps[1..], p);
    }
  }

  lemma {:induction false} TotalSamplesUpdate(ps: seq<Pattern>, k: nat, p: Pattern)
    requires k < |ps|
    ensures TotalSamples(ps[k := p]) + ps[k].sampleSize == TotalSamples(ps) + p.sampleSize
  {
    if k > 0 {
      assert ps[k := p][1..] == ps[1..][k - 1 := p];
      TotalSamplesUpdate(ps[1..], k - 1, p);
    }
  }

  function NewPattern(hour: int, typeName: string, perf: real, energy: int): Pattern {
    Pattern(hour, typeName, perf, energy as real, 1.0, 1)
  }

  function FoldSample(p: Pattern, perf: real): Pattern {
    p.(averagePerformance := RunningMean(p.averagePerformance, p.sampleSize, perf), sampleSize := p.sampleSize + 1)
  }

  /** `get_or_create` on (hour, type): a missing pattern is created from
      the first sample; an existing one folds the sample into its average
      and nothing else in the table changes. */
  function UpsertPattern(ps: seq<Pattern>, hour: int, typeName: string, perf: real, energy: int): (r: seq<Pattern>)
    ensures PatternIndex(ps, hour, typeName).None? ==>
      |r| == |ps| + 1 && r[..|ps|] == ps && r[|ps|] == NewPattern(hour, typeName, perf, energy)
    ensures PatternIndex(ps, hour, typeName).Some? ==>
      var k := PatternIndex(ps, hour, typeName).value;
      |r| == |ps| && r[k] == FoldSample(ps[k], perf)
      && forall i :: 0 <= i < |ps| && i != k ==> r[i] == ps[i]
    ensures TotalSamples(r) == TotalSamples(ps) + 1
  {
    match PatternIndex(ps, hour, typeName)
    case None =>
      TotalSamplesAppend(ps, NewPattern(hour, typeName, perf, energy));
      assert (ps + [NewPattern(hour, typeName, perf, energy)])[..|ps|] == ps;
      ps + [NewPattern(hour, typeName, perf, energy)]
    case Some(k) =>
      TotalSamplesUpdate(ps, k, FoldSample(ps[k], perf));
      ps[k := FoldSample(ps[k], perf)]
  }

  /** The upsert keeps (hour, type) unique, so each pair has exactly one
      pattern afterwards. */
  lemma UpsertPatternKeepsKeysUnique(ps: seq<Pattern>, hour: int, typeName: string, perf: real, energy: int)
    requires PatternKeysUnique(ps)
    ensures var r := UpsertPattern(ps, hour, typeName, perf, energy);
      PatternKeysUnique(r) && PatternIndex(r, hour, typeName).Some?
  {
    var r := UpsertPattern(ps, hour, typeName, perf, energy);
    if PatternIndex(ps, hour, typeName).None? {
      assert SameKey(r[|ps|], hour, typeName);
      forall i, j | 0 <= i < j < |r| ensures (r[i].hour, r[i].typeName) != (r[j].hour, r[j].typeName) {
        if j < |ps| {
          assert r[i] == ps[i] && r[j] == ps[j];
        } else {
          assert r[i] == ps[i];
          assert !SameKey(ps[i], hour, typeName);
        }
      }
    } else {
      var k := PatternIndex(ps, hour, typeName).value;
      assert SameKey(r[k], hour, typeName);
      forall i, j | 0 <= i < j < |r| ensures (r[i].hour, r[i].typeName) != (r[j].hour, r[j].typeName) {
        assert (r[i].hour, r[i].typeName) == (ps[i].hour, ps[i].typeName);
        assert (r[j].hour, r[j].typeName) == (ps[j].hour, ps[j].typeName);
      }
    }
  }

  /** With samples in [0, 1], stored averages stay in [0, 1], and stored
      hours stay valid when the new hour is. */
  lemma UpsertPatternKeepsRanges(ps: seq<Pattern>, hour: int, typeName: string, perf: real, energy: int)
    requires InUnit(perf) && 0 <= hour <= 23
    requires forall i :: 0 <= i < |ps| ==> InUnit(ps[i].averagePerformance) && ValidPattern(ps[i])
    ensures var r := UpsertPattern(ps, hour, typeName, perf, energy);
      forall i :: 0 <= i < |r| ==> InUnit(r[i].averagePerformance) && ValidPattern(r[i])
  {
    var r := UpsertPattern(ps, hour, typeName, perf, energy);
    if PatternIndex(ps, hour, typeName).None? {
      assert forall i :: 0 <= i < |ps| ==> r[i] == ps[i];
    }
  }

  predicate CompletedWithin(a: Activity, now: Instant) {
    a.isCompleted && a.completedAt.Some? && a.completedAt.value >= now - PredictionWindow
  }

  function CompletedRecently(acts: seq<Activity>, now: Instant): seq<Activity> {
    Filter(acts, (a: Activity) => CompletedWithin(a, now))
  }

  /** Every activity has a completion time. */
  predicate AllStamped(done: seq<Activity>) {
    forall i :: 0 <= i < |done| ==> done[i].completedAt.Some?
  }

  /** The patterns after folding in `done`, one completed activity after
      the other, each into the pattern of its completion hour and type. */
  function FoldActivities(ps: seq<Pattern>, done: seq<Activity>): (r: seq<Pattern>)
    requires AllStamped(done)
    ensures TotalSamples(r) == TotalSamples(ps) + |done|
    ensures PatternKeysUnique(ps) ==> PatternKeysUnique(r)
    ensures PatternsInRange(ps) ==> PatternsInRange(r)
    decreases |done|
  {
    if |done| == 0 then ps
    else
      var a := done[|done| - 1];
      var before := FoldActivities(ps, done[..|done| - 1]);
      var hour := HourOf(a.completedAt.value);
      var after := UpsertPattern(before, hour, a.typeName, PerformanceScore(a), a.energyRequired);
      assert PatternKeysUnique(before) ==> PatternKeysUnique(after) by {
        if PatternKeysUnique(before) {
          UpsertPatternKeepsKeysUnique(before, hour, a.typeName, PerformanceScore(a), a.energyRequired);
        }
      }
      assert PatternsInRange(before) ==> PatternsInRange(after) by {
        if PatternsInRange(before) {
          UpsertPatternKeepsRanges(before, hour, a.typeName, PerformanceScore(a), a.energyRequired);
        }
      }
      after
  }

  /** Every stored average lies in [0, 1] and every pattern is valid. */
  predicate PatternsInRange(ps: seq<Pattern>) {
    forall i :: 0 <= i < |ps| ==> InUnit(ps[i].averagePerformance) && ValidPattern(ps[i])
  }

  /** Folding one activity more is one more upsert on the result. */
  lemma FoldActivitiesSnoc(ps: seq<Pattern>, done: seq<Activity>, a: Activity)
    requires AllStamped(done) && a.completedAt.Some?
    ensures AllStamped(done + [a])
    ensures FoldActivities(ps, done + [a]) ==
      UpsertPattern(FoldActivities(ps, done), HourOf(a.completedAt.value), a.typeName, PerformanceScore(a), a.energyRequired)
  {
    assert (done + [a])[..|done|] == done;
  }

  /** Folding the first `k + 1` activities is one upsert more than
      folding the first `k`. */
  lemma FoldActivitiesStep(ps: seq<Pattern>, done: seq<Activity>, k: nat)
    requires AllStamped(done) && k < |done|
    ensures AllStamped(done[..k]) && AllStamped(done[..k + 1])
    ensures FoldActivities(ps, done[..k + 1]) ==
      UpsertPattern(FoldActivities(ps, done[..k]), HourOf(done[k].completedAt.value), done[k].typeName,
                    PerformanceScore(done[k]), done[k].energyRequired)
  {
    assert done[..k + 1][..k] == done[..k];
  }

  /** The activities completed in the last 30 days all carry a
      completion time. */
  lemma CompletedRecentlyStamped(acts: seq<Activity>, now: Instant)
    ensures AllStamped(CompletedRecently(acts, now))
  {
    var done := CompletedRecently(acts, now);
    forall i | 0 <= i < |done| ensures done[i].completedAt.Some? {
      assert done[i] in done;
    }
  }

  /** `update_productivity_patterns`: folds every activity completed in
      the last 30 days into the pattern of its completion hour and type,
      and returns how many it folded in. */
  method UpdateProductivityPatterns(ps: seq<Pattern>, acts: seq<Activity>, now: Instant)
    returns (r: seq<Pattern>, updated: nat)
    ensures updated == |CompletedRecently(acts, now)|
    ensures AllStamped(CompletedRecently(acts, now)) && r == FoldActivities(ps, CompletedRecently(acts, now))
    ensures TotalSamples(r) == TotalSamples(ps) + updated
    ensures PatternKeysUnique(ps) ==> PatternKeysUnique(r)
    ensures PatternsInRange(ps) ==> PatternsInRange(r)
  {
    var done := CompletedRecently(acts, now);
    CompletedRecentlyStamped(acts, now);
    r := ps;
    updated := 0;
    var k := 0;
    assert done[..0] == [];
    while k < |done|
      invariant 0 <= k <= |done| && updated == k
      invariant AllStamped(done) && AllStamped(done[..k]) && r == FoldActivities(ps, done[..k])
    {
      var a := done[k];
      FoldActivitiesStep(ps, done, k);
      r := UpsertPattern(r, HourOf(a.completedAt.value), a.typeName, PerformanceScore(a), a.energyRequired);
      updated := updated + 1;
      k := k + 1;
    }
    assert done[..k] == done;
  }

}

=== FILE: schedule.dfy ===
/** The basic schedule a goal gets when no plan is generated for it: a new
    period spanning the goal's dates that becomes the goal's only active
    period, and the same twelve-slot day repeated for every day of it. */
module Schedule {
  import opened Basics
  import opened Models

  /** An ActivityType the basic schedule may create, with the defaults it
      is created with. */
  datatype Kind = Kind(name: string, defaultMinutes: nat)

  /** One line of the daily template. */
  datatype Slot = Slot(name: string, start: Minute, end: Minute)

  /** The new period, the period table after it is saved, and the
      activities created in it. */
  datatype Generated = Generated(period: Period, periods: seq<Period>, activities: seq<Activity>)

  const SlotsPerDay: nat := 12
  /** The `energy_required` a ScheduledActivity gets when none is given. */
  const DefaultEnergy: int := 5

  function Kinds(): seq<Kind> {
    [Kind("Sleep", 480), Kind("Deep Work", 240), Kind("Exercise", 60), Kind("Mindfulness", 15),
     Kind("Cooking", 30), Kind("Partner Time", 90), Kind("Reflection", 15)]
  }

  predicate KnownKind(name: string) {
    exists k :: k in Kinds() && k.name == name
  }

  function At(h: int, m: int): Minute { h * 60 + m }

  /** Line `k` of the daily template, naming one of the known activity
      types and starting before it ends. */
  function TemplateSlot(k: nat): (s: Slot)
    requires k < SlotsPerDay
    ensures ValidTime(s.start) && ValidTime(s.end) && s.start < s.end
    ensures KnownKind(s.name)
  {
    var ks := Kinds();
    match k
    case 0 => assert ks[0] in ks; Slot(ks[0].name, At(0, 0), At(7, 0))
    case 1 => assert ks[3] in ks; Slot(ks[3].name, At(7, 0), At(7, 15))
    case 2 => assert ks[2] in ks; Slot(ks[2].name, At(7, 15), At(8, 15))
    case 3 => assert ks[4] in ks; Slot(ks[4].name, At(8, 15), At(8, 45))
    case 4 => assert ks[1] in ks; Slot(ks[1].name, At(9, 0), At(12, 0))
    case 5 => assert ks[4] in ks; Slot(ks[4].name, At(12, 0), At(12, 30))
    case 6 => assert ks[1] in ks; Slot(ks[1].name, At(13, 0), At(16, 0))
    case 7 => assert ks[2] in ks; Slot(ks[2].name, At(16, 0), At(17, 0))
    case 8 => assert ks[4] in ks; Slot(ks[4].name, At(17, 0), At(17, 30))
    case 9 => assert ks[5] in ks; Slot(ks[5].name, At(18, 0), At(20, 0))
    case 10 => assert ks[6] in ks; Slot(ks[6].name, At(20, 0), At(20, 15))
    case _ => assert ks[0] in ks; Slot(ks[0].name, At(23, 0), At(23, 59))
  }

  /** Each template line ends no later than the next one starts. */
  lemma TemplateSlotsOrdered(k: nat)
    requires k + 1 < SlotsPerDay
    ensures TemplateSlot(k).end <= TemplateSlot(k + 1).start
  {
    if k == 0 {} else if k == 1 {} else if k == 2 {} else if k == 3 {}
    else if k == 4 {} else if k == 5 {} else if k == 6 {} else if k == 7 {}
    else if k == 8 {} else if k == 9 {} else {}
  }

  /** The daily template: twelve slots in time order, each starting before
      it ends and none overlapping the next, each naming a known activity
      type. */
  function DailyTemplate(): (t: seq<Slot>)
    ensures |t| == SlotsPerDay
    ensures forall k :: 0 <= k < |t| ==>
      ValidTime(t[k].start) && ValidTime(t[k].end) && t[k].start < t[k].end
    ensures forall k :: 0 <= k < |t| - 1 ==> t[k].end <= t[k + 1].start
    ensures forall k :: 0 <= k < |t| ==> KnownKind(t[k].name)
  {
    var t := seq(SlotsPerDay, k requires 0 <= k < SlotsPerDay => TemplateSlot(k));
    assert forall k | 0 <= k < |t| - 1 :: t[k].end <= t[k + 1].start by {
      forall k | 0 <= k < |t| - 1 ensures t[k].end <= t[k + 1].start {
        TemplateSlotsOrdered(k);
      }
    }
    t
  }

  /** Template slots in time order never overlap, not just neighbours. */
  lemma {:induction false} TemplateDisjoint(j: nat, k: nat)
    requires j < k < SlotsPerDay
    ensures DailyTemplate()[j].end <= DailyTemplate()[k].start
    decreases k - j
  {
    var t := DailyTemplate();
    if j + 1 < k {
      TemplateDisjoint(j + 1, k);
      assert t[j].end <= t[j + 1].start < t[j + 1].end;
    }
  }

  /** Minutes from `start` to `end`, counting an end before the start as
      falling on the next day. */
  function SlotDuration(start: Minute, end: Minute): (d: int)
    requires ValidTime(start) && ValidTime(end)
    ensures 0 <= d < MinutesPerDay
    ensures (start + d) % MinutesPerDay == end
  {
    var e := if end < start then end + MinutesPerDay else end;
    e - start
  }

  /** The duration is the only one in a day that reaches the end from the
      start. */
  lemma {:induction false} SlotDurationUnique(start: Minute, end: Minute, d: int)
    requires ValidTime(start) && ValidTime(end)
    requires 0 <= d < MinutesPerDay && (start + d) % MinutesPerDay == end
    ensures d == SlotDuration(start, end)
  {
    var s := SlotDuration(start, end);
    var q1 := (start + d) / MinutesPerDay;
    var q2 := (start + s) / MinutesPerDay;
    assert start + d == q1 * MinutesPerDay + end;
    assert start + s == q2 * MinutesPerDay + end;
    assert 0 <= q1 <= 1 && 0 <= q2 <= 1;
  }

  /** `f"Day {day} - {name}"`. */
  function Description(day: nat, name: string): string {
    "Day " + NatToDecimal(day) + " - " + name
  }

  /** The day number and the activity name can both be read back out of a
      description. */
  lemma DescriptionReadsBack(day: nat, name: string)
    ensures var d := Description(day, name); var n := |NatToDecimal(day)|;
      |d| == 7 + n + |name| && d[..4] == "Day " &&
      DecimalValue(d[4..4 + n]) == day && d[4 + n..7 + n] == " - " && d[7 + n..] == name
  {
    var d := Description(day, name);
    var n := |NatToDecimal(day)|;
    assert d[4..4 + n] == NatToDecimal(day);
    DecimalRoundTrip(day);
  }

  /** Number of days from `start` to `end` inclusive, none when the end
      comes first. */
  function DayCount(start: Date, end: Date): (n: nat)
    ensures start <= end ==> n == end - start + 1
    ensures end < start ==> n == 0
  {
    if end < start then 0 else end - start + 1
  }

  /** The activity for slot `k` of day `day` (counted from 1). */
  function Entry(periodId: nat, firstId: nat, day: nat, k: nat): (a: Activity)
    requires 1 <= day && k < SlotsPerDay
  {
    var s := DailyTemplate()[k];
    Activity(firstId + (day - 1) * SlotsPerDay + k, periodId, s.name, day, s.start, s.end,
             SlotDuration(s.start, s.end), Description(day, s.name),
             false, None, None, None, DefaultEnergy, None)
  }

  /** Slot `i % 12` of day `i / 12 + 1`: the activity at position `i`. */
  function EntryAt(periodId: nat, firstId: nat, i: nat): Activity {
    Entry(periodId, firstId, i / SlotsPerDay + 1, i % SlotsPerDay)
  }

  /** The position of the first slot of `day`. */
  function FirstOfDay(day: nat): nat
    requires day >= 1
  {
    (day - 1) * SlotsPerDay
  }

  lemma DivModSlots(day: nat, k: nat)
    requires 1 <= day && k < SlotsPerDay
    ensures (FirstOfDay(day) + k) / SlotsPerDay == day - 1
    ensures (FirstOfDay(day) + k) % SlotsPerDay == k
  {
  }

  /** Slot `k` of `day` sits at position `FirstOfDay(day) + k`. */
  lemma EntryAtDay(periodId: nat, firstId: nat, day: nat, k: nat)
    requires 1 <= day && k < SlotsPerDay
    ensures EntryAt(periodId, firstId, FirstOfDay(day) + k) == Entry(periodId, firstId, day, k)
  {
    DivModSlots(day, k);
  }

  lemma NextDay(day: nat)
    requires day >= 1
    ensures FirstOfDay(day + 1) == FirstOfDay(day) + SlotsPerDay
  {
  }

  function Entries(periodId: nat, firstId: nat): nat -> Activity {
    (i: nat) => EntryAt(periodId, firstId, i)
  }

  /** Position `i` of `acts` holds slot `i % 12` of day `i / 12 + 1`. */
  ghost predicate Expanded(periodId: nat, firstId: nat, acts: seq<Activity>) {
    Tabulates(acts, Entries(periodId, firstId))
  }

  /** Appending the next slot keeps the expansion in place. */
  lemma ExpandedSnoc(periodId: nat, firstId: nat, acts: seq<Activity>, day: nat, k: nat)
    requires 1 <= day && k < SlotsPerDay && |acts| == FirstOfDay(day) + k
    requires Expanded(periodId, firstId, acts)
    ensures Expanded(periodId, firstId, acts + [Entry(periodId, firstId, day, k)])
  {
    EntryAtDay(periodId, firstId, day, k);
    assert Entries(periodId, firstId)(|acts|) == Entry(periodId, firstId, day, k);
    TabulatesSnoc(acts, Entries(periodId, firstId), Entry(periodId, firstId, day, k));
  }

  /** The activities of `days` days: slot `i % 12` of day `i / 12 + 1` at
      position `i`. */
  method ExpandTemplate(periodId: nat, firstId: nat, days: nat) returns (acts: seq<Activity>)
    ensures |acts| == SlotsPerDay * days
    ensures forall i :: 0 <= i < |acts| ==> acts[i] == Entry(periodId, firstId, i / SlotsPerDay + 1, i % SlotsPerDay)
  {
    acts := [];
    var day := 1;
    while day <= days
      invariant 1 <= day <= days + 1
      invariant |acts| == FirstOfDay(day)
      invariant Expanded(periodId, firstId, acts)
    {
      acts := AppendDay(periodId, firstId, day, acts);
      day := day + 1;
    }
    assert FirstOfDay(day) == SlotsPerDay * days;
    forall i | 0 <= i < |acts|
      ensures acts[i] == Entry(periodId, firstId, i / SlotsPerDay + 1, i % SlotsPerDay)
    {
      assert acts[i] == Entries(periodId, firstId)(i);
    }
  }

  /** Appends the twelve template slots of `day` to the earlier days. */
  method AppendDay(periodId: nat, firstId: nat, day: nat, before: seq<Activity>) returns (acts: seq<Activity>)
    requires day >= 1 && |before| == FirstOfDay(day)
    requires Expanded(periodId, firstId, before)
    ensures |acts| == FirstOfDay(day + 1)
    ensures Expanded(periodId, firstId, acts)
  {
    acts := before;
    var k := 0;
    while k < SlotsPerDay
      invariant 0 <= k <= SlotsPerDay
      invariant |acts| == FirstOfDay(day) + k
      invariant Expanded(periodId, firstId, acts)
    {
      ExpandedSnoc(periodId, firstId, acts, day, k);
      acts := acts + [Entry(periodId, firstId, day, k)];
      k := k + 1;
    }
    NextDay(day);
  }

  /** Sets `is_active` to false on every period of the goal except the one
      with id `keep`. */
  function DeactivateOthers(ps: seq<Period>, goalId: nat, keep: nat): (r: seq<Period>)
    ensures |r| == |ps|
    ensures forall i :: 0 <= i < |ps| ==>
      r[i] == if ps[i].goalId == goalId && ps[i].id != keep then ps[i].(isActive := false) else ps[i]
  {
    seq(|ps|, i requires 0 <= i < |ps| =>
      if ps[i].goalId == goalId && ps[i].id != keep then ps[i].(isActive := false) else ps[i])
  }

  /** `generate_basic_schedule`: creates and saves an active period over
      the goal's dates, switches the goal's other periods off, and fills
      the period with the template for each of its days. Ids for the new
      rows are inputs. */
  method GenerateBasicSchedule(goal: Goal, periods: seq<Period>, periodId: nat, firstActivityId: nat)
    returns (g: Generated)
    requires !HasId(periods, periodId)
    ensures g.period == Period(periodId, goal.id, goal.startDate, goal.endDate, true)
    ensures g.period in g.periods
    ensures forall q :: q in g.periods && q.goalId == goal.id && q.isActive ==> q == g.period
    ensures forall q :: q in periods && q.goalId != goal.id ==> q in g.periods
    ensures forall q :: q in g.periods && q.id != periodId ==>
      q in periods || (q.goalId == goal.id && !q.isActive && q.(isActive := true) in periods)
    ensures |g.activities| == SlotsPerDay * DayCount(goal.startDate, goal.endDate)
    ensures forall i :: 0 <= i < |g.activities| ==>
      g.activities[i] == Entry(periodId, firstActivityId, i / SlotsPerDay + 1, i % SlotsPerDay)
  {
    var p := Period(periodId, goal.id, goal.startDate, goal.endDate, true);
    var saved := SavePeriod(periods, p);
    var ps := DeactivateOthers(saved, goal.id, periodId);
    assert p in ps by {
      var i :| 0 <= i < |saved| && saved[i].id == periodId;
      assert ps[i] == p;
    }
    forall q | q in ps && q.goalId == goal.id && q.isActive ensures q == p {
      var i :| 0 <= i < |ps| && ps[i] == q;
      assert saved[i].id == periodId;
    }
    var base := Deactivate(periods, goal.id);
    assert saved == base + [p];
    forall q | q in periods && q.goalId != goal.id ensures q in ps {
      var i :| 0 <= i < |periods| && periods[i] == q;
      assert base[i] == q && saved[i] == q && ps[i] == q;
    }
    forall q | q in ps && q.id != periodId
      ensures q in periods || (q.goalId == goal.id && !q.isActive && q.(isActive := true) in periods)
    {
      var i :| 0 <= i < |ps| && ps[i] == q;
      assert i < |base|;
      if periods[i].goalId == goal.id {
        assert q == periods[i].(isActive := false);
        if periods[i].isActive {
          assert q.(isActive := true) == periods[i];
        } else {
          assert q == periods[i];
        }
      }
    }
    var acts := ExpandTemplate(periodId, firstActivityId, DayCount(goal.startDate, goal.endDate));
    g := Generated(p, ps, acts);
  }

  /** Every day of the schedule holds the twelve template slots in time
      order: two activities of one day never overlap, and every duration
      is the plain difference of its times. */
  lemma {:induction false} ScheduleDaysDisjoint(periodId: nat, firstId: nat, acts: seq<Activity>, i: nat, j: nat)
    requires forall m :: 0 <= m < |acts| ==> acts[m] == Entry(periodId, firstId, m / SlotsPerDay + 1, m % SlotsPerDay)
    requires i < j < |acts| && acts[i].day == acts[j].day
    ensures acts[i].end <= acts[j].start
    ensures acts[i].durationMinutes == acts[i].end - acts[i].start
    ensures acts[i].day >= 1 && acts[i].description == Description(acts[i].day, acts[i].typeName)
  {
    assert i % SlotsPerDay < j % SlotsPerDay;
    TemplateDisjoint(i % SlotsPerDay, j % SlotsPerDay);
  }

  /** Every generated activity has its own id and its own description. */
  lemma {:induction false} ScheduleEntriesDistinct(periodId: nat, firstId: nat, acts: seq<Activity>, i: nat, j: nat)
    requires forall m :: 0 <= m < |acts| ==> acts[m] == Entry(periodId, firstId, m / SlotsPerDay + 1, m % SlotsPerDay)
    requires i < j < |acts|
    ensures acts[i].id != acts[j].id
    ensures acts[i].day != acts[j].day || acts[i].start != acts[j].start
    ensures 1 <= acts[i].day <= acts[j].day
  {
    var di, dj := i / SlotsPerDay, j / SlotsPerDay;
    assert acts[i].id == firstId + i && acts[j].id == firstId + j;
    if di == dj {
      TemplateDisjoint(i % SlotsPerDay, j % SlotsPerDay);
    }
  }
}

=== FILE: support_service.dfy ===
/** The support network: deciding from the daily logs that a user needs
    encouragement, and notifying the user's support contacts by email,
    with a 24-hour guard against repeating a notification, the contacts'
    per-trigger preferences, and records kept only for emails that went
    out. Whether an email goes out is an input (`delivered`). */
module SupportService {
  import opened Basics
  import opened Models

  // ---------------------------------------------------------------------
  // Records
  // ---------------------------------------------------------------------

  /** The notification triggers a record may carry. */
  const MoodLow: string := "mood_low"
  const MissedActivities: string := "missed_activities"
  const AdherenceDrop: string := "adherence_drop"
  const EmergencyTrigger: string := "emergency"

  /** A SupportContact: notification preferences map a trigger name to a
      JSON value whose truthiness switches that trigger on or off. */
  datatype Contact = Contact(id: nat, isActive: bool, emergency: bool, preferences: Mapping)

  /** The message a notification record stores: one of the four written
      templates, the generic fallback, or the text of an emergency request
      ("Emergency support requested: " followed by the user's words). */
  datatype Message =
    | MoodLowMessage
    | AdherenceDropMessage
    | MissedActivitiesMessage
    | EmergencyMessage
    | GenericMessage
    | EmergencyRequest(userText: string)

  /** A SupportNotification row of one user. */
  datatype Notification = Notification(contactId: nat, trigger: string, message: Message, sentAt: Instant)

  /** What a notifying operation returns, with the user's notification
      table afterwards. */
  datatype Outcome = Outcome(result: bool, notes: seq<Notification>)

  /** Logs from this many days before today onward are "recent". */
  const TriggerWindowDays: int := 3
  /** A trigger is not notified twice within this many seconds. */
  const RepeatWindow: int := 24 * SecondsPerHour

  // ---------------------------------------------------------------------
  // Reading the daily logs
  // ---------------------------------------------------------------------

  function MoodRated(today: Date): DailyLog -> bool {
    (l: DailyLog) => l.date >= today - TriggerWindowDays && l.mood.Some?
  }

  function AdherenceRated(today: Date): DailyLog -> bool {
    (l: DailyLog) => l.date >= today - TriggerWindowDays && l.adherence.Some?
  }

  function MoodOf(l: DailyLog): real {
    match l.mood
    case Some(m) => m as real
    case None => 0.0
  }

  function AdherenceOf(l: DailyLog): real {
    match l.adherence
    case Some(a) => a as real
    case None => 0.0
  }

  function Moods(logs: seq<DailyLog>): (r: seq<real>)
    ensures |r| == |logs|
    ensures forall i :: 0 <= i < |logs| ==> r[i] == MoodOf(logs[i])
  {
    if |logs| == 0 then [] else [MoodOf(logs[0])] + Moods(logs[1..])
  }

  function Adherences(logs: seq<DailyLog>): (r: seq<real>)
    ensures |r| == |logs|
    ensures forall i :: 0 <= i < |logs| ==> r[i] == AdherenceOf(logs[i])
  {
    if |logs| == 0 then [] else [AdherenceOf(logs[0])] + Adherences(logs[1..])
  }

  /** The first log of the `-log_date` ordering: one with the latest date. */
  function Latest(logs: seq<DailyLog>): (l: DailyLog)
    requires |logs| > 0
    ensures l in logs
    ensures forall m :: m in logs ==> m.date <= l.date
  {
    if |logs| == 1 then logs[0]
    else
      var rest := Latest(logs[1..]);
      assert forall m :: m in logs ==> m == logs[0] || m in logs[1..];
      if logs[0].date >= rest.date then logs[0] else rest
  }

  /** The mood check's verdict: some rated log is recent, and either the
      latest recent mood is at most 2 or the recent moods average at most
      2.5. */
  predicate MoodLowDetected(logs: seq<DailyLog>, today: Date) {
    var recent := Filter(logs, MoodRated(today));
    |recent| > 0 && (MoodOf(Latest(recent)) <= 2.0 || Mean(Moods(recent)) <= 2.5)
  }

  /** The adherence check's verdict: some adherence-scored log is recent
      and the recent scores average at most 6. */
  predicate AdherenceDropDetected(logs: seq<DailyLog>, today: Date) {
    var recent := Filter(logs, AdherenceRated(today));
    |recent| > 0 && Mean(Adherences(recent)) <= 6.0
  }

  /** A run of recent ratings all at 2 or below always raises the mood
      check. */
  lemma AllLowMoodsDetected(logs: seq<DailyLog>, today: Date)
    requires exists l :: l in logs && MoodRated(today)(l)
    requires forall l :: l in logs && MoodRated(today)(l) ==> MoodOf(l) <= 2.0
    ensures MoodLowDetected(logs, today)
  {
    var recent := Filter(logs, MoodRated(today));
    var l :| l in logs && MoodRated(today)(l);
    assert l in recent;
  }

  /** Recent ratings all at 3 or above never raise the mood check: the
      latest is above 2 and so is the average. */
  lemma {:induction false} GoodMoodsQuiet(logs: seq<DailyLog>, today: Date)
    requires forall l :: l in logs && MoodRated(today)(l) ==> MoodOf(l) >= 3.0
    ensures !MoodLowDetected(logs, today)
  {
    var recent := Filter(logs, MoodRated(today));
    if |recent| > 0 {
      var ms := Moods(recent);
      forall i | 0 <= i < |ms| ensures 3.0 <= ms[i] <= ms[ArgMax(ms)] {
        assert recent[i] in recent;
      }
      MeanBounds(ms, 3.0, ms[ArgMax(ms)]);
      assert Latest(recent) in recent;
    }
  }

  /** A low average raises the mood check even when the latest rating is
      fine: ratings 3 today and 1 on the two days before. */
  lemma LowAverageAloneDetected(today: Date)
    ensures var logs := [
        DailyLog(today, Some(3), None, None, None, None, ""),
        DailyLog(today - 1, Some(1), None, None, None, None, ""),
        DailyLog(today - 2, Some(1), None, None, None, None, "")];
      MoodLowDetected(logs, today) && MoodOf(Latest(Filter(logs, MoodRated(today)))) == 3.0
  {
    var logs := [
        DailyLog(today, Some(3), None, None, None, None, ""),
        DailyLog(today - 1, Some(1), None, None, None, None, ""),
        DailyLog(today - 2, Some(1), None, None, None, None, "")];
    var p := MoodRated(today);
    var a, b, c := logs[0], logs[1], logs[2];
    assert p(a) && p(b) && p(c);
    assert logs[1..] == [b, c] && [b, c][1..] == [c] && [c][1..] == [];
    assert Filter([c], p) == [c];
    assert Filter([b, c], p) == [b, c];
    assert Filter(logs, p) == logs;
    assert Latest([c]) == c;
    assert Latest([b, c]) == b;
    assert Latest(logs) == a;
    var ms := Moods(logs);
    assert ms == [3.0, 1.0, 1.0];
    assert ms[1..] == [1.0, 1.0] && [1.0, 1.0][1..] == [1.0] && [1.0][1..] == [];
    assert Sum(ms) == 5.0;
    assert Mean(ms) == 5.0 / 3.0;
  }

  /** Adherence scores all at 6 or below always raise the adherence check. */
  lemma {:induction false} LowAdherenceDetected(logs: seq<DailyLog>, today: Date)
    requires exists l :: l in logs && AdherenceRated(today)(l)
    requires forall l :: l in logs && AdherenceRated(today)(l) ==> AdherenceOf(l) <= 6.0
    ensures AdherenceDropDetected(logs, today)
  {
    var recent := Filter(logs, AdherenceRated(today));
    var l :| l in logs && AdherenceRated(today)(l);
    assert l in recent;
    var xs := Adherences(recent);
    forall i | 0 <= i < |xs| ensures xs[ArgMin(xs)] <= xs[i] <= 6.0 {
      assert recent[i] in recent;
    }
    MeanBounds(xs, xs[ArgMin(xs)], 6.0);
  }

  /** Adherence scores all at 7 or above never raise the adherence check. */
  lemma {:induction false} HighAdherenceQuiet(logs: seq<DailyLog>, today: Date)
    requires forall l :: l in logs && AdherenceRated(today)(l) ==> AdherenceOf(l) >= 7.0
    ensures !AdherenceDropDetected(logs, today)
  {
    var recent := Filter(logs, AdherenceRated(today));
    if |recent| > 0 {
      var xs := Adherences(recent);
      forall i | 0 <= i < |xs| ensures 7.0 <= xs[i] <= xs[ArgMax(xs)] {
        assert recent[i] in recent;
      }
      MeanBounds(xs, 7.0, xs[ArgMax(xs)]);
    }
  }

  /** A log dated more than three days before today changes neither
      check. */
  lemma {:induction false} OldLogIgnored(logs: seq<DailyLog>, stale: DailyLog, today: Date)
    requires stale.date < today - TriggerWindowDays
    ensures MoodLowDetected(logs + [stale], today) == MoodLowDetected(logs, today)
    ensures AdherenceDropDetected(logs + [stale], today) == AdherenceDropDetected(logs, today)
  {
    FilterAppend(logs, [stale], MoodRated(today));
    FilterAppend(logs, [stale], AdherenceRated(today));
    assert Filter([stale], MoodRated(today)) == [];
    assert Filter([stale], AdherenceRated(today)) == [];
    assert Filter(logs, MoodRated(today)) + [] == Filter(logs, MoodRated(today));
    assert Filter(logs, AdherenceRated(today)) + [] == Filter(logs, AdherenceRated(today));
  }

  // ---------------------------------------------------------------------
  // Notifying the support network
  // ---------------------------------------------------------------------

  /** `templates.get(trigger, generic)`: the four written templates, and
      the generic one-line message for every other trigger. */
  function TemplateFor(trigger: string): (m: Message)
    ensures m.EmergencyRequest? == false
    ensures m == GenericMessage <==>
      trigger != MoodLow && trigger != AdherenceDrop && trigger != MissedActivities && trigger != EmergencyTrigger
  {
    if trigger == MoodLow then MoodLowMessage
    else if trigger == AdherenceDrop then AdherenceDropMessage
    else if trigger == MissedActivities then MissedActivitiesMessage
    else if trigger == EmergencyTrigger then EmergencyMessage
    else GenericMessage
  }

  /** The trigger a written template belongs to. */
  function TriggerOf(m: Message): (t: Option<string>)
    ensures t.None? <==> m == GenericMessage || m.EmergencyRequest?
  {
    match m
    case MoodLowMessage => Some(MoodLow)
    case AdherenceDropMessage => Some(AdherenceDrop)
    case MissedActivitiesMessage => Some(MissedActivities)
    case EmergencyMessage => Some(EmergencyTrigger)
    case _ => None
  }

  /** Templates and their triggers determine each other. */
  lemma TemplateRoundTrip(trigger: string, m: Message)
    ensures TemplateFor(trigger) != GenericMessage ==> TriggerOf(TemplateFor(trigger)) == Some(trigger)
    ensures TriggerOf(m).Some? ==> TemplateFor(TriggerOf(m).value) == m
  {
  }

  function IsActive(c: Contact): bool { c.isActive }

  /** `preferences.get(trigger, True)` is truthy; a contact who never set a
      preference for the trigger is notified. */
  predicate Wants(c: Contact, trigger: string)
    ensures !HasKey(c.preferences, trigger) ==> Wants(c, trigger)
  {
    Truthy(Lookup(c.preferences, trigger, Flag(true)))
  }

  function Wanting(trigger: string): Contact -> bool {
    (c: Contact) => Wants(c, trigger)
  }

  /** A notification for `trigger` was sent at or after 24 hours before
      `now`. */
  predicate RecentlyNotified(notes: seq<Notification>, trigger: string, now: Instant) {
    exists i :: 0 <= i < |notes| && notes[i].trigger == trigger && notes[i].sentAt >= now - RepeatWindow
  }

  /** One record per recipient whose email went out, in recipient order;
      the record of a failed email is deleted again. */
  function Deliver(rs: seq<Contact>, trigger: string, msg: Message, now: Instant,
                   delivered: Contact -> bool): (r: seq<Notification>)
    ensures |r| == |Filter(rs, delivered)|
    ensures forall n :: n in r ==> n.trigger == trigger && n.message == msg && n.sentAt == now
    ensures forall c :: c in rs && delivered(c) ==> Notification(c.id, trigger, msg, now) in r
    ensures forall n :: n in r ==> exists c :: c in rs && delivered(c) && n.contactId == c.id
  {
    if |rs| == 0 then []
    else
      var tail := rs[1..];
      var rest := Deliver(tail, trigger, msg, now, delivered);
      var head := if delivered(rs[0]) then [Notification(rs[0].id, trigger, msg, now)] else [];
      var r := head + rest;
      forall n | n in r ensures n.trigger == trigger && n.message == msg && n.sentAt == now
        && exists c :: c in rs && delivered(c) && n.contactId == c.id
      {
        if n in head {
          assert rs[0] in rs;
        } else {
          var c :| c in tail && delivered(c) && n.contactId == c.id;
          assert c in rs;
        }
      }
      forall c | c in rs && delivered(c) ensures Notification(c.id, trigger, msg, now) in r {
        if c != rs[0] {
          var k :| 0 <= k < |rs| && rs[k] == c;
          assert tail[k - 1] == c;
        }
      }
      r
  }

  /** Some email goes out exactly when a recipient's delivery succeeds. */
  lemma DeliveredSomeone(rs: seq<Contact>, delivered: Contact -> bool)
    ensures |Filter(rs, delivered)| > 0 <==> exists c :: c in rs && delivered(c)
  {
    if exists c :: c in rs && delivered(c) {
      var c :| c in rs && delivered(c);
      assert c in Filter(rs, delivered);
    }
  }

  /** `trigger_support_notification`: nothing happens without an active
      contact or when the trigger was notified in the last 24 hours;
      otherwise every active contact who wants the trigger gets a record
      and an email, and the record stays only if the email went out. The
      result says whether at least one email went out. */
  function TriggerNotification(contacts: seq<Contact>, notes: seq<Notification>, trigger: string,
                               now: Instant, delivered: Contact -> bool): (o: Outcome)
    ensures |notes| <= |o.notes| && o.notes[..|notes|] == notes
    ensures (forall c :: c in contacts ==> !c.isActive) ==> o == Outcome(false, notes)
    ensures RecentlyNotified(notes, trigger, now) ==> o == Outcome(false, notes)
    ensures o.result <==> |o.notes| > |notes|
    ensures o.result <==>
      !RecentlyNotified(notes, trigger, now) &&
      exists c :: c in contacts && c.isActive && Wants(c, trigger) && delivered(c)
    ensures forall n :: n in o.notes[|notes|..] ==>
      n.trigger == trigger && n.message == TemplateFor(trigger) && n.sentAt == now &&
      exists c :: c in contacts && c.isActive && Wants(c, trigger) && delivered(c) && n.contactId == c.id
    ensures !RecentlyNotified(notes, trigger, now) ==>
      forall c :: c in contacts && c.isActive && Wants(c, trigger) && delivered(c) ==>
        Notification(c.id, trigger, TemplateFor(trigger), now) in o.notes
  {
    var active := Filter(contacts, IsActive);
    if active == [] then Outcome(false, notes)
    else if RecentlyNotified(notes, trigger, now) then Outcome(false, notes)
    else
      var rs := Filter(active, Wanting(trigger));
      var added := Deliver(rs, trigger, TemplateFor(trigger), now, delivered);
      var r := notes + added;
      assert r[..|notes|] == notes && r[|notes|..] == added;
      forall c ensures c in rs <==> c in contacts && c.isActive && Wants(c, trigger) {
        assert Wanting(trigger)(c) == Wants(c, trigger);
        assert IsActive(c) == c.isActive;
      }
      DeliveredSomeone(rs, delivered);
      Outcome(|added| > 0, r)
  }

  /** A notification that reached someone blocks the same trigger for the
      next 24 hours, whoever the contacts and whatever the email outcomes
      by then. */
  lemma {:induction false} RepeatSuppressed(contacts: seq<Contact>, notes: seq<Notification>, trigger: string,
                                            now: Instant, delivered: Contact -> bool,
                                            later: seq<Contact>, now2: Instant, delivered2: Contact -> bool)
    requires TriggerNotification(contacts, notes, trigger, now, delivered).result
    requires now <= now2 <= now + RepeatWindow
    ensures var first := TriggerNotification(contacts, notes, trigger, now, delivered).notes;
      TriggerNotification(later, first, trigger, now2, delivered2) == Outcome(false, first)
  {
    var first := TriggerNotification(contacts, notes, trigger, now, delivered).notes;
    var k := |notes|;
    assert first[k] in first[k..];
    assert first[k].trigger == trigger && first[k].sentAt == now;
    assert RecentlyNotified(first, trigger, now2);
  }

  /** Notifications of one trigger never hold back another. */
  lemma OtherTriggerDoesNotBlock(contacts: seq<Contact>, notes: seq<Notification>, other: string,
                                 trigger: string, now: Instant, delivered: Contact -> bool)
    requires forall n :: n in notes ==> n.trigger == other
    requires other != trigger
    ensures TriggerNotification(contacts, notes, trigger, now, delivered).result <==>
      exists c :: c in contacts && c.isActive && Wants(c, trigger) && delivered(c)
  {
    forall i | 0 <= i < |notes| ensures notes[i].trigger != trigger {
      assert notes[i] in notes;
    }
    assert !RecentlyNotified(notes, trigger, now);
  }

  /** `check_mood_triggers`: the verdict, and the notification it sends
      when the verdict is positive. The verdict does not depend on whether
      any email went out. */
  function CheckMoodTriggers(logs: seq<DailyLog>, today: Date, contacts: seq<Contact>,
                             notes: seq<Notification>, now: Instant, delivered: Contact -> bool): (o: Outcome)
    ensures o.result <==>
      (exists l :: l in logs && l.date >= today - TriggerWindowDays && l.mood.Some?) &&
      (var recent := Filter(logs, MoodRated(today));
       MoodOf(Latest(recent)) <= 2.0 || Mean(Moods(recent)) <= 2.5)
    ensures !o.result ==> o.notes == notes
    ensures o.result ==> o.notes == TriggerNotification(contacts, notes, MoodLow, now, delivered).notes
  {
    var recent := Filter(logs, MoodRated(today));
    assert recent != [] <==> exists l :: l in logs && l.date >= today - TriggerWindowDays && l.mood.Some? by {
      if recent != [] { assert recent[0] in recent; }
    }
    if MoodLowDetected(logs, today) then
      Outcome(true, TriggerNotification(contacts, notes, MoodLow, now, delivered).notes)
    else Outcome(false, notes)
  }

  /** `check_adherence_triggers`, likewise for the adherence scores. */
  function CheckAdherenceTriggers(logs: seq<DailyLog>, today: Date, contacts: seq<Contact>,
                                  notes: seq<Notification>, now: Instant, delivered: Contact -> bool): (o: Outcome)
    ensures o.result <==>
      (exists l :: l in logs && l.date >= today - TriggerWindowDays && l.adherence.Some?) &&
      Mean(Adherences(Filter(logs, AdherenceRated(today)))) <= 6.0
    ensures !o.result ==> o.notes == notes
    ensures o.result ==> o.notes == TriggerNotification(contacts, notes, AdherenceDrop, now, delivered).notes
  {
    var recent := Filter(logs, AdherenceRated(today));
    assert recent != [] <==> exists l :: l in logs && l.date >= today - TriggerWindowDays && l.adherence.Some? by {
      if recent != [] { assert recent[0] in recent; }
    }
    if AdherenceDropDetected(logs, today) then
      Outcome(true, TriggerNotification(contacts, notes, AdherenceDrop, now, delivered).notes)
    else Outcome(false, notes)
  }

  // ---------------------------------------------------------------------
  // Emergency requests
  // ---------------------------------------------------------------------

  function IsActiveEmergency(c: Contact): bool { c.isActive && c.emergency }

  /** The active emergency contacts, or every active contact when none is
      flagged for emergencies. */
  function EmergencyRecipients(contacts: seq<Contact>): (r: seq<Contact>)
    ensures (exists c :: c in contacts && c.isActive && c.emergency) ==>
      forall c :: c in r <==> c in contacts && c.isActive && c.emergency
    ensures (forall c :: c in contacts ==> !(c.isActive && c.emergency)) ==>
      forall c :: c in r <==> c in contacts && c.isActive
    ensures r == [] <==> forall c :: c in contacts ==> !c.isActive
  {
    var flagged := Filter(contacts, IsActiveEmergency);
    if flagged != [] then
      assert flagged[0] in flagged;
      flagged
    else
      var active := Filter(contacts, IsActive);
      assert active != [] ==> active[0] in active;
      active
  }

  /** `request_emergency_support`: every recipient gets an "emergency"
      record carrying the user's words, kept only if the email went out;
      neither the 24-hour guard nor the contacts' preferences apply. */
  function RequestEmergencySupport(contacts: seq<Contact>, notes: seq<Notification>, userText: string,
                                   now: Instant, delivered: Contact -> bool): (o: Outcome)
    ensures |notes| <= |o.notes| && o.notes[..|notes|] == notes
    ensures o.result <==> |o.notes| > |notes|
    ensures o.result <==> exists c :: c in EmergencyRecipients(contacts) && delivered(c)
    ensures |o.notes| - |notes| == |Filter(EmergencyRecipients(contacts), delivered)|
    ensures forall n :: n in o.notes[|notes|..] ==>
      n.trigger == EmergencyTrigger && n.message == EmergencyRequest(userText) && n.sentAt == now &&
      exists c :: c in EmergencyRecipients(contacts) && delivered(c) && n.contactId == c.id
  {
    var rs := EmergencyRecipients(contacts);
    var added := Deliver(rs, EmergencyTrigger, EmergencyRequest(userText), now, delivered);
    var r := notes + added;
    assert r[..|notes|] == notes && r[|notes|..] == added;
    assert added == [] <==> forall c :: c in rs ==> !delivered(c) by {
      var ok := Filter(rs, delivered);
      assert ok == [] <==> forall i :: 0 <= i < |rs| ==> !delivered(rs[i]);
    }
    Outcome(|added| > 0, r)
  }

  /** An emergency request that reached someone also holds back a regular
      "emergency" notification for the next 24 hours. */
  lemma {:induction false} EmergencyBlocksEmergencyTrigger(contacts: seq<Contact>, notes: seq<Notification>,
                                                           userText: string, now: Instant,
                                                           delivered: Contact -> bool, now2: Instant,
                                                           delivered2: Contact -> bool)
    requires now <= now2 <= now + RepeatWindow
    ensures var o := RequestEmergencySupport(contacts, notes, userText, now, delivered);
      o.result ==> !TriggerNotification(contacts, o.notes, EmergencyTrigger, now2, delivered2).result
  {
    var o := RequestEmergencySupport(contacts, notes, userText, now, delivered);
    if o.result {
      var k := |notes|;
      assert o.notes[k] in o.notes[k..];
      assert RecentlyNotified(o.notes, EmergencyTrigger, now2);
    }
  }
}
